=== FILE: README.md ===
# code-code-server launcher and Servarr secret sanitiser, modelled in Dafny

The repository holds two tools.

- **code-code-server** is a Go launcher. It runs the VS Code server (`code-server`) inside a project's dev container. It reads `.devcontainer/devcontainer.json` and extends the project's Dockerfile into a derived Dockerfile. That Dockerfile installs code-server and embeds the user's settings, keybindings and an entry script as Base64 payloads. The launcher then builds the image with `docker build -f -`, works out the service URL and the workspace mount, and starts the container with `docker run`.
- **sanitize-servarr-configs.py** is a Python script. It copies a Servarr configuration tree and replaces credentials with `PLACEHOLDER_…` strings. It handles JSON documents, XML element trees, SQLite tables and free text. While it runs, it keeps counters of what it found and what it sanitised.

The model covers three cores. Each is a set of pure functions over immutable datatypes.

- **`Dockerfile`** (`dockerfile.dfy`) is the Dockerfile synthesiser. It builds the nine sections, handles the payload echo lines, merges settings, searches for keybindings, installs extensions, and applies the degrade-to-empty failure policy.
- **`Project`** (`project.dfy`) is the launcher's argument and naming logic. It covers:
  - the image tag and the build context;
  - the `docker build` and `docker run` argument lists;
  - the interpolation environment and the default workspace templates;
  - the random container name;
  - the service URL.
- **`Sanitizer`** (`sanitizer.dfy`) is the secret sanitiser. It covers:
  - the sensitive-key and sensitive-column predicates;
  - placeholder naming;
  - the recursive JSON pass and the XML element walk;
  - the SQLite column update;
  - the free-text pass, with the regular-expression engine as a parameter;
  - the counters.

Supporting modules model what these cores call:

| module | file | what it models |
|---|---|---|
| `Base64` | `base64.dfy` | The standard padded Base64 alphabet of section 4 of RFC 4648 |
| `Utf8` | `utf8.dfy` | UTF-8 encoding of strings to bytes, as in Go's `[]byte(s)` |
| `FilePath` | `filepath.dfy` | Go's Unix `path/filepath` functions `Clean`, `Join`, `Dir`, `Base` and `IsAbs` |
| `Interpolate` | `interpolate.dfy` | The `${name}` template expansion. This is an approximation: see "Left out" |
| `Strings` | `strings.dfy` | Join, split, ASCII case mapping, substring search and decimal numbers |
| `DevContainers` | `devcontainer.dfy` | The descriptor record, with Go zero values for absent fields |
| `Settings` | `settings.dfy` | The settings store, as a map from file name to contents |
| `Json`, `Wrappers`, `Seqs` | | A JSON value type, `Option`/`Result`, and small sequence lemmas |

Each foreign library is a parameter of the model, not an implementation:

| parameter | stands for |
|---|---|
| `Dockerfile.JsonCodec` | json5 decoding and the indented JSON encoder |
| `Sanitizer.RegexEngine` | `re.findall` and `re.sub` with `IGNORECASE` |

Randomness, the host name and the port are also plain parameters: `draws`, `host` and `port`. Reading the base Dockerfile becomes a lookup in a map from path to contents.

Two path rules of the code are worth stating:

- The base Dockerfile is always read from `DirPath` joined with `Build.Dockerfile`, even when `Build.Dockerfile` is absolute (code-server/dockerfile/dockerfile.go:152). `Dockerfile.DockerfilePath` therefore always joins.
- A build context, by contrast, is used as-is when it is absolute (code-server/project.go:63-69).

## Model

| member | source | states |
|---|---|---|
| Dockerfile.FixedLines | code-server/dockerfile/dockerfile.go:25-28 | None of the fixed Dockerfile lines (install, `ENTRYPOINT`, config, chmod, mkdir, code-server launch) contains a newline, so each is exactly one line of the result |
| Dockerfile.EchoLineWrites | code-server/dockerfile/dockerfile.go:42-46 | A `RUN echo '<base64>' \| base64 -d > path` line, read back by Base64-decoding and UTF-8-decoding its payload, writes exactly the original text to exactly the original path |
| Dockerfile.EntryScriptWrites | code-server/dockerfile/dockerfile.go:36-51 | The entry-script section is three lines: `mkdir`, the echo line that writes the script to `/opt/code-server/entrypoint.sh`, and `chmod +x` |
| Dockerfile.EntryScriptTextLines | code-server/dockerfile/dockerfile.go:30-41 | The script's lines are `#!/bin/bash`, `set -e`, `set -x`, then the lines of `PostCreateCommand`, then the code-server launch line. An empty command gives one empty line |
| Dockerfile.Merge | code-server/dockerfile/dockerfile.go:77 | The merged settings hold the descriptor's keys and every remote key whose value is not null. The descriptor's value wins on every key where it is not null. A non-null remote value fills in the keys the descriptor lacks and the keys where the descriptor's value is null. A null remote value is skipped, so a key only the remote side has, with a null value, is not added |
| Dockerfile.MergeIsOverride | code-server/dockerfile/dockerfile.go:77 | The merge is `dst` overridden by the non-null entries of `src`, then by the non-null entries of `dst`. Without nulls in `dst` it is the non-null part of `src` overridden by `dst` |
| Dockerfile.MergeNeutral | code-server/dockerfile/dockerfile.go:77 | Merging the empty map in changes nothing, and merging a map into itself changes nothing. Merging into the empty map keeps the non-null entries, so a map without nulls comes back whole |
| Dockerfile.SettingsObject | code-server/dockerfile/dockerfile.go:68-79 | Nil descriptor settings act as an empty map. Remote settings are used only when `settings.json` is stored and parses as an object. Without them the object is the descriptor's settings. With them it is their merge: the keys are the descriptor's keys plus the remote keys with non-null values, every non-null descriptor value is kept, and a key only the remote settings have takes the remote value when it is not null and is absent when it is null |
| Dockerfile.SettingsSection | code-server/dockerfile/dockerfile.go:81-92 | The settings section succeeds exactly when the JSON encoding of the merged object succeeds, and otherwise carries the encoder's error |
| Dockerfile.SettingsSectionWrites | code-server/dockerfile/dockerfile.go:81-92 | The section is `mkdir` followed by an echo line that writes the encoded object to the user `settings.json`. If the codec's parse inverts its encoder, parsing the written file gives back the merged object |
| Dockerfile.Keybindings | code-server/dockerfile/dockerfile.go:101-125 | A keybinding file is acceptable exactly when it is in the store, is non-empty, parses as a keybinding list and re-encodes. The text it yields is that encoding |
| Dockerfile.FirstAcceptable | code-server/dockerfile/dockerfile.go:101-126 | The search returns the first acceptable candidate, with every earlier candidate unacceptable. It returns none exactly when no candidate is acceptable |
| Dockerfile.KeybindingsSection | code-server/dockerfile/dockerfile.go:95-129 | The keybindings section is empty exactly when neither `keybindings.json` nor `keybindingsMac.json` is acceptable |
| Dockerfile.KeybindingsPreference | code-server/dockerfile/dockerfile.go:96-125 | An acceptable `keybindings.json` is preferred; `keybindingsMac.json` is used only when the first is not acceptable. Either way the section is `mkdir` plus the echo line writing `keybindings.json` |
| Dockerfile.ExtensionLines | code-server/dockerfile/dockerfile.go:137-139 | Line `i` installs extension `i`: the order is kept, with no deduplication and one line per extension |
| Dockerfile.ExtensionsSection | code-server/dockerfile/dockerfile.go:135-143 | The extensions section is empty exactly when the descriptor lists no extension |
| Dockerfile.ExtensionsInstalled | code-server/dockerfile/dockerfile.go:135-143 | A non-empty list gives as many lines as extensions, and line `i` installs extension `i` |
| Dockerfile.WrapDockerFile | code-server/dockerfile/dockerfile.go:149-206 | Synthesis fails exactly when the base Dockerfile at `DirPath`/`Build.Dockerfile` cannot be read. On success the text starts with the base file and the install line, and ends with the config, chmod and `ENTRYPOINT` lines |
| Dockerfile.WrapLines | code-server/dockerfile/dockerfile.go:193-205 | The lines of the result are, in order: the base file's lines, the install line, the settings, keybindings, entry-script and extension sections' lines, then the config, chmod and `ENTRYPOINT` lines. An empty section still gives one empty line |
| Dockerfile.LinesOfNine | code-server/dockerfile/dockerfile.go:194-203 | Splitting nine newline-joined sections into lines gives each section's lines in order; a one-line section gives exactly itself |
| Dockerfile.SettingsFailureDegrades | code-server/dockerfile/dockerfile.go:181-185 | A settings encoding failure does not abort synthesis: the settings section becomes `""` and the whole call still succeeds |
| Dockerfile.ReferenceDockerfile | code-server/dockerfile/dockerfile_test.go:23-57 | For the reference case (`FROM golang:1.12.5`, name `test`, empty store and an encoder that turns `{}` into `"{}\n"`), the result succeeds and its lines are the expected ones: the `e30K` settings payload and the two empty sections literally, and the entry-script line as the echo line of the reference script (its Base64 text is not spelled out) |
| Dockerfile.ReferenceEmptySections | code-server/dockerfile/dockerfile_test.go:46-50 | In the reference case the keybindings and extensions sections are empty, and each empty section is one empty line |
| Dockerfile.ReferenceEntryScript | code-server/dockerfile/dockerfile_test.go:48 | The reference entry script is `#!/bin/bash`, `set -e`, `set -x`, an empty line, then the launch line |
| Dockerfile.ReferenceSettings | code-server/dockerfile/dockerfile_test.go:44-45 | The reference settings section is `mkdir` and `RUN echo 'e30K' \| base64 -d > /opt/code-server/.vscode/User/settings.json` |
| Project.ImageTag | code-server/project.go:57-61 | The tag is the name with ASCII letters lower-cased and spaces replaced by `_`, followed by `_code_coder_server`. It has no space and no upper-case letter |
| Project.ImageTagIgnoresCase | code-server/project.go:57-61 | Names that differ only in letter case give the same tag |
| Project.ImageTagCollision | code-server/project.go:57-61 | Distinct names can share a tag: `My App` and `my_app` both give `my_app_code_coder_server` |
| Project.BuildContext | code-server/project.go:63-69 | An absolute context is returned unchanged. A relative one is `filepath.Join(DirPath, context)`. The result is empty only when both parts are empty |
| Project.BuildContextAbsolute | code-server/project.go:63-69 | With an absolute descriptor directory, the build context is absolute. A relative context yields a cleaned path |
| Project.BuildArgPairsAt | code-server/project.go:81-83 | The build-arg pairs follow the iteration order: position `2i` holds `--build-arg` and position `2i+1` holds `k=v` for the `i`-th key |
| Project.BuildArgs | code-server/project.go:80-84 | The build list is `build -t <tag> -f -`, then one `--build-arg k=v` pair per argument, then the context. Its length is `6 + 2·|Args|` |
| Project.BuildArgsCoverKeys | code-server/project.go:80-84 | Every build argument `k` with value `v` appears as a `k=v` entry of the list |
| Project.IterationOrder | code-server/project.go:81 | Go's map iteration yields some enumeration of the keys, each key exactly once |
| Project.BuildArgPairsPermutation | code-server/project.go:81-83 | Two iteration orders that are permutations of each other give pair lists that are permutations of each other |
| Project.BuildArgsOrderIrrelevant | code-server/project.go:80-84 | Whatever order the map is iterated in, the build lists are permutations of each other |
| Project.MapEnvOfClean | code-server/project.go:160-168 | For a clean absolute `DirPath` `/e1/…/en`, the folder is `/e1/…/e(n-1)` and its basename is `e(n-1)` |
| Project.WorkspaceBinding | code-server/project.go:170-178 | Without a `workspaceMount`, the binding is `source=<Dir(DirPath)>,target=/workspace/<Base(Dir(DirPath))>,type=bind` and never fails. A mount without `$` is used exactly as given. Any other mount is interpolated in the two-variable environment |
| Project.WorkspaceFolder | code-server/project.go:180-188 | Without a `workspaceFolder`, the folder is `/workspace/<Base(Dir(DirPath))>` and never fails. A folder without `$` is used exactly as given. Any other folder is interpolated in the two-variable environment |
| Project.UnsetVariableVanishes | code-server/project.go:176-177 | A mount that starts with a reference to a variable outside the environment binds as the rest of the mount: the reference expands to nothing and is not an error |
| Project.UnclosedReferenceFails | code-server/project.go:176-177 | A mount with a `${` that no `}` closes is an error, not a binding |
| Project.LetterTable | code-server/project.go:191 | The 52-letter alphabet `a…zA…Z` and its index are inverse bijections |
| Project.MakeRandomString | code-server/project.go:190-197 | The container name has 16 characters. Character `i` is the ASCII letter at position `draws[i]` of the alphabet |
| Project.UrlRoundTrip | code-server/project.go:25-27 | `http://<host>:<port>/?folder=<folder>` parses back to the same host, port and folder whenever the host has no `:` |
| Project.GetServiceUrl | code-server/project.go:132-158 | With host and port given, the service URL succeeds exactly when the workspace folder interpolates, and then carries that folder. Without a `workspaceFolder` it always succeeds with `/workspace/<Base(Dir(DirPath))>`. Its string form parses back to it whenever the host has no `:` |
| Project.ForwardPortArgs | code-server/project.go:215-217 | Each forwarded port gives the pair `-p <v>`, in declaration order |
| Project.RunArgsLayout | code-server/project.go:199-222 | The run list fails exactly when the workspace binding fails, and then carries its error. Otherwise it is, in order: `run --rm -p 0.0.0.0:<port>:8080 --name <name>`, `--mount <binding>`, `-w <folder>`, the run args verbatim, one `-p <v>` pair per forwarded port, `-u <user>` only if set, and the tag last. Its length follows from these parts |
| Project.NewContainerContext | code-server/project.go:199-233 | The method returns a 16-letter name and the run list for that name, and fails exactly when the workspace binding fails |
| Project.BuildImage | code-server/project.go:71-94 | The build fails exactly when the Dockerfile cannot be synthesised. On success it runs the build plan for the synthesised text |
| Project.Plan | code-server/project.go:77-86 | The build plan feeds the synthesised text on stdin and is tagged with the image tag. Its arguments are `build -t <tag> -f -`, then `--build-arg k=v` for each build argument in iteration order, then the build context |
| Base64.DecodeEncode | code-server/dockerfile/dockerfile.go:42 | Decoding the standard Base64 encoding of any bytes gives those bytes back |
| Base64.EncodeDecode | code-server/dockerfile/dockerfile.go:42 | Every text the decoder accepts is the encoding of what it decodes to, so the encoding is canonical |
| Base64.DecodeIff | code-server/dockerfile/dockerfile.go:42 | A text decodes to given bytes exactly when it is their encoding |
| Base64.EncodeLength | code-server/dockerfile/dockerfile.go:42 | The encoding of `n` bytes has `4·⌈n/3⌉` characters |
| Base64.EncodeConcat | code-server/dockerfile/dockerfile.go:42 | Encoding distributes over concatenation when the first part's length is a multiple of three |
| Base64.EncodingIsShellSafe | code-server/dockerfile/dockerfile.go:46 | An encoding contains neither `'` nor a newline, so it stays inside the single-quoted `echo` argument on one line |
| Base64.EmptyObjectEncoding | code-server/dockerfile/dockerfile_test.go:45 | The bytes of `"{}\n"` encode to `e30K` |
| Utf8.DecodeEncode | code-server/dockerfile/dockerfile.go:42 | Decoding the UTF-8 bytes of any string gives the string back |
| Utf8.EncodeAscii | code-server/dockerfile/dockerfile.go:42 | An ASCII string encodes to one byte per character, each equal to its code |
| Utf8.EncodeAppend | code-server/dockerfile/dockerfile.go:42 | Encoding distributes over concatenation |
| FilePath.CleanIdempotent | code-server/project.go:67 | Cleaning a cleaned path changes nothing |
| FilePath.JoinPathAbs | code-server/project.go:67 | Joining onto an absolute directory gives an absolute, already clean path |
| FilePath.DirOfClean | code-server/project.go:161 | `Dir` of a clean absolute path drops its last element |
| FilePath.BaseOfClean | code-server/project.go:162 | `Base` of a clean absolute path is its last element |
| Interpolate.ExpandPlain | code-server/project.go:177 | A template without `$` expands to itself |
| Interpolate.ExpandVar | code-server/project.go:177 | A leading `${name}` expands to the variable's value, or to nothing when it is unset, followed by the expansion of the rest |
| Interpolate.ExpandUnset | code-server/project.go:177 | A leading `${name}` of an unset variable disappears: the result is the expansion of the rest, and it does not fail |
| Interpolate.ExpandUnclosed | code-server/project.go:177 | A `${` that no `}` closes makes the expansion fail |
| Interpolate.ExpandEmptyName | code-server/project.go:177 | An empty reference `${}` makes the expansion fail |
| Interpolate.ExpandTwoVars | code-server/project.go:173 | A template with two defined variable references between literal text expands to the text with both values substituted |
| Strings.DecimalRoundTrip | code-server/project.go:26 | The `%d` rendering of any integer, negative ones included, parses back to that integer |
| Sanitizer.Record | scripts/sanitize-servarr-configs.py:344-346 | Recording `n` items adds `n` to both found and sanitised and leaves the file counters alone, so balanced counters stay balanced |
| Sanitizer.NewConfig | scripts/sanitize-servarr-configs.py:42-82 | A new sanitiser has six pattern categories, from `api_keys` to `auth`, and nine column patterns |
| Sanitizer.TextPlaceholder | scripts/sanitize-servarr-configs.py:349 | A category's placeholder is `PLACEHOLDER_` followed by the upper-cased category name with every trailing `S` stripped |
| Sanitizer.PlaceholderNames | scripts/sanitize-servarr-configs.py:349 | The six placeholders are `PLACEHOLDER_API_KEY`, `_PASSWORD`, `_USERNAME`, `_SECRET`, `_TOKEN` and `_AUTH` |
| Sanitizer.SanitizeText | scripts/sanitize-servarr-configs.py:333-352 | Empty text is returned at once with no hit. Text on which no pattern matches comes back unchanged |
| Sanitizer.ApplyPatternsAppend | scripts/sanitize-servarr-configs.py:341-350 | Applying two pattern lists in turn is applying their concatenation: the texts chain and the hit counts add |
| Sanitizer.QuietText | scripts/sanitize-servarr-configs.py:341-352 | Text that no pattern matches passes all 21 patterns unchanged, with no hit |
| Sanitizer.SensitiveKeyIff | scripts/sanitize-servarr-configs.py:354-362 | A key is sensitive exactly when its lower-cased form contains one of the ten keywords |
| Sanitizer.SensitiveKeyIgnoresCase | scripts/sanitize-servarr-configs.py:356 | Sensitivity does not depend on the key's letter case |
| Sanitizer.SensitiveKeyExamples | scripts/sanitize-servarr-configs.py:354-362 | `ApiKey` is sensitive, and so is `monkey`, because the test is a substring test |
| Sanitizer.NamePlaceholder | scripts/sanitize-servarr-configs.py:274 | A key or column placeholder is `PLACEHOLDER_` followed by the upper-cased name, character by character |
| Sanitizer.RedactEntry | scripts/sanitize-servarr-configs.py:272-277 | A sensitive key holding a non-empty string becomes its placeholder. Any other entry keeps its recursive sanitisation. One extra hit is counted exactly when the placeholder differs from that sanitisation |
| Sanitizer.SanitizeValue | scripts/sanitize-servarr-configs.py:264-289 | Objects stay objects and arrays stay arrays, each of the same length. A string becomes its text-pass result, with that pass's hits. Null, booleans and numbers come back unchanged with no hit. A pass with no hit leaves the value unchanged, so no change goes uncounted |
| Sanitizer.JsonEntries | scripts/sanitize-servarr-configs.py:268-283 | Each object entry keeps its key. Its value is the key's placeholder if it redacts, and otherwise the recursive sanitisation of the original, including sensitive keys holding objects, arrays or `""`. Array items are sanitised in place |
| Sanitizer.JsonShape | scripts/sanitize-servarr-configs.py:264-289 | An object keeps its keys in order, an array its length, a string stays a string, and other scalars are untouched |
| Sanitizer.QuietValue | scripts/sanitize-servarr-configs.py:264-289 | With an engine that never matches, a document with no sensitive entry comes back unchanged and nothing is counted |
| Sanitizer.SecondPassQuiet | scripts/sanitize-servarr-configs.py:264-289 | With an engine that never matches, sanitising twice is sanitising once: the second pass changes nothing and counts nothing |
| Sanitizer.SanitizeAttributes | scripts/sanitize-servarr-configs.py:223-228 | Every attribute value goes through the text pass. Names and order are kept. With no hit the attributes are unchanged |
| Sanitizer.SanitizeContent | scripts/sanitize-servarr-configs.py:215-228 | Element text or an attribute value takes the text pass's result. When it changes, the hits are the pass's matches plus one, so at least two. When it does not change, the hits are the pass's own |
| Sanitizer.Walk | scripts/sanitize-servarr-configs.py:212-232 | The walk keeps an element's tag, its tail, and the number of its attributes and children. A walk with no hit returns the element unchanged, so no change in text, attributes or children goes uncounted |
| Sanitizer.WalkContent | scripts/sanitize-servarr-configs.py:212-232 | Non-empty text and every attribute value go through the text pass. Absent or empty text is left alone. Child `i` of the result is child `i` walked |
| Sanitizer.WalkKeepsShape | scripts/sanitize-servarr-configs.py:212-232 | The walk leaves the tree structure unchanged: tags, tails, which elements have text, attribute names, and the number and shape of children |
| Sanitizer.QuietWalk | scripts/sanitize-servarr-configs.py:212-232 | With an engine that never matches, the walk returns the tree it was given and counts nothing |
| Sanitizer.SensitiveColumnIff | scripts/sanitize-servarr-configs.py:158-164 | A column is sensitive exactly when its lower-cased name contains one of the column patterns |
| Sanitizer.SensitiveColumnsOf | scripts/sanitize-servarr-configs.py:158-164 | The selected columns are exactly the sensitive columns of the schema |
| Sanitizer.SensitiveColumnsAppend | scripts/sanitize-servarr-configs.py:158-164 | Selection distributes over a split of the schema, so schema order is kept |
| Sanitizer.SensitiveColumnsDistinct | scripts/sanitize-servarr-configs.py:158-164 | A column is selected at most once |
| Sanitizer.FindSensitiveColumns | scripts/sanitize-servarr-configs.py:158-164 | The loop that stops at the first matching pattern selects exactly the sensitive columns, in schema order |
| Sanitizer.UpdateColumn | scripts/sanitize-servarr-configs.py:169-172 | The `UPDATE` rewrites exactly the non-NULL, non-empty cells of the column. Its row count is the number of those cells, so zero exactly when no cell of the column is filled |
| Sanitizer.UpdateCell | scripts/sanitize-servarr-configs.py:169 | In one row only the updated column can change, and only if it held a non-NULL, non-empty value |
| Sanitizer.ColumnsCell | scripts/sanitize-servarr-configs.py:166-176 | After the columns from position `j` on are updated, each cell of those columns is its sanitised value and every earlier cell is unchanged |
| Sanitizer.ColumnsCount | scripts/sanitize-servarr-configs.py:166-176 | Updating the sensitive columns from position `j` on reports, summed over those columns, exactly the number of filled cells they held before the updates |
| Sanitizer.SanitizeTable | scripts/sanitize-servarr-configs.py:152-176 | Filled cells of sensitive columns become `PLACEHOLDER_<COLUMN>`. Every other cell, the table name and the schema are unchanged. The count is the number of filled cells in the sensitive columns |
| Sanitizer.SanitizeDatabase | scripts/sanitize-servarr-configs.py:149-176 | Every table in the catalogue is sanitised, in order. The hits are the number of filled cells in the sensitive columns of all tables |
| Sanitizer.Process | scripts/sanitize-servarr-configs.py:130-141 | One file through its loop: the database loop and the XML, JSON and config-file loops at lines 183-193, 234-244 and 291-303. A database becomes its tables each sanitised in order and bumps the database counter. XML becomes the walked tree, JSON the sanitised value, and a config file the text-pass result; each bumps the file counter. Both item counters rise by exactly the hits of that pass, which for a database are its filled sensitive cells. So balanced counters stay balanced, and a file other than a database that comes back changed always raises both item counters |
| Sanitizer.ProcessAll | scripts/sanitize-servarr-configs.py:92-113 | Over any sequence of files, file `i` comes back as `Process` makes it, whatever the counters. Found and sanitised both rise by the total hits, so they stay equal and never decrease. The database counter rises by the number of databases, the file counter by the number of other files |

## Left out

- Process execution and streaming are not modelled:
  - `exec.Command` and its stdout, stderr and stdin streaming in `BuildImage` and `NewContainerContext`: only the argument lists and the stdin text are modelled.
  - `ContainerContext.Run`, `stop` and `waitForSignal`: they are process and signal handling, which is concurrency.
- `getAvailablePort`, `getHostname`, `getIPAddress` and the host fallback in `GetServiceURL` are OS networking. Host and port are parameters of `Project.GetServiceUrl`.
- `math/rand` is not modelled. `Project.MakeRandomString` takes the random draws as a parameter.
- `devcontainer.ParseJson` is not modelled. It is a thin wrapper over the json5 library and the filesystem; the descriptor is a datatype.
- Some Go files are not part of this model:
  - `code-server/cmd/code/main.go` is command-line glue and `os.Stat` checks.
  - `code-server/settings/gist/gist.go` is a GitHub API client. The store is a map, as in the tests' in-memory store.
- Some foreign libraries are parameters, not implementations:
  - json5 decoding and `dumpAsJson` (`json.Encoder` with `json.Indent`) are the functions of `Dockerfile.JsonCodec`. Only their success or failure and their results are used.
  - The `re` engine is the functions of `Sanitizer.RegexEngine`. The pattern table and the order in which patterns are applied are modelled exactly, but what a pattern matches is not.
- Dockerfile.Merge: `mergo.Merge` is modelled at the top level only: the destination wins unless its value is null, and a null source value is skipped. Nested maps are not merged recursively. Later mergo versions also count `false`, `0`, `""`, `[]` and `{}` as empty and overwrite them; the model treats only null as empty. So Dockerfile.SettingsObject no longer promises that every descriptor value is kept, only every non-null one.
- Interpolate.Expand approximates `interpolate.Interpolate`:
  - It recognises only the braced `${name}` form, with everything up to the next `}` as the name.
  - An unset variable expands to nothing. An unclosed `${` and an empty `${}` are errors.
  - Any other template syntax the library accepts is not modelled: `$name`, `$$`, default and error operators, and the library's rules for valid identifiers.
- Dockerfile.ReferenceDockerfile: the entry-script line is stated as the echo line of the reference script, not as the 188-character Base64 literal of the test. Computing that encoding on a literal is out of reach of the verifier at reasonable cost; Dockerfile.EchoLineWrites proves the line decodes back to the script.
- Strings are Dafny strings of Unicode scalar values, so every input is taken to be valid UTF-8. Go strings are byte strings, and a base Dockerfile or setting that is not valid UTF-8 cannot be represented.
- Project.ImageTag: `strings.ToLower` is modelled on ASCII letters only. Unicode case mapping is out of scope.
- Sanitizer.NamePlaceholder and Sanitizer.TextPlaceholder use ASCII case mapping only, for the same reason.
- Sanitizer.IsSensitiveKey and Sanitizer.IsSensitiveColumn also use ASCII case mapping only, for the same reason.
- Project.IterationOrder: Go's map iteration order is unspecified. The method returns some enumeration of the keys, and the properties hold for every enumeration.
- The Python filesystem work is not modelled. This covers:
  - `_copy_configs`;
  - the `rglob` file discovery and the per-extension file selection;
  - reading and writing files;
  - `tree.write` and `json.dump`;
  - `_generate_report` and `main`.

  `Sanitizer.ProcessAll` takes the files already parsed.
- Parse failures are not modelled. An XML or JSON file that fails to parse falls back to the text pass, and the model represents that file directly as a `TextDocument`.
- The latin-1 retry after a `UnicodeDecodeError` is not modelled, for the same reason.
- Exceptions that the per-file loops catch and log are not modelled. In those cases the source skips the counter bump; the model assumes every file is processed.
- The SQLite engine is modelled only as what one `UPDATE … WHERE col IS NOT NULL AND col != ''` does to an in-memory table. The model does not cover:
  - SQL identifier quoting;
  - column type affinity;
  - `rowcount` quirks.
- Python's dynamic `isinstance` checks become the constructors of `Json.Value`. JSON numbers are kept as uninterpreted literals.
- `_sanitize_text_content` is never passed a non-string, so its `isinstance(text, str)` guard is not modelled.

=== FILE: base64.dfy ===
/** Base64 with the standard alphabet and `=` padding (section 4 of RFC 4648),
    as Go's `base64.StdEncoding.EncodeToString` produces it, together with the
    strict decoding that `base64 -d` performs on well-formed input. */
module Base64 {
  import opened Wrappers
  import opened Bytes

  /** The character for a 6-bit value (Table 1 of RFC 4648):
      `A`-`Z`, `a`-`z`, `0`-`9`, `+`, `/`. */
  function CharOf(i: nat): (c: char)
    requires i < 64
  {
    if i < 26 then (65 + i) as char
    else if i < 52 then (97 + i - 26) as char
    else if i < 62 then (48 + i - 52) as char
    else if i == 62 then '+'
    else '/'
  }

  /** The 6-bit value of an alphabet character; None for anything else, `=` included. */
  function ValueOf(c: char): (r: Option<nat>)
    ensures r.Some? ==> r.value < 64 && CharOf(r.value) == c
  {
    if 'A' <= c <= 'Z' then Some(c as int - 65)
    else if 'a' <= c <= 'z' then Some(c as int - 97 + 26)
    else if '0' <= c <= '9' then Some(c as int - 48 + 52)
    else if c == '+' then Some(62)
    else if c == '/' then Some(63)
    else None
  }

  lemma ValueOfCharOf(i: nat)
    requires i < 64
    ensures ValueOf(CharOf(i)) == Some(i)
  {
  }

  /** The characters an encoding may contain: the alphabet and the pad. */
  predicate IsEncodingChar(c: char)
  {
    ValueOf(c).Some? || c == '='
  }

  /** The four characters for a group of one to three bytes; a short group is
      padded with `=`. */
  function EncodeGroup(g: seq<Byte>): (q: string)
    requires 1 <= |g| <= 3
    ensures |q| == 4
  {
    if |g| == 1 then
      [CharOf(g[0] / 4), CharOf((g[0] % 4) * 16), '=', '=']
    else if |g| == 2 then
      [CharOf(g[0] / 4), CharOf((g[0] % 4) * 16 + g[1] / 16), CharOf((g[1] % 16) * 4), '=']
    else
      [CharOf(g[0] / 4), CharOf((g[0] % 4) * 16 + g[1] / 16), CharOf((g[1] % 16) * 4 + g[2] / 64), CharOf(g[2] % 64)]
  }

  /** Encodes three bytes at a time; a final group of one or two bytes is padded. */
  function Encode(b: seq<Byte>): string
    decreases |b|
  {
    if |b| == 0 then ""
    else if |b| <= 3 then EncodeGroup(b)
    else EncodeGroup(b[..3]) + Encode(b[3..])
  }

  /** The bytes of one group of four characters: three for a full group, two
      for `xxx=`, one for `xx==`. Bits left over by padding must be zero. */
  function DecodeGroup(q: string): Option<seq<Byte>>
    requires |q| == 4
  {
    var v0, v1, v2, v3 := ValueOf(q[0]), ValueOf(q[1]), ValueOf(q[2]), ValueOf(q[3]);
    if v0.None? || v1.None? then None
    else if q[2] == '=' && q[3] == '=' then
      if v1.value % 16 != 0 then None
      else Some([v0.value * 4 + v1.value / 16])
    else if v2.Some? && q[3] == '=' then
      if v2.value % 4 != 0 then None
      else Some([v0.value * 4 + v1.value / 16, (v1.value % 16) * 16 + v2.value / 4])
    else if v2.None? || v3.None? then None
    else
      Some([v0.value * 4 + v1.value / 16,
            (v1.value % 16) * 16 + v2.value / 4,
            (v2.value % 4) * 64 + v3.value])
  }

  /** Decodes four characters at a time. A padded group may only come last, so
      every accepted input is the encoding of exactly one byte sequence. */
  function Decode(s: string): Option<seq<Byte>>
    decreases |s|
  {
    if |s| == 0 then Some([])
    else if |s| < 4 then None
    else
      match DecodeGroup(s[..4])
      case None => None
      case Some(g) =>
        if |s| == 4 then Some(g)
        else if |g| < 3 then None
        else
          match Decode(s[4..])
          case None => None
          case Some(rest) => Some(g + rest)
  }

  /** Splitting three bytes into four 6-bit values and joining them again. */
  lemma GroupArith(b0: Byte, b1: Byte, b2: Byte)
    ensures var i0, i1, i2, i3 := b0 / 4, (b0 % 4) * 16 + b1 / 16, (b1 % 16) * 4 + b2 / 64, b2 % 64;
      && i0 < 64 && i1 < 64 && i2 < 64 && i3 < 64
      && i0 * 4 + i1 / 16 == b0
      && (i1 % 16) * 16 + i2 / 4 == b1
      && (i2 % 4) * 64 + i3 == b2
  {
    var i1, i2 := (b0 % 4) * 16 + b1 / 16, (b1 % 16) * 4 + b2 / 64;
    assert i1 / 16 == b0 % 4 && i1 % 16 == b1 / 16;
    assert i2 / 4 == b1 % 16 && i2 % 4 == b2 / 64;
  }

  /** Joining four 6-bit values into three bytes and splitting them again. */
  lemma ValuesArith(i0: nat, i1: nat, i2: nat, i3: nat)
    requires i0 < 64 && i1 < 64 && i2 < 64 && i3 < 64
    ensures var b0, b1, b2 := i0 * 4 + i1 / 16, (i1 % 16) * 16 + i2 / 4, (i2 % 4) * 64 + i3;
      && b0 < 256 && b1 < 256 && b2 < 256
      && b0 / 4 == i0
      && (b0 % 4) * 16 + b1 / 16 == i1
      && (b1 % 16) * 4 + b2 / 64 == i2
      && b2 % 64 == i3
  {
    var b0, b1, b2 := i0 * 4 + i1 / 16, (i1 % 16) * 16 + i2 / 4, (i2 % 4) * 64 + i3;
    assert b0 / 4 == i0 && b0 % 4 == i1 / 16;
    assert b1 / 16 == i1 % 16 && b1 % 16 == i2 / 4;
    assert b2 / 64 == i2 % 4 && b2 % 64 == i3;
  }

  /** One group: decoding its encoding restores its bytes. */
  lemma DecodeEncodeGroup(g: seq<Byte>)
    requires 1 <= |g| <= 3
    ensures DecodeGroup(EncodeGroup(g)) == Some(g)
  {
    if |g| == 1 {
      DecodeEncodeOne(g[0]);
      assert [g[0]] == g;
    } else if |g| == 2 {
      DecodeEncodeTwo(g[0], g[1]);
      assert [g[0], g[1]] == g;
    } else {
      DecodeEncodeThree(g[0], g[1], g[2]);
      assert [g[0], g[1], g[2]] == g;
    }
  }

  lemma DecodeEncodeOne(b0: Byte)
    ensures DecodeGroup(EncodeGroup([b0])) == Some([b0])
  {
    var i0, i1 := b0 / 4, (b0 % 4) * 16;
    GroupArith(b0, 0, 0);
    var q := EncodeGroup([b0]);
    assert q == [CharOf(i0), CharOf(i1), '=', '='];
    ValueOfCharOf(i0);
    ValueOfCharOf(i1);
    assert DecodeGroup(q) == Some([i0 * 4 + i1 / 16]);
  }

  lemma DecodeEncodeTwo(b0: Byte, b1: Byte)
    ensures DecodeGroup(EncodeGroup([b0, b1])) == Some([b0, b1])
  {
    var i0, i1, i2 := b0 / 4, (b0 % 4) * 16 + b1 / 16, (b1 % 16) * 4;
    GroupArith(b0, b1, 0);
    var q := EncodeGroup([b0, b1]);
    assert q == [CharOf(i0), CharOf(i1), CharOf(i2), '='];
    ValueOfCharOf(i0);
    ValueOfCharOf(i1);
    ValueOfCharOf(i2);
    assert q[2] != '=' by {
      NotPad(i2);
    }
    assert DecodeGroup(q) == Some([i0 * 4 + i1 / 16, (i1 % 16) * 16 + i2 / 4]);
  }

  lemma DecodeEncodeThree(b0: Byte, b1: Byte, b2: Byte)
    ensures DecodeGroup(EncodeGroup([b0, b1, b2])) == Some([b0, b1, b2])
  {
    var i0, i1, i2, i3 := b0 / 4, (b0 % 4) * 16 + b1 / 16, (b1 % 16) * 4 + b2 / 64, b2 % 64;
    GroupArith(b0, b1, b2);
    var q := EncodeGroup([b0, b1, b2]);
    assert q == [CharOf(i0), CharOf(i1), CharOf(i2), CharOf(i3)];
    ValueOfCharOf(i0);
    ValueOfCharOf(i1);
    ValueOfCharOf(i2);
    ValueOfCharOf(i3);
    assert q[2] != '=' && q[3] != '=' by {
      NotPad(i2);
      NotPad(i3);
    }
    assert DecodeGroup(q) == Some([i0 * 4 + i1 / 16, (i1 % 16) * 16 + i2 / 4, (i2 % 4) * 64 + i3]);
  }

  /** No alphabet character is the pad. */
  lemma NotPad(i: nat)
    requires i < 64
    ensures CharOf(i) != '='
  {
    ValueOfCharOf(i);
  }

  /** One group: whatever decodes is the encoding of its bytes. */
  lemma EncodeDecodeGroup(q: string)
    requires |q| == 4 && DecodeGroup(q).Some?
    ensures 1 <= |DecodeGroup(q).value| <= 3
    ensures EncodeGroup(DecodeGroup(q).value) == q
    ensures |DecodeGroup(q).value| < 3 <==> q[3] == '='
  {
    if q[2] == '=' && q[3] == '=' {
      EncodeDecodeOne(q);
    } else if ValueOf(q[2]).Some? && q[3] == '=' {
      EncodeDecodeTwo(q);
    } else {
      EncodeDecodeThree(q);
    }
  }

  lemma EncodeDecodeOne(q: string)
    requires |q| == 4 && DecodeGroup(q).Some? && q[2] == '=' && q[3] == '='
    ensures |DecodeGroup(q).value| == 1 && EncodeGroup(DecodeGroup(q).value) == q
  {
    var i0, i1 := ValueOf(q[0]).value, ValueOf(q[1]).value;
    ValuesArith(i0, i1, 0, 0);
    var g := DecodeGroup(q).value;
    assert g == [i0 * 4 + i1 / 16];
    assert EncodeGroup(g) == [q[0], q[1], q[2], q[3]];
  }

  lemma EncodeDecodeTwo(q: string)
    requires |q| == 4 && DecodeGroup(q).Some? && ValueOf(q[2]).Some? && q[3] == '='
    ensures |DecodeGroup(q).value| == 2 && EncodeGroup(DecodeGroup(q).value) == q
  {
    var i0, i1, i2 := ValueOf(q[0]).value, ValueOf(q[1]).value, ValueOf(q[2]).value;
    ValuesArith(i0, i1, i2, 0);
    NotPad(i2);
    var g := DecodeGroup(q).value;
    assert g == [i0 * 4 + i1 / 16, (i1 % 16) * 16 + i2 / 4];
    assert EncodeGroup(g) == [q[0], q[1], q[2], q[3]];
  }

  lemma EncodeDecodeThree(q: string)
    requires |q| == 4 && DecodeGroup(q).Some? && q[3] != '='
    ensures |DecodeGroup(q).value| == 3 && EncodeGroup(DecodeGroup(q).value) == q
  {
    var i0, i1, i2, i3 := ValueOf(q[0]).value, ValueOf(q[1]).value, ValueOf(q[2]).value, ValueOf(q[3]).value;
    ValuesArith(i0, i1, i2, i3);
    var g := DecodeGroup(q).value;
    assert g == [i0 * 4 + i1 / 16, (i1 % 16) * 16 + i2 / 4, (i2 % 4) * 64 + i3];
    assert EncodeGroup(g) == [q[0], q[1], q[2], q[3]];
  }

  /** Round trip: decoding an encoding restores the bytes. */
  lemma {:induction false} DecodeEncode(b: seq<Byte>)
    ensures Decode(Encode(b)) == Some(b)
    decreases |b|
  {
    if 1 <= |b| <= 3 {
      DecodeEncodeGroup(b);
      assert Encode(b)[..4] == EncodeGroup(b);
    } else if |b| > 3 {
      var s := Encode(b);
      DecodeEncodeGroup(b[..3]);
      DecodeEncode(b[3..]);
      assert s[..4] == EncodeGroup(b[..3]);
      assert s[4..] == Encode(b[3..]);
      assert b[..3] + b[3..] == b;
    }
  }

  /** Strictness: whatever decodes is the encoding of what it decodes to. */
  lemma {:induction false} EncodeDecode(s: string)
    requires Decode(s).Some?
    ensures Encode(Decode(s).value) == s
    decreases |s|
  {
    if |s| > 0 {
      var g := DecodeGroup(s[..4]).value;
      EncodeDecodeGroup(s[..4]);
      if |s| == 4 {
        assert s[..4] == s;
      } else {
        var rest := Decode(s[4..]).value;
        EncodeDecode(s[4..]);
        assert (g + rest)[..3] == g;
        assert (g + rest)[3..] == rest;
        assert s == s[..4] + s[4..];
      }
    }
  }

  /** Decoding and encoding are inverse: `s` decodes to `b` exactly when `s` is `b`'s encoding. */
  lemma DecodeIff(s: string, b: seq<Byte>)
    ensures Decode(s) == Some(b) <==> Encode(b) == s
  {
    if Decode(s) == Some(b) {
      EncodeDecode(s);
    }
    if Encode(b) == s {
      DecodeEncode(b);
    }
  }

  /** A full group in front is encoded on its own. */
  lemma EncodeCons(g: seq<Byte>, b: seq<Byte>)
    requires |g| == 3
    ensures Encode(g + b) == EncodeGroup(g) + Encode(b)
  {
    var s := g + b;
    if |b| == 0 {
      assert s == g;
    } else {
      assert s[..3] == g;
      assert s[3..] == b;
    }
  }

  /** Encoding splits at any multiple of three bytes. */
  lemma {:induction false} EncodeConcat(a: seq<Byte>, b: seq<Byte>)
    requires |a| % 3 == 0
    ensures Encode(a + b) == Encode(a) + Encode(b)
    decreases |a|
  {
    if |a| == 0 {
      assert a + b == b;
    } else {
      var g, a' := a[..3], a[3..];
      assert a + b == g + (a' + b) by {
        assert a == g + a';
      }
      EncodeConcat(a', b);
      calc {
        Encode(a + b);
        { EncodeCons(g, a' + b); }
        EncodeGroup(g) + Encode(a' + b);
        EncodeGroup(g) + (Encode(a') + Encode(b));
        (EncodeGroup(g) + Encode(a')) + Encode(b);
        { EncodeCons(g, a'); assert g + a' == a; }
        Encode(a) + Encode(b);
      }
    }
  }

  /** Four characters for every started group of three bytes. */
  lemma {:induction false} EncodeLength(b: seq<Byte>)
    ensures |Encode(b)| == 4 * ((|b| + 2) / 3)
    decreases |b|
  {
    if |b| > 3 {
      EncodeLength(b[3..]);
    }
  }

  /** An encoding holds only alphabet characters and the pad. */
  lemma {:induction false} EncodeChars(b: seq<Byte>)
    ensures forall i :: 0 <= i < |Encode(b)| ==> IsEncodingChar(Encode(b)[i])
    decreases |b|
  {
    if |b| > 3 {
      EncodeChars(b[3..]);
      var s := Encode(b);
      var rest := Encode(b[3..]);
      assert s[4..] == rest;
      forall i | 4 <= i < |s| ensures IsEncodingChar(s[i]) {
        assert s[i] == rest[i - 4];
      }
    }
  }

  /** An encoding never contains a quote or a line break, so it can sit inside a
      single-quoted shell word on one Dockerfile line. */
  lemma EncodingIsShellSafe(b: seq<Byte>)
    ensures '\'' !in Encode(b) && '\n' !in Encode(b)
  {
    var s := Encode(b);
    EncodeChars(b);
    forall i | 0 <= i < |s|
      ensures s[i] != '\'' && s[i] != '\n'
    {
      assert IsEncodingChar(s[i]);
    }
  }

  /** The payload Go writes for an empty settings object: `{}` and a newline
      (the three bytes 0x7B 0x7D 0x0A) encode as `e30K`. */
  lemma EmptyObjectEncoding()
    ensures Encode([0x7B, 0x7D, 0x0A]) == "e30K"
  {
    var b: seq<Byte> := [0x7B, 0x7D, 0x0A];
    assert Encode(b) == [CharOf(30), CharOf(55), CharOf(52), CharOf(10)];
  }
}

=== FILE: devcontainer.dfy ===
/** The parsed `.devcontainer/devcontainer.json` descriptor. Fields the file
    leaves out hold Go's zero values: `""`, an empty list or map, and no
    settings map at all (a nil map). */
module DevContainers {
  import opened Wrappers
  import Json

  /** The `build` object: Dockerfile and context paths and `--build-arg` values. */
  datatype Build = Build(dockerfile: string, context: string, args: map<string, string>)

  /** One entry of `portsAttributes`. */
  datatype PortAttribute = PortAttribute(portLabel: string, onAutoForward: string)

  datatype DevContainer = DevContainer(
    dirPath: string,
    name: string,
    build: Build,
    runArgs: seq<string>,
    workspaceMount: string,
    workspaceFolder: string,
    settings: Option<map<string, Json.Value>>,
    extensions: seq<string>,
    forwardPorts: seq<string>,
    portsAttributes: map<string, PortAttribute>,
    postCreateCommand: string,
    remoteUser: string)

  /** The descriptor `DevContainer{}` with only its name and build paths set. */
  function Minimal(name: string, dockerfile: string, context: string): (dc: DevContainer)
    ensures dc.name == name && dc.build.dockerfile == dockerfile && dc.build.context == context
    ensures dc.dirPath == "" && dc.settings.None? && dc.extensions == [] && dc.postCreateCommand == ""
  {
    DevContainer("", name, Build(dockerfile, context, map[]), [], "", "", None, [], [], map[], "", "")
  }
}

=== FILE: dockerfile.dfy ===
/** The Dockerfile synthesiser: the base image's Dockerfile followed by the
    lines that install code-server, write its settings, keybindings, entry
    script and configuration into the image, install the descriptor's
    extensions and set the entry point. File contents travel inside the
    Dockerfile as `RUN echo '<base64>' | base64 -d > <path>` lines. */
module Dockerfile {
  import opened Wrappers
  import opened Strings
  import opened Seqs
  import opened Bytes
  import Base64
  import Utf8
  import Json
  import FilePath
  import opened DevContainers
  import opened Settings

  // Long constants are written as concatenations of short pieces.
  const CodeServerInstall := "RUN curl -fsSL " + "https://code-server.dev/" + "install.sh | sh"
  const Entrypoint := @"ENTRYPOINT [""" + EntryScriptPath + @"""]"
  const ConfigYaml := @"RUN echo ""auth: none"" > " + "/opt/code-server/config.yml"
  const ChmodCodeServerDir := "RUN chmod -R o+wr /opt/code-server/"

  const MkdirCodeServer := "RUN mkdir -p /opt/code-server"
  const MkdirUser := "RUN mkdir -p " + "/opt/code-server/.vscode/User"
  const ChmodEntryScript := "RUN chmod +x " + EntryScriptPath
  const EntryScriptPath := "/opt/code-server/entrypoint.sh"
  const SettingsPath := "/opt/code-server/.vscode/User" + "/settings.json"
  const KeybindingsPath := "/opt/code-server/.vscode/User" + "/keybindings.json"

  /** The command the entry script ends with. */
  const CodeServerLaunch := "code-server" + " --user-data-dir /opt/code-server/.vscode"
    + " --config /opt/code-server/config.yml" + " --bind-addr 0.0.0.0:8080"

  /** Store entries tried for keybindings, in order. */
  const KeybindingsFiles: seq<string> := ["keybindings.json", "keybindingsMac.json"]

  const ExtensionPrefix := "RUN code-server " + "--install-extension "
  const ExtensionSuffix := " --extensions-dir " + "/opt/code-server/.vscode/extensions/"

  /** Each fixed line is a single line. */
  lemma FixedLines()
    ensures '\n' !in CodeServerInstall && '\n' !in Entrypoint && '\n' !in ConfigYaml
    ensures '\n' !in ChmodCodeServerDir && '\n' !in MkdirCodeServer && '\n' !in MkdirUser
    ensures '\n' !in ChmodEntryScript && '\n' !in CodeServerLaunch && '\n' !in EntryScriptPath
    ensures '\n' !in SettingsPath && '\n' !in KeybindingsPath
  {
    NoNewlineCodeServerInstall();
    NoNewlineEntrypoint();
    NoNewlineConfigYaml();
    NoNewlineChmodCodeServerDir();
    NoNewlineMkdirCodeServer();
    NoNewlineMkdirUser();
    NoNewlineChmodEntryScript();
    NoNewlineCodeServerLaunch();
    NoNewlineEntryScriptPath();
    NoNewlineSettingsPath();
    NoNewlineKeybindingsPath();
  }

  lemma NoNewlineCodeServerInstall() ensures '\n' !in CodeServerInstall {}
  lemma NoNewlineEntrypoint() ensures '\n' !in Entrypoint {}
  lemma NoNewlineConfigYaml() ensures '\n' !in ConfigYaml {}
  lemma NoNewlineChmodCodeServerDir() ensures '\n' !in ChmodCodeServerDir {}
  lemma NoNewlineMkdirCodeServer() ensures '\n' !in MkdirCodeServer {}
  lemma NoNewlineMkdirUser() ensures '\n' !in MkdirUser {}
  lemma NoNewlineChmodEntryScript() ensures '\n' !in ChmodEntryScript {}
  lemma NoNewlineCodeServerLaunch() ensures '\n' !in CodeServerLaunch {}
  lemma NoNewlineEntryScriptPath() ensures '\n' !in EntryScriptPath {}
  lemma NoNewlineSettingsPath() ensures '\n' !in SettingsPath {}
  lemma NoNewlineKeybindingsPath() ensures '\n' !in KeybindingsPath {}

  datatype KeyBinding = KeyBinding(key: string, command: string, when: string)

  /** The JSON libraries the synthesiser calls: json5 decoding of a settings
      object and of a keybinding list, and the indented JSON encoder. Their
      internals are not modelled; a codec is any choice of these four. */
  datatype JsonCodec = JsonCodec(
    parseObject: string -> Option<map<string, Json.Value>>,
    parseKeyBindings: string -> Option<seq<KeyBinding>>,
    dumpObject: map<string, Json.Value> -> Result<string, string>,
    dumpKeyBindings: seq<KeyBinding> -> Result<string, string>)

  // ---------------------------------------------------------------------------
  // Embedding a file in a Dockerfile line.

  /** The standard Base64 text of the UTF-8 bytes of `text`. */
  function Payload(text: string): string
  {
    Base64.Encode(Utf8.Encode(text))
  }

  /** A line that, when the image is built, writes `text` to `path`. */
  function EchoLine(text: string, path: string): string
  {
    "RUN echo '" + Payload(text) + "' | base64 -d > " + path
  }

  const EchoHead := "RUN echo '"
  const EchoPipe := "' | base64 -d > "

  /** What a `RUN echo '<p>' | base64 -d > <path>` line does when the image is
      built: it writes the UTF-8 text Base64-encoded in `<p>` to `<path>`.
      None for a line of another shape or a payload that does not decode. */
  function WrittenFile(line: string): Option<(string, string)>
  {
    if !IsPrefix(EchoHead, line) then None
    else
      var rest := line[|EchoHead|..];
      match IndexOf(rest, '\'')
      case None => None
      case Some(q) =>
        var tail := rest[q..];
        if !IsPrefix(EchoPipe, tail) then None
        else
          match Base64.Decode(rest[..q])
          case None => None
          case Some(bytes) =>
            match Utf8.Decode(bytes)
            case None => None
            case Some(text) => Some((text, tail[|EchoPipe|..]))
  }

  /** Round trip: an echo line writes exactly the text it was made from, to
      the path it names. */
  lemma EchoLineWrites(text: string, path: string)
    ensures WrittenFile(EchoLine(text, path)) == Some((text, path))
  {
    var p := Payload(text);
    var line := EchoLine(text, path);
    var rest := p + (EchoPipe + path);
    assert line == EchoHead + rest;
    SliceConcat(EchoHead, rest);
    SliceConcat(p, EchoPipe + path);
    SliceConcat(EchoPipe, path);
    Base64.EncodingIsShellSafe(Utf8.Encode(text));
    assert rest[|p|] == '\'';
    assert IndexOf(rest, '\'') == Some(|p|);
    Base64.DecodeEncode(Utf8.Encode(text));
    Utf8.DecodeEncode(text);
  }

  /** An echo line is a single Dockerfile line when the path is. */
  lemma EchoLineIsOneLine(text: string, path: string)
    requires '\n' !in path
    ensures '\n' !in EchoLine(text, path)
  {
    Base64.EncodingIsShellSafe(Utf8.Encode(text));
    var line := EchoLine(text, path);
    var p := Payload(text);
    assert line == EchoHead + p + EchoPipe + path;
    forall i | 0 <= i < |line| ensures line[i] != '\n' {
      if i < |EchoHead| {
        assert line[i] == EchoHead[i];
      } else if i < |EchoHead| + |p| {
        assert line[i] == p[i - |EchoHead|];
      } else if i < |EchoHead| + |p| + |EchoPipe| {
        assert line[i] == EchoPipe[i - |EchoHead| - |p|];
      } else {
        assert line[i] == path[i - |EchoHead| - |p| - |EchoPipe|];
      }
    }
  }

  /** A two-line block: a `mkdir` line followed by an echo line. */
  lemma BlockLines(first: string, text: string, path: string)
    requires '\n' !in first && '\n' !in path
    ensures Lines(Join([first, EchoLine(text, path)], "\n")) == [first, EchoLine(text, path)]
  {
    EchoLineIsOneLine(text, path);
    SplitJoinPlain([first, EchoLine(text, path)], '\n');
  }

  // ---------------------------------------------------------------------------
  // The entry script.

  /** The commands of the entry script: the shell header, the descriptor's
      `postCreateCommand` verbatim, and the code-server launch. */
  function EntryScriptCommands(dc: DevContainer): seq<string>
  {
    ["#!/bin/bash", "set -e", "set -x", dc.postCreateCommand, CodeServerLaunch]
  }

  function EntryScriptText(dc: DevContainer): string
  {
    Join(EntryScriptCommands(dc), "\n")
  }

  /** The three lines that create the entry script in the image. */
  function EntryScript(dc: DevContainer): string
  {
    Join([MkdirCodeServer, EchoLine(EntryScriptText(dc), EntryScriptPath), ChmodEntryScript], "\n")
  }

  /** The entry-script section is three lines, and its middle line writes the
      script to the entry point's path. */
  lemma EntryScriptWrites(dc: DevContainer)
    ensures Lines(EntryScript(dc)) == [MkdirCodeServer, EchoLine(EntryScriptText(dc), EntryScriptPath), ChmodEntryScript]
    ensures WrittenFile(Lines(EntryScript(dc))[1]) == Some((EntryScriptText(dc), EntryScriptPath))
  {
    var echo := EchoLine(EntryScriptText(dc), EntryScriptPath);
    EchoLineIsOneLine(EntryScriptText(dc), EntryScriptPath);
    SplitJoinPlain([MkdirCodeServer, echo, ChmodEntryScript], '\n');
    EchoLineWrites(EntryScriptText(dc), EntryScriptPath);
  }

  /** The script's lines are the shell header, the lines of
      `postCreateCommand` (one empty line when it is empty), and the launch
      command. */
  lemma EntryScriptTextLines(dc: DevContainer)
    ensures Lines(EntryScriptText(dc)) == ["#!/bin/bash", "set -e", "set -x"] + Lines(dc.postCreateCommand) + [CodeServerLaunch]
  {
    var head := ["#!/bin/bash", "set -e", "set -x"];
    NoNewlineCodeServerLaunch();
    assert forall i :: 0 <= i < |head| ==> '\n' !in head[i] by {
      assert '\n' !in "#!/bin/bash" && '\n' !in "set -e" && '\n' !in "set -x";
    }
    LinesAround(head, dc.postCreateCommand, CodeServerLaunch);
    assert EntryScriptCommands(dc) == head + [dc.postCreateCommand, CodeServerLaunch];
  }

  /** Lines of a join in which every piece but one is a single line. */
  lemma LinesAround(head: seq<string>, mid: string, last: string)
    requires forall i :: 0 <= i < |head| ==> '\n' !in head[i]
    requires '\n' !in last
    ensures Lines(Join(head + [mid, last], "\n")) == head + Lines(mid) + [last]
  {
    var tail := [mid, last];
    var xs := head + tail;
    var a := SplitEach(head, '\n');
    var b := SplitEach(tail, '\n');
    assert b == Lines(mid) + [last] by {
      SplitWithoutSep(last, '\n');
      SplitEachCons(last, [], '\n');
      SplitEachCons(mid, [last], '\n');
    }
    assert a == head by {
      SplitEachPlain(head, '\n');
    }
    assert Lines(Join(xs, "\n")) == a + b by {
      SplitJoin(xs, '\n');
      SplitEachAppend(head, tail, '\n');
    }
    ConcatAssoc(head, Lines(mid), [last]);
  }

  // ---------------------------------------------------------------------------
  // Settings.

  /** `mergo.Merge(&dst, src)` on settings maps: every key of `dst` and every
      key whose `src` value is not null, with the value of `dst` wherever
      `dst` has a non-null one. A key whose `dst` value is null counts as
      empty and takes a non-null value of `src`; a null `src` value is
      skipped. */
  function Merge(dst: map<string, Json.Value>, src: map<string, Json.Value>): (r: map<string, Json.Value>)
    ensures r.Keys == dst.Keys + NonNull(src).Keys
    ensures forall k :: k in dst && !dst[k].Null? ==> r[k] == dst[k]
    ensures forall k :: k in src && !src[k].Null? && (k !in dst || dst[k].Null?) ==> r[k] == src[k]
    ensures forall k :: k in dst && (k !in src || src[k].Null?) ==> r[k] == dst[k]
    ensures forall k :: k in src && src[k].Null? && k !in dst ==> k !in r
  {
    var fill := NonNull(src);
    map k | k in dst.Keys + fill.Keys :: if k in dst && (!dst[k].Null? || k !in fill) then dst[k] else fill[k]
  }

  /** The entries of a map whose value is not null. */
  function NonNull(m: map<string, Json.Value>): (r: map<string, Json.Value>)
  {
    map k | k in m && !m[k].Null? :: m[k]
  }

  /** Merging is an override: `dst` updated with the non-null entries of
      `src`, then with every non-null entry of `dst` put back. Without nulls
      in `dst` it is the non-null part of `src` updated with `dst`. */
  lemma MergeIsOverride(dst: map<string, Json.Value>, src: map<string, Json.Value>)
    ensures Merge(dst, src) == (dst + NonNull(src)) + NonNull(dst)
    ensures (forall k :: k in dst ==> !dst[k].Null?) ==> Merge(dst, src) == NonNull(src) + dst
  {
  }

  /** Merging nothing in changes nothing, merging a map into itself changes
      nothing, and merging into nothing keeps the non-null entries, so a map
      without nulls comes back whole. */
  lemma MergeNeutral(m: map<string, Json.Value>)
    ensures Merge(m, map[]) == m && Merge(m, m) == m
    ensures Merge(map[], m) == NonNull(m)
    ensures (forall k :: k in m ==> !m[k].Null?) ==> Merge(map[], m) == m
  {
  }

  /** The settings object from the store: present only when `settings.json`
      is stored and decodes as a JSON object. */
  function StoredSettings(repo: Repository, codec: JsonCodec): (r: Option<map<string, Json.Value>>)
    ensures r.Some? ==> "settings.json" in repo && codec.parseObject(repo["settings.json"]) == r
    ensures "settings.json" in repo ==> r == codec.parseObject(repo["settings.json"])
  {
    match Get(repo, "settings.json")
    case Failure(_) => None
    case Success(contents) => codec.parseObject(contents)
  }

  /** The settings written into the image: the descriptor's settings (none
      counts as an empty map) with the stored object merged in underneath. */
  function SettingsObject(dc: DevContainer, repo: Repository, codec: JsonCodec): (m: map<string, Json.Value>)
    ensures forall k :: k in dc.settings.GetOr(map[]) ==> k in m
    ensures forall k :: k in dc.settings.GetOr(map[]) && !dc.settings.GetOr(map[])[k].Null? ==> m[k] == dc.settings.GetOr(map[])[k]
    ensures StoredSettings(repo, codec).None? ==> m == dc.settings.GetOr(map[])
    ensures StoredSettings(repo, codec).Some? ==>
      m.Keys == dc.settings.GetOr(map[]).Keys + NonNull(StoredSettings(repo, codec).value).Keys
    ensures StoredSettings(repo, codec).Some? ==>
      m == Merge(dc.settings.GetOr(map[]), StoredSettings(repo, codec).value)
    ensures StoredSettings(repo, codec).Some? ==>
      forall k :: k in StoredSettings(repo, codec).value && k !in dc.settings.GetOr(map[]) ==>
        if StoredSettings(repo, codec).value[k].Null? then k !in m else k in m && m[k] == StoredSettings(repo, codec).value[k]
  {
    var base := dc.settings.GetOr(map[]);
    match StoredSettings(repo, codec)
    case None => base
    case Some(obj) => Merge(base, obj)
  }

  /** `createSettingJson`: a `mkdir` line and the echo line for the settings
      object, or the encoder's error. */
  function SettingsSection(dc: DevContainer, repo: Repository, codec: JsonCodec): (r: Result<string, string>)
    ensures r.Success? <==> codec.dumpObject(SettingsObject(dc, repo, codec)).Success?
    ensures r.Failure? ==> r.error == codec.dumpObject(SettingsObject(dc, repo, codec)).error
  {
    match codec.dumpObject(SettingsObject(dc, repo, codec))
    case Failure(e) => Failure(e)
    case Success(json) => Success(Join([MkdirUser, EchoLine(json, SettingsPath)], "\n"))
  }

  /** The settings section writes the encoded settings object to the user
      settings file. When decoding the encoder's output gives back the object,
      the file in the image decodes to the merged settings. */
  lemma SettingsSectionWrites(dc: DevContainer, repo: Repository, codec: JsonCodec)
    requires SettingsSection(dc, repo, codec).Success?
    ensures var lines := Lines(SettingsSection(dc, repo, codec).value);
      && |lines| == 2 && lines[0] == MkdirUser
      && WrittenFile(lines[1]) == Some((codec.dumpObject(SettingsObject(dc, repo, codec)).value, SettingsPath))
    ensures (forall m :: codec.dumpObject(m).Success? ==> codec.parseObject(codec.dumpObject(m).value) == Some(m)) ==>
      codec.parseObject(WrittenFile(Lines(SettingsSection(dc, repo, codec).value)[1]).value.0) == Some(SettingsObject(dc, repo, codec))
  {
    var json := codec.dumpObject(SettingsObject(dc, repo, codec)).value;
    BlockLines(MkdirUser, json, SettingsPath);
    EchoLineWrites(json, SettingsPath);
  }

  // ---------------------------------------------------------------------------
  // Keybindings.

  /** The re-encoded keybindings from one store entry, or None when the entry
      is missing, empty, not a keybinding list, or cannot be encoded. */
  function Keybindings(repo: Repository, codec: JsonCodec, filename: string): (r: Option<string>)
    ensures r.Some? ==>
      && filename in repo && repo[filename] != ""
      && codec.parseKeyBindings(repo[filename]).Some?
      && codec.dumpKeyBindings(codec.parseKeyBindings(repo[filename]).value) == Success(r.value)
    ensures r.None? ==>
      || filename !in repo || repo[filename] == ""
      || codec.parseKeyBindings(repo[filename]).None?
      || codec.dumpKeyBindings(codec.parseKeyBindings(repo[filename]).value).Failure?
  {
    match Get(repo, filename)
    case Failure(_) => None
    case Success(contents) =>
      if |contents| == 0 then None
      else
        match codec.parseKeyBindings(contents)
        case None => None
        case Some(obj) =>
          match codec.dumpKeyBindings(obj)
          case Failure(_) => None
          case Success(json) => Some(json)
  }

  /** The position of the first acceptable entry among `names`. */
  function FirstAcceptable(repo: Repository, codec: JsonCodec, names: seq<string>): (r: Option<nat>)
    ensures r.Some? ==> r.value < |names| && Keybindings(repo, codec, names[r.value]).Some?
    ensures r.Some? ==> forall j :: 0 <= j < r.value ==> Keybindings(repo, codec, names[j]).None?
    ensures r.None? <==> forall j :: 0 <= j < |names| ==> Keybindings(repo, codec, names[j]).None?
    decreases |names|
  {
    if |names| == 0 then None
    else if Keybindings(repo, codec, names[0]).Some? then Some(0)
    else
      match FirstAcceptable(repo, codec, names[1..])
      case None => None
      case Some(i) => Some(i + 1)
  }

  /** `createKeybindingsJson`: the block for the first acceptable entry, or no
      lines at all. */
  function KeybindingsSection(repo: Repository, codec: JsonCodec): (r: string)
    ensures r == "" <==> forall j :: 0 <= j < |KeybindingsFiles| ==> Keybindings(repo, codec, KeybindingsFiles[j]).None?
  {
    match FirstAcceptable(repo, codec, KeybindingsFiles)
    case None => ""
    case Some(i) => Join([MkdirUser, EchoLine(Keybindings(repo, codec, KeybindingsFiles[i]).value, KeybindingsPath)], "\n")
  }

  /** The keybindings file written is that of `keybindings.json` when it is
      acceptable, and that of `keybindingsMac.json` only when it is not. */
  lemma KeybindingsPreference(repo: Repository, codec: JsonCodec)
    ensures Keybindings(repo, codec, "keybindings.json").Some? ==>
      Lines(KeybindingsSection(repo, codec))
        == [MkdirUser, EchoLine(Keybindings(repo, codec, "keybindings.json").value, KeybindingsPath)]
    ensures Keybindings(repo, codec, "keybindings.json").None? && Keybindings(repo, codec, "keybindingsMac.json").Some? ==>
      Lines(KeybindingsSection(repo, codec))
        == [MkdirUser, EchoLine(Keybindings(repo, codec, "keybindingsMac.json").value, KeybindingsPath)]
  {
    var r := FirstAcceptable(repo, codec, KeybindingsFiles);
    if r.Some? {
      BlockLines(MkdirUser, Keybindings(repo, codec, KeybindingsFiles[r.value]).value, KeybindingsPath);
    }
  }

  // ---------------------------------------------------------------------------
  // Extensions.

  function ExtensionLine(id: string): string
  {
    ExtensionPrefix + id + ExtensionSuffix
  }

  /** The extension an install line installs, read back from the line. */
  function InstalledExtension(line: string): Option<string>
  {
    if |line| >= |ExtensionPrefix| + |ExtensionSuffix| && IsPrefix(ExtensionPrefix, line) && IsSuffix(ExtensionSuffix, line)
    then Some(line[|ExtensionPrefix|..|line| - |ExtensionSuffix|])
    else None
  }

  function ExtensionLines(ids: seq<string>): (r: seq<string>)
    ensures |r| == |ids|
    ensures forall i :: 0 <= i < |ids| ==> InstalledExtension(r[i]) == Some(ids[i])
  {
    seq(|ids|, i requires 0 <= i < |ids| => ExtensionLine(ids[i]))
  }

  /** `installExtensions`: one install line per extension, in order. */
  function ExtensionsSection(dc: DevContainer): (r: string)
    ensures r == "" <==> |dc.extensions| == 0
  {
    var lines := ExtensionLines(dc.extensions);
    JoinStartLength(lines);
    Join(lines, "\n")
  }

  lemma JoinStartLength(xs: seq<string>)
    ensures |xs| > 0 ==> |Join(xs, "\n")| >= |xs[0]|
  {
  }

  /** An install line is one line when the extension name is. */
  lemma ExtensionLineIsOneLine(id: string)
    requires '\n' !in id
    ensures '\n' !in ExtensionLine(id)
  {
  }

  /** Each extension without a line break gives one line that installs it,
      in declaration order and with repetitions kept. */
  lemma ExtensionsInstalled(dc: DevContainer)
    requires |dc.extensions| > 0
    requires forall i :: 0 <= i < |dc.extensions| ==> '\n' !in dc.extensions[i]
    ensures |Lines(ExtensionsSection(dc))| == |dc.extensions|
    ensures forall i :: 0 <= i < |dc.extensions| ==> InstalledExtension(Lines(ExtensionsSection(dc))[i]) == Some(dc.extensions[i])
  {
    var lines := ExtensionLines(dc.extensions);
    forall i | 0 <= i < |lines| ensures '\n' !in lines[i] {
      ExtensionLineIsOneLine(dc.extensions[i]);
    }
    SplitJoinPlain(lines, '\n');
  }

  // ---------------------------------------------------------------------------
  // The whole Dockerfile.

  /** Where the base Dockerfile is read from: the descriptor's directory
      joined with `build.dockerfile`. */
  function DockerfilePath(dc: DevContainer): string
  {
    FilePath.JoinPath(dc.dirPath, dc.build.dockerfile)
  }

  /** The nine sections in output order. A settings section that fails is
      replaced by no lines. */
  function Sections(base: string, dc: DevContainer, repo: Repository, codec: JsonCodec): (r: seq<string>)
    ensures |r| == 9
  {
    [ base,
      CodeServerInstall,
      SettingsSection(dc, repo, codec).GetOr(""),
      KeybindingsSection(repo, codec),
      EntryScript(dc),
      ExtensionsSection(dc),
      ConfigYaml,
      ChmodCodeServerDir,
      Entrypoint ]
  }

  /** `WrapDockerFile`: reads the base Dockerfile from the file system `fs`
      and appends the sections after it, one per line. Fails only when the
      base Dockerfile cannot be read. */
  function WrapDockerFile(fs: map<string, string>, dc: DevContainer, repo: Repository, codec: JsonCodec): (r: Result<string, string>)
    ensures r.Success? <==> DockerfilePath(dc) in fs
    ensures r.Success? ==> IsPrefix(fs[DockerfilePath(dc)] + "\n" + CodeServerInstall + "\n", r.value)
    ensures r.Success? ==> IsSuffix("\n" + ConfigYaml + "\n" + ChmodCodeServerDir + "\n" + Entrypoint, r.value)
  {
    var path := DockerfilePath(dc);
    if path !in fs then Failure("open " + path + ": no such file or directory")
    else
      var xs := Sections(fs[path], dc, repo, codec);
      JoinFirstTwo(xs, "\n");
      JoinLastThree(xs, "\n");
      Success(Join(xs, "\n"))
  }

  /** Section order: the lines of the result are the lines of the base
      Dockerfile, the install line, the lines of the settings, keybindings,
      entry-script and extension sections (an empty section is one empty
      line), then the configuration, permission and entry-point lines. */
  lemma WrapLines(fs: map<string, string>, dc: DevContainer, repo: Repository, codec: JsonCodec)
    requires DockerfilePath(dc) in fs
    ensures var xs := Sections(fs[DockerfilePath(dc)], dc, repo, codec);
      Lines(WrapDockerFile(fs, dc, repo, codec).value)
        == Lines(xs[0]) + [CodeServerInstall] + Lines(xs[2]) + Lines(xs[3]) + Lines(xs[4]) + Lines(xs[5])
           + [ConfigYaml, ChmodCodeServerDir, Entrypoint]
  {
    var xs := Sections(fs[DockerfilePath(dc)], dc, repo, codec);
    NoNewlineCodeServerInstall();
    NoNewlineConfigYaml();
    NoNewlineChmodCodeServerDir();
    NoNewlineEntrypoint();
    LinesOfNine(xs);
  }

  /** The lines of the four middle sections, each split on its own. */
  function MiddleLines(xs: seq<string>): (r: seq<string>)
    requires |xs| == 9
    ensures r == SplitEach(xs[2..6], '\n')
  {
    var m := xs[2..6];
    assert m == [xs[2]] + ([xs[3]] + ([xs[4]] + ([xs[5]] + [])));
    SplitEachCons(xs[5], [], '\n');
    SplitEachCons(xs[4], [xs[5]] + [], '\n');
    SplitEachCons(xs[3], [xs[4]] + ([xs[5]] + []), '\n');
    SplitEachCons(xs[2], [xs[3]] + ([xs[4]] + ([xs[5]] + [])), '\n');
    Lines(xs[2]) + (Lines(xs[3]) + (Lines(xs[4]) + Lines(xs[5])))
  }

  /** Lines of a join of nine pieces whose second and last three pieces are
      single lines. */
  lemma LinesOfNine(xs: seq<string>)
    requires |xs| == 9
    requires '\n' !in xs[1] && '\n' !in xs[6] && '\n' !in xs[7] && '\n' !in xs[8]
    ensures Lines(Join(xs, "\n"))
      == Lines(xs[0]) + [xs[1]] + Lines(xs[2]) + Lines(xs[3]) + Lines(xs[4]) + Lines(xs[5]) + [xs[6], xs[7], xs[8]]
  {
    var front, mid, back := xs[..2], xs[2..6], xs[6..];
    assert xs == front + (mid + back);
    assert SplitEach(front, '\n') == Lines(xs[0]) + [xs[1]] by {
      assert front == [xs[0]] + ([xs[1]] + []);
      SplitWithoutSep(xs[1], '\n');
      SplitEachCons(xs[1], [], '\n');
      SplitEachCons(xs[0], [xs[1]] + [], '\n');
    }
    assert SplitEach(back, '\n') == [xs[6], xs[7], xs[8]] by {
      SplitEachPlain(back, '\n');
    }
    calc {
      Lines(Join(xs, "\n"));
    == { SplitJoin(xs, '\n'); }
      SplitEach(front + (mid + back), '\n');
    == { SplitEachAppend(front, mid + back, '\n'); SplitEachAppend(mid, back, '\n'); }
      SplitEach(front, '\n') + (SplitEach(mid, '\n') + SplitEach(back, '\n'));
    }
    var p, c, d, e, f, b := Lines(xs[0]) + [xs[1]], Lines(xs[2]), Lines(xs[3]), Lines(xs[4]), Lines(xs[5]), [xs[6], xs[7], xs[8]];
    assert SplitEach(mid, '\n') == c + (d + (e + f)) by {
      assert MiddleLines(xs) == c + (d + (e + f));
    }
    ConcatAssoc(p, c + (d + (e + f)), b);
    ConcatAssoc(p, c, d + (e + f));
    ConcatAssoc(p + c, d, e + f);
    ConcatAssoc(p + c + d, e, f);
  }

  /** Degrade policy: a settings encoder failure empties the settings slot
      but the Dockerfile is still produced. */
  lemma SettingsFailureDegrades(fs: map<string, string>, dc: DevContainer, repo: Repository, codec: JsonCodec)
    requires DockerfilePath(dc) in fs
    requires codec.dumpObject(SettingsObject(dc, repo, codec)).Failure?
    ensures WrapDockerFile(fs, dc, repo, codec).Success?
    ensures Sections(fs[DockerfilePath(dc)], dc, repo, codec)[2] == ""
  {
  }

  // ---------------------------------------------------------------------------
  // The repository's reference output.

  /** The descriptor of the reference case: named `test`, with a Dockerfile
      path and the context `.`. */
  function ReferenceDescriptor(path: string): DevContainer
  {
    Minimal("test", path, ".")
  }

  /** A file system holding only the reference base Dockerfile at `path`. */
  function ReferenceFiles(path: string): map<string, string>
  {
    map[path := "FROM golang:1.12.5"]
  }

  /** The Dockerfile for a descriptor that names only a clean Dockerfile path
      (as a temporary file has) and the context `.`, with an empty store,
      over a base Dockerfile of one `FROM` line: the settings file receives
      `{}` and a newline (`e30K`), no keybindings or extensions are written
      and each of those empty sections leaves one empty line; the entry
      script is the shell header, an empty line and the launch command. */
  lemma ReferenceDockerfile(path: string, codec: JsonCodec)
    requires FilePath.Clean(path) == path
    requires codec.dumpObject(map[]) == Success("{}\n")
    ensures WrapDockerFile(ReferenceFiles(path), ReferenceDescriptor(path), map[], codec).Success?
    ensures Lines(WrapDockerFile(ReferenceFiles(path), ReferenceDescriptor(path), map[], codec).value)
      == ["FROM golang:1.12.5"] + [CodeServerInstall]
         + [MkdirUser, EchoHead + "e30K" + EchoPipe + SettingsPath]
         + [""]
         + [MkdirCodeServer, EchoLine(EntryScriptText(ReferenceDescriptor(path)), EntryScriptPath), ChmodEntryScript]
         + [""]
         + [ConfigYaml, ChmodCodeServerDir, Entrypoint]
  {
    var dc := ReferenceDescriptor(path);
    var fs := ReferenceFiles(path);
    assert DockerfilePath(dc) == path by {
      FilePath.CleanShape(path);
    }
    SplitWithoutSep("FROM golang:1.12.5", '\n');
    ReferenceSettings(path, codec);
    ReferenceEmptySections(path, codec);
    EntryScriptWrites(dc);
    WrapLines(fs, dc, map[], codec);
  }

  /** With nothing stored and no extensions, the keybindings and extensions
      sections are empty, and so is each one's single line. */
  lemma ReferenceEmptySections(path: string, codec: JsonCodec)
    ensures KeybindingsSection(map[], codec) == "" && ExtensionsSection(ReferenceDescriptor(path)) == ""
    ensures Lines("") == [""]
  {
    var repo: Repository := map[];
    assert forall j :: 0 <= j < |KeybindingsFiles| ==> KeybindingsFiles[j] !in repo;
  }

  /** The reference entry script: the shell header, one empty line for the
      empty `postCreateCommand`, and the launch command. */
  lemma ReferenceEntryScript(path: string)
    ensures Lines(EntryScriptText(ReferenceDescriptor(path))) == ["#!/bin/bash", "set -e", "set -x"] + [""] + [CodeServerLaunch]
  {
    EntryScriptTextLines(ReferenceDescriptor(path));
    assert Lines("") == [""];
  }

  /** With nothing stored and no descriptor settings, the settings section
      writes the encoding of the empty object, `e30K`. */
  lemma ReferenceSettings(path: string, codec: JsonCodec)
    requires codec.dumpObject(map[]) == Success("{}\n")
    ensures Lines(SettingsSection(ReferenceDescriptor(path), map[], codec).GetOr(""))
      == [MkdirUser, EchoHead + "e30K" + EchoPipe + SettingsPath]
  {
    var dc := ReferenceDescriptor(path);
    assert SettingsObject(dc, map[], codec) == map[];
    var settingsEcho := EchoLine("{}\n", SettingsPath);
    assert SettingsSection(dc, map[], codec).GetOr("") == Join([MkdirUser, settingsEcho], "\n");
    assert settingsEcho == EchoHead + "e30K" + EchoPipe + SettingsPath by {
      assert Utf8.Encode("{}\n") == [0x7B, 0x7D, 0x0A];
      Base64.EmptyObjectEncoding();
    }
    NoNewlineMkdirUser();
    NoNewlineSettingsPath();
    BlockLines(MkdirUser, "{}\n", SettingsPath);
  }
}

=== FILE: filepath.dfy ===
/** Go's `path/filepath` on a Unix host: `IsAbs`, the purely lexical `Clean`,
    the two-element `Join`, `Dir` and `Base`. `Clean` is written on the list of
    path elements: empty and `.` elements vanish, `..` removes the element before
    it, and a rooted path drops `..` at its root. */
module FilePath {
  import opened Strings

  predicate IsAbs(p: string)
  {
    |p| > 0 && p[0] == '/'
  }

  /** A path element after cleaning: not empty, not `.`, and free of `/`. */
  predicate IsElement(e: string)
  {
    e != "" && e != "." && '/' !in e
  }

  /** Elements as `Clean` leaves them: proper elements, with `..` only at the
      front of a relative path. */
  predicate CleanElements(es: seq<string>, rooted: bool)
  {
    && (forall i :: 0 <= i < |es| ==> IsElement(es[i]))
    && (forall i :: 0 <= i < |es| && es[i] == ".." ==> !rooted && forall j :: 0 <= j < i ==> es[j] == "..")
  }

  /** Processes raw elements left to right onto a stack of kept elements. */
  function Resolve(stack: seq<string>, es: seq<string>, rooted: bool): seq<string>
    decreases |es|
  {
    if |es| == 0 then stack
    else if es[0] == "" || es[0] == "." then Resolve(stack, es[1..], rooted)
    else if es[0] == ".." then
      if |stack| > 0 && stack[|stack| - 1] != ".." then Resolve(stack[..|stack| - 1], es[1..], rooted)
      else if rooted then Resolve(stack, es[1..], rooted)
      else Resolve(stack + [".."], es[1..], rooted)
    else Resolve(stack + [es[0]], es[1..], rooted)
  }

  /** The path written from cleaned elements. */
  function Render(es: seq<string>, rooted: bool): string
  {
    if rooted then "/" + Join(es, "/")
    else if |es| == 0 then "."
    else Join(es, "/")
  }

  /** Go's `filepath.Clean`: the shortest lexically equivalent path. */
  function Clean(p: string): string
  {
    if p == "" then "."
    else
      var rooted := p[0] == '/';
      Render(Resolve([], Split(p, '/'), rooted), rooted)
  }

  /** Go's `filepath.Join(dir, elem)`: empty arguments are skipped, the rest
      joined with `/` and cleaned. */
  function JoinPath(dir: string, elem: string): string
  {
    if dir != "" then Clean(dir + "/" + elem)
    else if elem != "" then Clean(elem)
    else ""
  }

  /** Go's `filepath.Dir`: everything up to the last `/`, cleaned. */
  function Dir(p: string): string
  {
    Clean(p[..LastIndexOf(p, '/') + 1])
  }

  /** Go's `filepath.Base`: the last element after trailing slashes are removed;
      `.` for the empty path and `/` for a path of slashes only. */
  function Base(p: string): string
  {
    if p == "" then "."
    else
      var t := TrimRight(p, '/');
      if t == "" then "/" else t[LastIndexOf(t, '/') + 1..]
  }

  // ---------------------------------------------------------------------------
  // Properties of cleaning.

  lemma {:induction false} ResolveKeepsClean(stack: seq<string>, es: seq<string>, rooted: bool)
    requires CleanElements(stack, rooted)
    requires forall i :: 0 <= i < |es| ==> '/' !in es[i]
    ensures CleanElements(Resolve(stack, es, rooted), rooted)
    decreases |es|
  {
    if |es| > 0 {
      var e := es[0];
      if e == "" || e == "." {
        ResolveKeepsClean(stack, es[1..], rooted);
      } else if e == ".." {
        if |stack| > 0 && stack[|stack| - 1] != ".." {
          ResolveKeepsClean(stack[..|stack| - 1], es[1..], rooted);
        } else if rooted {
          ResolveKeepsClean(stack, es[1..], rooted);
        } else {
          ResolveKeepsClean(stack + [".."], es[1..], rooted);
        }
      } else {
        var s' := stack + [e];
        forall i | 0 <= i < |s'| && s'[i] == ".."
          ensures !rooted && forall j :: 0 <= j < i ==> s'[j] == ".."
        {
          assert i < |stack|;
        }
        ResolveKeepsClean(s', es[1..], rooted);
      }
    }
  }

  /** Already clean elements pass through unchanged. */
  lemma {:induction false} ResolveClean(stack: seq<string>, es: seq<string>, rooted: bool)
    requires CleanElements(stack + es, rooted)
    ensures Resolve(stack, es, rooted) == stack + es
    decreases |es|
  {
    if |es| > 0 {
      var all := stack + es;
      assert all[|stack|] == es[0];
      if es[0] == ".." && |stack| > 0 {
        assert all[|stack| - 1] == stack[|stack| - 1];
      }
      assert (stack + [es[0]]) + es[1..] == all;
      ResolveClean(stack + [es[0]], es[1..], rooted);
    }
  }

  /** Resolving a concatenation resolves the two parts one after the other. */
  lemma {:induction false} ResolveAppend(stack: seq<string>, xs: seq<string>, ys: seq<string>, rooted: bool)
    ensures Resolve(stack, xs + ys, rooted) == Resolve(Resolve(stack, xs, rooted), ys, rooted)
    decreases |xs|
  {
    if |xs| > 0 {
      assert (xs + ys)[0] == xs[0];
      assert (xs + ys)[1..] == xs[1..] + ys;
      var e := xs[0];
      if e == "" || e == "." {
        ResolveAppend(stack, xs[1..], ys, rooted);
      } else if e == ".." {
        if |stack| > 0 && stack[|stack| - 1] != ".." {
          ResolveAppend(stack[..|stack| - 1], xs[1..], ys, rooted);
        } else if rooted {
          ResolveAppend(stack, xs[1..], ys, rooted);
        } else {
          ResolveAppend(stack + [".."], xs[1..], ys, rooted);
        }
      } else {
        ResolveAppend(stack + [e], xs[1..], ys, rooted);
      }
    } else {
      assert xs + ys == ys;
    }
  }

  /** The elements of a rendered clean path, as `Split` sees them. */
  lemma SplitRender(es: seq<string>, rooted: bool)
    requires CleanElements(es, rooted)
    ensures rooted ==> Split(Render(es, rooted), '/') == [""] + (if |es| == 0 then [""] else es)
    ensures !rooted && |es| > 0 ==> Split(Render(es, rooted), '/') == es
  {
    if |es| > 0 {
      SplitJoinPlain(es, '/');
    }
    if rooted {
      SplitAppend("", Join(es, "/"), '/');
      assert "" + "/" + Join(es, "/") == "/" + Join(es, "/");
    }
  }

  /** The first character of a join of non-empty pieces is that of the first piece. */
  lemma JoinStart(es: seq<string>)
    requires |es| > 0 && es[0] != ""
    ensures |Join(es, "/")| > 0 && Join(es, "/")[0] == es[0][0]
  {
  }

  /** Cleaning keeps a path absolute or relative, and yields clean elements. */
  lemma CleanShape(p: string)
    ensures Clean(p) != ""
    ensures IsAbs(Clean(p)) <==> IsAbs(p)
    ensures p != "" ==> CleanElements(Resolve([], Split(p, '/'), IsAbs(p)), IsAbs(p))
  {
    if p != "" {
      var rooted := p[0] == '/';
      var es := Resolve([], Split(p, '/'), rooted);
      ResolveKeepsClean([], Split(p, '/'), rooted);
      if !rooted && |es| > 0 {
        JoinStart(es);
      }
    }
  }

  /** Skipping a leading empty element. */
  lemma ResolveSkipEmpty(xs: seq<string>, rooted: bool)
    ensures Resolve([], [""] + xs, rooted) == Resolve([], xs, rooted)
  {
    assert ([""] + xs)[0] == "";
    assert ([""] + xs)[1..] == xs;
  }

  /** A rendered clean path cleans to itself. */
  lemma CleanRender(es: seq<string>, rooted: bool)
    requires CleanElements(es, rooted)
    ensures Clean(Render(es, rooted)) == Render(es, rooted)
  {
    var r := Render(es, rooted);
    SplitRender(es, rooted);
    if rooted {
      assert r[0] == '/';
      var xs := if |es| == 0 then [""] else es;
      ResolveSkipEmpty(xs, true);
      if |es| == 0 {
        assert Resolve([], [""], true) == [];
      } else {
        ResolveClean([], es, true);
        assert Split(r, '/') == [""] + es;
        assert Resolve([], Split(r, '/'), true) == es;
      }
    } else if |es| == 0 {
      SplitWithoutSep(".", '/');
      assert Resolve([], ["."], false) == [];
    } else {
      JoinStart(es);
      assert IsElement(es[0]) && es[0][0] in es[0];
      assert r != "" && r[0] != '/';
      assert Split(r, '/') == es;
      ResolveClean([], es, false);
      assert Resolve([], es, false) == es;
    }
  }

  /** Cleaning a clean path changes nothing. */
  lemma CleanIdempotent(p: string)
    ensures Clean(Clean(p)) == Clean(p)
  {
    if p == "" {
      CleanRender([], false);
    } else {
      var rooted := p[0] == '/';
      CleanShape(p);
      CleanRender(Resolve([], Split(p, '/'), rooted), rooted);
    }
  }

  /** Joining onto an absolute directory gives an absolute, clean path. */
  lemma JoinPathAbs(dir: string, elem: string)
    requires IsAbs(dir)
    ensures IsAbs(JoinPath(dir, elem))
    ensures Clean(JoinPath(dir, elem)) == JoinPath(dir, elem)
  {
    CleanShape(dir + "/" + elem);
    CleanIdempotent(dir + "/" + elem);
  }

  /** The position of the last occurrence of a character before a tail free of it. */
  lemma {:induction false} LastIndexBefore(a: string, c: char, b: string)
    requires c !in b
    ensures LastIndexOf(a + [c] + b, c) == |a|
    decreases |b|
  {
    var s := a + [c] + b;
    if |b| > 0 {
      var b' := b[..|b| - 1];
      assert s[|s| - 1] == b[|b| - 1];
      assert s[..|s| - 1] == a + [c] + b';
      assert forall x :: x in b' ==> x in b;
      LastIndexBefore(a, c, b');
    } else {
      assert s[|s| - 1] == c;
    }
  }

  /** A rooted path of elements is its parent's text, a `/`, and its last element. */
  lemma RenderLast(es: seq<string>)
    requires |es| > 0
    ensures Render(es, true) == Parent(es) + "/" + es[|es| - 1]
  {
    if |es| >= 2 {
      JoinLast(es, "/");
    }
  }

  /** The text in front of the last `/` of a rooted path of elements. */
  function Parent(es: seq<string>): string
    requires |es| > 0
  {
    if |es| == 1 then "" else Render(es[..|es| - 1], true)
  }

  /** For a clean absolute path, `Base` is the last element. */
  lemma BaseOfClean(es: seq<string>)
    requires |es| > 0 && CleanElements(es, true)
    ensures Base(Render(es, true)) == es[|es| - 1]
  {
    var last := es[|es| - 1];
    var a := Parent(es);
    var p := Render(es, true);
    RenderLast(es);
    assert IsElement(last);
    assert p[|p| - 1] == last[|last| - 1];
    assert last[|last| - 1] in last;
    assert TrimRight(p, '/') == p;
    LastIndexBefore(a, '/', last);
    assert p[|a| + 1..] == last;
  }

  /** Cleaning a rooted path of elements followed by a `/`. */
  lemma CleanTrailingSlash(front: seq<string>)
    requires |front| > 0 && CleanElements(front, true)
    ensures Clean(Render(front, true) + "/") == Render(front, true)
  {
    var j := Join(front, "/");
    var q := Render(front, true) + "/";
    assert q == "" + "/" + (j + "/" + "");
    SplitAppend(j, "", '/');
    SplitAppend("", j + "/" + "", '/');
    SplitJoinPlain(front, '/');
    assert Split(q, '/') == [""] + front + [""];
    ResolveAppend([], [""] + front, [""], true);
    ResolveSkipEmpty(front, true);
    ResolveClean([], front, true);
    assert Resolve(front, [""], true) == front;
    assert Resolve([], Split(q, '/'), true) == front;
    assert q != "" && q[0] == '/';
  }

  /** For a clean absolute path, `Dir` is the path of all but the last element. */
  lemma DirOfClean(es: seq<string>)
    requires |es| > 0 && CleanElements(es, true)
    ensures Dir(Render(es, true)) == Render(es[..|es| - 1], true)
  {
    var last := es[|es| - 1];
    var front := es[..|es| - 1];
    var a := Parent(es);
    var p := Render(es, true);
    RenderLast(es);
    assert IsElement(last);
    LastIndexBefore(a, '/', last);
    assert p[..|a| + 1] == a + "/";
    assert Dir(p) == Clean(a + "/");
    if |es| == 1 {
      assert Split("/", '/') == ["", ""] by {
        SplitAppend("", "", '/');
        assert "" + "/" + "" == "/";
      }
      assert Resolve([], ["", ""], true) == [];
      assert Clean("/") == "/";
      assert Render(front, true) == "/";
    } else {
      assert CleanElements(front, true);
      CleanTrailingSlash(front);
    }
  }
}

=== FILE: interpolate.dfy ===
/** Template expansion for descriptor paths. Only the braced form `${name}` is
    recognised: each is replaced by the variable's value from the environment,
    a variable the environment does not hold expands to the empty text, and an
    unclosed `${` or an empty name `${}` is an error. Every other character is
    copied. This is an approximation of the interpolation library the launcher
    calls. */
module Interpolate {
  import opened Wrappers
  import opened Strings

  type Env = map<string, string>

  /** The value of a variable; an unset variable reads as the empty text. */
  function Lookup(env: Env, name: string): string
  {
    if name in env then env[name] else ""
  }

  /** Expands every `${name}` in `t` from `env`. */
  function Expand(env: Env, t: string): Result<string, string>
    decreases |t|
  {
    if |t| == 0 then Success("")
    else if |t| >= 2 && t[0] == '$' && t[1] == '{' then
      match IndexOf(t[2..], '}')
      case None => Failure("unterminated variable reference")
      case Some(j) =>
        var name := t[2..2 + j];
        if name == "" then Failure("empty variable name")
        else
          match Expand(env, t[3 + j..])
          case Failure(e) => Failure(e)
          case Success(rest) => Success(Lookup(env, name) + rest)
    else
      match Expand(env, t[1..])
      case Failure(e) => Failure(e)
      case Success(rest) => Success([t[0]] + rest)
  }

  /** Text without `$` is copied in front of the expansion of what follows it. */
  lemma {:induction false} ExpandLiteral(env: Env, lit: string, t: string)
    requires '$' !in lit
    ensures Expand(env, lit + t) == match Expand(env, t)
      case Success(r) => Success(lit + r)
      case Failure(e) => Failure(e)
    decreases |lit|
  {
    if |lit| > 0 {
      var s := lit + t;
      assert s[0] == lit[0] && s[1..] == lit[1..] + t;
      assert lit[0] in lit;
      ExpandLiteral(env, lit[1..], t);
      assert [lit[0]] + lit[1..] == lit;
      match Expand(env, t)
      case Success(r) => {
        assert [lit[0]] + (lit[1..] + r) == lit + r;
      }
      case Failure(_) => {}
    } else {
      assert lit + t == t;
      match Expand(env, t)
      case Success(r) => {
        assert lit + r == r;
      }
      case Failure(_) => {}
    }
  }

  /** A template without `$` expands to itself. */
  lemma ExpandPlain(env: Env, t: string)
    requires '$' !in t
    ensures Expand(env, t) == Success(t)
  {
    ExpandLiteral(env, t, "");
    assert t + "" == t;
  }

  /** A reference to a variable is replaced by its value, the empty text when
      the variable is unset. */
  lemma ExpandVar(env: Env, name: string, t: string)
    requires '}' !in name && name != ""
    ensures Expand(env, "${" + name + "}" + t) == match Expand(env, t)
      case Success(r) => Success(Lookup(env, name) + r)
      case Failure(e) => Failure(e)
  {
    var s := "${" + name + "}" + t;
    assert s[2..] == name + "}" + t;
    var j := |name|;
    LastIndexBefore(name, t);
    assert s[2..2 + j] == name;
    assert s[3 + j..] == t;
  }

  /** The first `}` in `name + "}" + t` is the one after `name`. */
  lemma LastIndexBefore(name: string, t: string)
    requires '}' !in name
    ensures IndexOf(name + "}" + t, '}') == Some(|name|)
  {
    var s := name + "}" + t;
    assert s[|name|] == '}';
    assert s[..|name|] == name;
  }

  /** A reference to an unset variable disappears: the expansion is that of
      the text after it, and does not fail. */
  lemma ExpandUnset(env: Env, name: string, t: string)
    requires '}' !in name && name != "" && name !in env
    ensures Expand(env, "${" + name + "}" + t) == Expand(env, t)
  {
    ExpandVar(env, name, t);
    match Expand(env, t)
    case Success(r) => {
      assert Lookup(env, name) + r == r;
    }
    case Failure(_) => {}
  }

  /** A `${` that no `}` closes makes the whole expansion fail. */
  lemma ExpandUnclosed(env: Env, t: string)
    requires '}' !in t
    ensures Expand(env, "${" + t).Failure?
  {
    var s := "${" + t;
    assert s[2..] == t;
  }

  /** An empty name `${}` makes the whole expansion fail. */
  lemma ExpandEmptyName(env: Env, t: string)
    ensures Expand(env, "${}" + t).Failure?
  {
    var s := "${}" + t;
    assert s[2..] == "}" + t;
    assert IndexOf(s[2..], '}') == Some(0);
  }

  /** A template with one reference between two literal texts. */
  lemma ExpandOneVar(env: Env, a: string, name: string, b: string)
    requires '$' !in a && '$' !in b && '}' !in name && name != "" && name in env
    ensures Expand(env, a + ("${" + name + "}" + b)) == Success(a + (env[name] + b))
  {
    ExpandPlain(env, b);
    ExpandVar(env, name, b);
    ExpandLiteral(env, a, "${" + name + "}" + b);
  }

  /** A template with two references among three literal texts. */
  lemma ExpandTwoVars(env: Env, a: string, n1: string, b: string, n2: string, c: string)
    requires '$' !in a && '$' !in b && '$' !in c
    requires '}' !in n1 && n1 != "" && n1 in env && '}' !in n2 && n2 != "" && n2 in env
    ensures Expand(env, a + ("${" + n1 + "}" + (b + ("${" + n2 + "}" + c))))
      == Success(a + (env[n1] + (b + (env[n2] + c))))
  {
    var tail := b + ("${" + n2 + "}" + c);
    ExpandOneVar(env, b, n2, c);
    ExpandVar(env, n1, tail);
    ExpandLiteral(env, a, "${" + n1 + "}" + tail);
  }
}

=== FILE: json.dfy ===
/** A JSON document as both programs hold it after parsing: Go's `interface{}`
    values and Python's `dict` / `list` / `str` / number / `bool` / `None`.
    Numbers keep their literal text, so no floating point is involved. Object
    members keep their order, as a Python `dict` does. */
module Json {

  datatype Value =
    | Null
    | Bool(b: bool)
    | Number(literal: string)
    | Str(s: string)
    | Array(items: seq<Value>)
    | Object(fields: seq<(string, Value)>)

  /** The member names of an object, in order. */
  function Keys(fields: seq<(string, Value)>): (r: seq<string>)
    ensures |r| == |fields|
    ensures forall i :: 0 <= i < |fields| ==> r[i] == fields[i].0
  {
    seq(|fields|, i requires 0 <= i < |fields| => fields[i].0)
  }
}

=== FILE: project.dfy ===
/** The launcher: the image tag, build context and `docker build` arguments
    for a descriptor, the interpolation environment and workspace templates,
    the random container name, the `docker run` arguments and the service
    URL. Host, port, random draws and Go's map iteration order are inputs;
    running `docker` is not modelled. */
module Project {
  import opened Wrappers
  import opened Strings
  import opened Seqs
  import FilePath
  import opened DevContainers
  import opened Interpolate
  import opened Settings
  import Dockerfile

  // ---------------------------------------------------------------------------
  // Image tag.

  const TagSuffix := "_code_coder_server"

  /** `getImageTag`: the lower-cased name with spaces turned into
      underscores, followed by `_code_coder_server`. */
  function ImageTag(name: string): (r: string)
    ensures |r| == |name| + |TagSuffix|
    ensures forall i :: 0 <= i < |name| ==> r[i] == (if name[i] == ' ' then '_' else LowerChar(name[i]))
    ensures IsSuffix(TagSuffix, r)
    ensures ' ' !in r
    ensures forall i :: 0 <= i < |r| ==> !IsUpperAscii(r[i])
  {
    var r := ReplaceChar(Lower(name), ' ', '_') + TagSuffix;
    assert r[|name|..] == TagSuffix;
    r
  }

  /** The tag ignores ASCII case: names that differ only in case share it. */
  lemma ImageTagIgnoresCase(name: string)
    ensures ImageTag(Lower(name)) == ImageTag(name)
  {
    var a, b := ImageTag(Lower(name)), ImageTag(name);
    assert forall i :: 0 <= i < |name| ==> LowerChar(LowerChar(name[i])) == LowerChar(name[i]);
    assert forall i :: |name| <= i < |a| ==> a[i] == TagSuffix[i - |name|] == b[i];
  }

  /** A space and an underscore give the same tag, so two descriptors can
      collide on one image. */
  lemma ImageTagCollision()
    ensures ImageTag("My App") == ImageTag("my_app")
    ensures "My App" != "my_app"
  {
    var a, b := ImageTag("My App"), ImageTag("my_app");
    assert forall i :: 0 <= i < |a| ==> a[i] == b[i];
  }

  // ---------------------------------------------------------------------------
  // Build context and build arguments.

  /** `getBuildContext`: an absolute context as given, otherwise joined onto
      the descriptor's directory. */
  function BuildContext(dc: DevContainer): (r: string)
    ensures FilePath.IsAbs(dc.build.context) ==> r == dc.build.context
    ensures !FilePath.IsAbs(dc.build.context) ==> r == FilePath.JoinPath(dc.dirPath, dc.build.context)
    ensures r == "" <==> dc.build.context == "" && dc.dirPath == ""
  {
    if FilePath.IsAbs(dc.build.context) then dc.build.context
    else
      FilePath.CleanShape(dc.dirPath + "/" + dc.build.context);
      FilePath.CleanShape(dc.build.context);
      FilePath.JoinPath(dc.dirPath, dc.build.context)
  }

  /** A relative context under an absolute descriptor directory resolves to
      an absolute, clean path. */
  lemma BuildContextAbsolute(dc: DevContainer)
    requires FilePath.IsAbs(dc.dirPath)
    ensures FilePath.IsAbs(BuildContext(dc))
    ensures !FilePath.IsAbs(dc.build.context) ==> FilePath.Clean(BuildContext(dc)) == BuildContext(dc)
  {
    if !FilePath.IsAbs(dc.build.context) {
      FilePath.JoinPathAbs(dc.dirPath, dc.build.context);
    }
  }

  /** `order` lists each key of a map once: one run of Go's map iteration. */
  predicate Enumerates(order: seq<string>, keys: set<string>)
  {
    && |order| == |keys|
    && (forall i :: 0 <= i < |order| ==> order[i] in keys)
    && multiset(order) == multiset(keys)
  }

  /** The `--build-arg k=v` pairs, in the given key order. */
  function BuildArgPairs(args: map<string, string>, order: seq<string>): (r: seq<string>)
    requires forall x :: x in order ==> x in args
    ensures |r| == 2 * |order|
    decreases |order|
  {
    if |order| == 0 then [] else Pair(args, order[0]) + BuildArgPairs(args, order[1..])
  }

  /** Pair `i` of the pairs passes the `i`-th key of the order. */
  lemma {:induction false} BuildArgPairsAt(args: map<string, string>, order: seq<string>)
    requires forall x :: x in order ==> x in args
    ensures forall i :: 0 <= i < |order| ==>
      BuildArgPairs(args, order)[2 * i] == "--build-arg" && BuildArgPairs(args, order)[2 * i + 1] == order[i] + "=" + args[order[i]]
    decreases |order|
  {
    if |order| > 0 {
      var rest := BuildArgPairs(args, order[1..]);
      var r := BuildArgPairs(args, order);
      BuildArgPairsAt(args, order[1..]);
      assert r == Pair(args, order[0]) + rest;
      forall i | 0 <= i < |order|
        ensures r[2 * i] == "--build-arg" && r[2 * i + 1] == order[i] + "=" + args[order[i]]
      {
        if i > 0 {
          var j := i - 1;
          assert order[1..][j] == order[i];
          assert r[2 * i] == rest[2 * j] && r[2 * i + 1] == rest[2 * j + 1];
        }
      }
    }
  }

  /** The two arguments that pass one build argument. */
  function Pair(args: map<string, string>, k: string): seq<string>
    requires k in args
  {
    ["--build-arg", k + "=" + args[k]]
  }

  /** The `docker build` arguments of `BuildImage`: tag, Dockerfile from
      standard input, one pair per build argument in iteration order, and the
      context last. */
  function BuildArgs(tag: string, context: string, args: map<string, string>, order: seq<string>): (r: seq<string>)
    requires Enumerates(order, args.Keys)
    ensures |r| == 6 + 2 * |args|
    ensures r[..5] == ["build", "-t", tag, "-f", "-"]
    ensures r[|r| - 1] == context
    ensures forall i :: 0 <= i < |args| ==> r[5 + 2 * i] == "--build-arg" && r[6 + 2 * i] == order[i] + "=" + args[order[i]]
  {
    var pairs := BuildArgPairs(args, order);
    var r := ["build", "-t", tag, "-f", "-"] + pairs + [context];
    BuildArgPairsAt(args, order);
    assert forall i :: 0 <= i < |args| ==> r[5 + 2 * i] == pairs[2 * i] && r[6 + 2 * i] == pairs[2 * i + 1];
    r
  }

  /** Every build argument is passed, whatever the order. */
  lemma BuildArgsCoverKeys(tag: string, context: string, args: map<string, string>, order: seq<string>)
    requires Enumerates(order, args.Keys)
    ensures forall k :: k in args ==> exists i :: 0 <= i < |args| && BuildArgs(tag, context, args, order)[6 + 2 * i] == k + "=" + args[k]
  {
    var r := BuildArgs(tag, context, args, order);
    EnumeratesFacts(order, args.Keys);
    forall k | k in args
      ensures exists i :: 0 <= i < |args| && r[6 + 2 * i] == k + "=" + args[k]
    {
      var i :| 0 <= i < |order| && order[i] == k;
      assert r[6 + 2 * i] == k + "=" + args[k];
    }
  }

  /** An enumeration lists exactly the keys. */
  lemma EnumeratesFacts(order: seq<string>, keys: set<string>)
    requires Enumerates(order, keys)
    ensures forall k :: k in keys <==> k in order
  {
    forall k ensures k in keys <==> k in order {
      assert k in keys <==> k in multiset(keys);
      assert k in order <==> k in multiset(order);
    }
  }

  /** Go's `range` over a map: some order in which every key comes once. */
  method IterationOrder(m: map<string, string>) returns (order: seq<string>)
    ensures Enumerates(order, m.Keys)
  {
    order := [];
    var left := m.Keys;
    while left != {}
      invariant left <= m.Keys
      invariant |order| + |left| == |m.Keys|
      invariant forall i :: 0 <= i < |order| ==> order[i] in m.Keys
      invariant multiset(order) + multiset(left) == multiset(m.Keys)
      decreases |left|
    {
      var k :| k in left;
      order := order + [k];
      assert multiset(left) == multiset(left - {k}) + multiset{k};
      left := left - {k};
    }
  }

  /** The pairs from two iteration orders are permutations of each other, so
      the build sees the same arguments whichever order Go picks. */
  lemma {:induction false} BuildArgPairsPermutation(args: map<string, string>, o1: seq<string>, o2: seq<string>)
    requires forall x :: x in o1 ==> x in args
    requires forall x :: x in o2 ==> x in args
    requires multiset(o1) == multiset(o2)
    ensures multiset(BuildArgPairs(args, o1)) == multiset(BuildArgPairs(args, o2))
    decreases |o1|
  {
    if |o1| > 0 {
      assert o1[0] in multiset(o2);
      var j :| 0 <= j < |o2| && o2[j] == o1[0];
      var rest2 := o2[..j] + o2[j + 1..];
      RemoveOne(o1, o2, j);
      assert forall x :: x in rest2 ==> x in o2;
      BuildArgPairsPermutation(args, o1[1..], rest2);
      PermutationStep(args, o1, o2, j);
    } else {
      assert |o2| == |multiset(o2)| == 0;
    }
  }

  /** The inductive step: with the pairs of the rests equal as multisets, so
      are the pairs of the whole orders. */
  lemma PermutationStep(args: map<string, string>, o1: seq<string>, o2: seq<string>, j: nat)
    requires forall x :: x in o1 ==> x in args
    requires forall x :: x in o2 ==> x in args
    requires |o1| > 0 && j < |o2| && o2[j] == o1[0]
    requires multiset(BuildArgPairs(args, o1[1..])) == multiset(BuildArgPairs(args, o2[..j] + o2[j + 1..]))
    ensures multiset(BuildArgPairs(args, o1)) == multiset(BuildArgPairs(args, o2))
  {
    var k, a, b := o1[0], o2[..j], o2[j + 1..];
    SplitAt(o2, j);
    var rest := BuildArgPairs(args, o1[1..]);
    PairsSplit(args, a, k, b);
    assert multiset(BuildArgPairs(args, o2)) == multiset(Pair(args, k)) + multiset(rest);
    PairsHead(args, o1);
    assert multiset(BuildArgPairs(args, o1)) == multiset(Pair(args, k)) + multiset(rest);
  }

  /** The pairs of a non-empty order: the first key's pair, then the rest. */
  lemma PairsHead(args: map<string, string>, order: seq<string>)
    requires |order| > 0
    requires forall x :: x in order ==> x in args
    ensures BuildArgPairs(args, order) == Pair(args, order[0]) + BuildArgPairs(args, order[1..])
  {
  }

  /** The pairs of an order that starts with `x`. */
  lemma PairsCons(args: map<string, string>, x: string, rest: seq<string>)
    requires x in args
    requires forall y :: y in rest ==> y in args
    ensures BuildArgPairs(args, [x] + rest) == Pair(args, x) + BuildArgPairs(args, rest)
  {
    assert ([x] + rest)[1..] == rest;
  }

  /** Taking the first element of one sequence out of a permutation of it. */
  lemma RemoveOne<T>(o1: seq<T>, o2: seq<T>, j: nat)
    requires multiset(o1) == multiset(o2)
    requires |o1| > 0 && j < |o2| && o2[j] == o1[0]
    ensures multiset(o1[1..]) == multiset(o2[..j] + o2[j + 1..])
  {
    var k := o1[0];
    assert o2 == o2[..j] + [k] + o2[j + 1..];
    assert o1 == [k] + o1[1..];
    var m1, m2 := multiset(o1[1..]), multiset(o2[..j] + o2[j + 1..]);
    assert multiset(o1) == m1 + multiset{k};
    assert multiset(o2) == m2 + multiset{k};
    assert m1 == m1 + multiset{k} - multiset{k};
    assert m2 == m2 + multiset{k} - multiset{k};
  }

  /** Taking one key out of the middle of an order takes its pair out of the
      middle of the pairs. */
  lemma {:induction false} PairsSplit(args: map<string, string>, a: seq<string>, k: string, b: seq<string>)
    requires k in args
    requires forall x :: x in a ==> x in args
    requires forall x :: x in b ==> x in args
    ensures multiset(BuildArgPairs(args, a + [k] + b))
      == multiset(Pair(args, k)) + multiset(BuildArgPairs(args, a + b))
    decreases |a|
  {
    if |a| == 0 {
      assert a + [k] + b == [k] + b;
      assert a + b == b;
      PairsCons(args, k, b);
    } else {
      var p := Pair(args, a[0]);
      var withK, without := BuildArgPairs(args, a[1..] + [k] + b), BuildArgPairs(args, a[1..] + b);
      PairsSplit(args, a[1..], k, b);
      PairsShift(args, a, k, b);
      assert multiset(BuildArgPairs(args, a + [k] + b)) == multiset(p) + multiset(withK);
      assert multiset(BuildArgPairs(args, a + b)) == multiset(p) + multiset(without);
      SwapUnion(multiset(p), multiset(Pair(args, k)), multiset(without));
    }
  }


  /** The pairs with and without `k` both start with the first key's pair. */
  lemma PairsShift(args: map<string, string>, a: seq<string>, k: string, b: seq<string>)
    requires k in args && |a| > 0
    requires forall x :: x in a ==> x in args
    requires forall x :: x in b ==> x in args
    ensures BuildArgPairs(args, a + [k] + b) == Pair(args, a[0]) + BuildArgPairs(args, a[1..] + [k] + b)
    ensures BuildArgPairs(args, a + b) == Pair(args, a[0]) + BuildArgPairs(args, a[1..] + b)
  {
    var x, a' := a[0], a[1..];
    assert a + [k] + b == [x] + (a' + [k] + b);
    assert a + b == [x] + (a' + b);
    PairsCons(args, x, a' + [k] + b);
    PairsCons(args, x, a' + b);
  }

  /** The build arguments are the same multiset for every iteration order. */
  lemma BuildArgsOrderIrrelevant(tag: string, context: string, args: map<string, string>, o1: seq<string>, o2: seq<string>)
    requires Enumerates(o1, args.Keys) && Enumerates(o2, args.Keys)
    ensures multiset(BuildArgs(tag, context, args, o1)) == multiset(BuildArgs(tag, context, args, o2))
  {
    EnumeratesFacts(o1, args.Keys);
    EnumeratesFacts(o2, args.Keys);
    BuildArgPairsPermutation(args, o1, o2);
    var h: seq<string> := ["build", "-t", tag, "-f", "-"];
    assert BuildArgs(tag, context, args, o1) == h + BuildArgPairs(args, o1) + [context];
    assert BuildArgs(tag, context, args, o2) == h + BuildArgPairs(args, o2) + [context];
  }

  // ---------------------------------------------------------------------------
  // Interpolation environment and workspace templates.

  const FolderVar := "localWorkspaceFolder"
  const BasenameVar := "localWorkspaceFolderBasename"

  /** `getMapEnv`: the folder that holds the descriptor's directory, and that
      folder's last element. */
  function MapEnv(dc: DevContainer): (env: Env)
    ensures env.Keys == {FolderVar, BasenameVar}
    ensures env[FolderVar] == FilePath.Dir(dc.dirPath)
    ensures env[BasenameVar] == FilePath.Base(env[FolderVar])
  {
    var folder := FilePath.Dir(dc.dirPath);
    map[FolderVar := folder, BasenameVar := FilePath.Base(folder)]
  }

  /** For a descriptor directory `/e1/…/en` (cleaned, n >= 2), the workspace
      folder is `/e1/…/e(n-1)` and its base name is `e(n-1)`. */
  lemma MapEnvOfClean(dc: DevContainer, es: seq<string>)
    requires |es| >= 2 && FilePath.CleanElements(es, true)
    requires dc.dirPath == FilePath.Render(es, true)
    ensures MapEnv(dc)[FolderVar] == FilePath.Render(es[..|es| - 1], true)
    ensures MapEnv(dc)[BasenameVar] == es[|es| - 2]
  {
    var front := es[..|es| - 1];
    FilePath.DirOfClean(es);
    assert FilePath.CleanElements(front, true);
    FilePath.BaseOfClean(front);
  }

  /** The default mount, split where the references are. */
  const MountSource := "source="
  const MountTarget := ",target=/workspace/"
  const MountType := ",type=bind"
  const DefaultWorkspaceMount := MountSource + ("${" + FolderVar + "}" + (MountTarget + ("${" + BasenameVar + "}" + MountType)))

  const WorkspaceRoot := "/workspace/"
  const DefaultWorkspaceFolder := WorkspaceRoot + ("${" + BasenameVar + "}" + "")

  /** `getWorkspaceBinding`: the descriptor's mount expanded in the
      environment. Without one, the default binds the folder holding the
      descriptor's directory to `/workspace/<its base name>`, and never fails;
      a mount without references is used exactly as given. */
  function WorkspaceBinding(dc: DevContainer): (r: Result<string, string>)
    ensures dc.workspaceMount == "" ==> r == Success(
      MountSource + (FilePath.Dir(dc.dirPath) + (MountTarget + (FilePath.Base(FilePath.Dir(dc.dirPath)) + MountType))))
    ensures dc.workspaceMount != "" && '$' !in dc.workspaceMount ==> r == Success(dc.workspaceMount)
    ensures dc.workspaceMount != "" ==> r == Expand(MapEnv(dc), dc.workspaceMount)
  {
    if dc.workspaceMount == "" then
      assert '$' !in MountSource && '$' !in MountTarget && '$' !in MountType;
      assert '}' !in FolderVar && '}' !in BasenameVar;
      ExpandTwoVars(MapEnv(dc), MountSource, FolderVar, MountTarget, BasenameVar, MountType);
      Expand(MapEnv(dc), DefaultWorkspaceMount)
    else if '$' !in dc.workspaceMount then
      ExpandPlain(MapEnv(dc), dc.workspaceMount);
      Expand(MapEnv(dc), dc.workspaceMount)
    else
      Expand(MapEnv(dc), dc.workspaceMount)
  }

  /** `getWorkspaceFolder`: the descriptor's folder expanded in the
      environment. Without one, the default is `/workspace/<base name of the
      folder holding the descriptor's directory>`, and never fails; a folder
      without references is used exactly as given. */
  function WorkspaceFolder(dc: DevContainer): (r: Result<string, string>)
    ensures dc.workspaceFolder == "" ==> r == Success(WorkspaceRoot + FilePath.Base(FilePath.Dir(dc.dirPath)))
    ensures dc.workspaceFolder != "" && '$' !in dc.workspaceFolder ==> r == Success(dc.workspaceFolder)
    ensures dc.workspaceFolder != "" ==> r == Expand(MapEnv(dc), dc.workspaceFolder)
  {
    if dc.workspaceFolder == "" then
      assert '$' !in WorkspaceRoot && '}' !in BasenameVar;
      ExpandOneVar(MapEnv(dc), WorkspaceRoot, BasenameVar, "");
      assert MapEnv(dc)[BasenameVar] + "" == MapEnv(dc)[BasenameVar];
      Expand(MapEnv(dc), DefaultWorkspaceFolder)
    else if '$' !in dc.workspaceFolder then
      ExpandPlain(MapEnv(dc), dc.workspaceFolder);
      Expand(MapEnv(dc), dc.workspaceFolder)
    else
      Expand(MapEnv(dc), dc.workspaceFolder)
  }

  /** A mount that starts with a reference to a variable outside the
      environment loses the reference: the binding is the expansion of the
      rest, and does not fail on its account. */
  lemma UnsetVariableVanishes(dc: DevContainer, name: string, rest: string)
    requires '}' !in name && name != "" && name != FolderVar && name != BasenameVar
    requires dc.workspaceMount == "${" + name + "}" + rest
    ensures WorkspaceBinding(dc) == Expand(MapEnv(dc), rest)
  {
    ExpandUnset(MapEnv(dc), name, rest);
  }

  /** A mount with a `${` that no `}` closes is an error. */
  lemma UnclosedReferenceFails(dc: DevContainer, rest: string)
    requires '}' !in rest && dc.workspaceMount == "${" + rest
    ensures WorkspaceBinding(dc).Failure?
  {
    ExpandUnclosed(MapEnv(dc), rest);
  }

  // ---------------------------------------------------------------------------
  // Container name.

  predicate IsAsciiLetter(c: char) { IsLowerAscii(c) || IsUpperAscii(c) }

  /** Letter `d` of `a…zA…Z`, the table `makeRandomString` draws from. */
  function LetterOf(d: nat): (c: char)
    requires d < 52
    ensures IsAsciiLetter(c)
  {
    if d < 26 then ('a' as int + d) as char else ('A' as int + d - 26) as char
  }

  /** The position of a letter in `a…zA…Z`. */
  function LetterIndex(c: char): (d: nat)
    requires IsAsciiLetter(c)
    ensures d < 52
  {
    if IsLowerAscii(c) then c as int - 'a' as int else c as int - 'A' as int + 26
  }

  /** The table is a bijection between `0..51` and the ASCII letters. */
  lemma LetterTable(d: nat, c: char)
    requires d < 52 && IsAsciiLetter(c)
    ensures LetterIndex(LetterOf(d)) == d
    ensures LetterOf(LetterIndex(c)) == c
  {
  }

  const NameLength := 16

  /** `makeRandomString`: sixteen letters, the `i`-th picked by the `i`-th
      draw of `rand.Intn(52)`. */
  method MakeRandomString(draws: seq<nat>) returns (name: string)
    requires |draws| >= NameLength
    requires forall i :: 0 <= i < NameLength ==> draws[i] < 52
    ensures |name| == NameLength
    ensures forall i :: 0 <= i < NameLength ==> IsAsciiLetter(name[i]) && LetterIndex(name[i]) == draws[i]
  {
    name := [];
    var i := 0;
    while i < NameLength
      invariant 0 <= i <= NameLength && |name| == i
      invariant forall j :: 0 <= j < i ==> IsAsciiLetter(name[j]) && LetterIndex(name[j]) == draws[j]
    {
      LetterTable(draws[i], 'a');
      name := name + [LetterOf(draws[i])];
      i := i + 1;
    }
  }

  // ---------------------------------------------------------------------------
  // Service URL.

  /** Where the started code-server is reached. */
  datatype ServiceUrl = ServiceUrl(host: string, port: int, workspaceFolder: string)

  const Scheme := "http://"
  const FolderQuery := "/?folder="

  /** `ServiceURL.String`. */
  function UrlString(u: ServiceUrl): string
  {
    Scheme + u.host + ":" + Decimal(u.port) + FolderQuery + u.workspaceFolder
  }

  /** Reads a service URL back: the host up to the first `:`, the decimal
      port up to the next `/`, and the folder after `/?folder=`. */
  function ParseUrl(s: string): Option<ServiceUrl>
  {
    if !IsPrefix(Scheme, s) then None else ParseHost(s[|Scheme|..])
  }

  function ParseHost(rest: string): Option<ServiceUrl>
  {
    match IndexOf(rest, ':')
    case None => None
    case Some(i) => ParsePort(rest[..i], rest[i + 1..])
  }

  function ParsePort(host: string, after: string): Option<ServiceUrl>
  {
    match IndexOf(after, '/')
    case None => None
    case Some(j) => ParseFolder(host, after[..j], after[j..])
  }

  function ParseFolder(host: string, digits: string, tail: string): Option<ServiceUrl>
  {
    if !IsPrefix(FolderQuery, tail) then None
    else
      match ParseDecimal(digits)
      case None => None
      case Some(port) => Some(ServiceUrl(host, port, tail[|FolderQuery|..]))
  }

  /** Round trip: a URL whose host has no `:` reads back to its parts. */
  lemma UrlRoundTrip(u: ServiceUrl)
    requires ':' !in u.host
    ensures ParseUrl(UrlString(u)) == Some(u)
  {
    var d := Decimal(u.port);
    var query := "?folder=" + u.workspaceFolder;
    var after := d + ['/'] + query;
    var rest := u.host + [':'] + after;
    assert UrlString(u) == Scheme + rest by {
      assert FolderQuery + u.workspaceFolder == ['/'] + query;
    }
    assert IsPrefix(Scheme, Scheme + rest) && (Scheme + rest)[|Scheme|..] == rest by {
      SliceConcat(Scheme, rest);
    }
    assert '/' !in d by {
      DecimalChars(u.port);
    }
    DecimalRoundTrip(u.port);
    ParsePortParts(u.host, d, u.port, u.workspaceFolder);
    IndexOfSplit(u.host, ':', after);
  }

  /** The port and folder steps on the text after the host's `:`. */
  lemma ParsePortParts(host: string, d: string, port: int, folder: string)
    requires '/' !in d && ParseDecimal(d) == Some(port)
    ensures ParsePort(host, d + ['/'] + ("?folder=" + folder)) == Some(ServiceUrl(host, port, folder))
  {
    var query := "?folder=" + folder;
    IndexOfSplit(d, '/', query);
    var tail := (d + ['/'] + query)[|d|..];
    assert tail == FolderQuery + folder;
    assert IsPrefix(FolderQuery, tail) && tail[|FolderQuery|..] == folder by {
      SliceConcat(FolderQuery, folder);
    }
  }

  /** `GetServiceURL` with the host and the free port given: fails only when
      the workspace folder cannot be expanded. */
  function GetServiceUrl(host: string, port: int, dc: DevContainer): (r: Result<ServiceUrl, string>)
    ensures r.Success? <==> WorkspaceFolder(dc).Success?
    ensures r.Success? ==> r.value == ServiceUrl(host, port, WorkspaceFolder(dc).value)
    ensures dc.workspaceFolder == "" ==>
      r == Success(ServiceUrl(host, port, WorkspaceRoot + FilePath.Base(FilePath.Dir(dc.dirPath))))
    ensures r.Success? && ':' !in host ==> ParseUrl(UrlString(r.value)) == Some(r.value)
  {
    match WorkspaceFolder(dc)
    case Failure(e) => Failure(e)
    case Success(folder) =>
      if ':' !in host then
        UrlRoundTrip(ServiceUrl(host, port, folder));
        Success(ServiceUrl(host, port, folder))
      else
        Success(ServiceUrl(host, port, folder))
  }

  // ---------------------------------------------------------------------------
  // `docker run` arguments.

  /** Publishes the chosen host port on code-server's port 8080. */
  function PortBinding(port: int): string
  {
    "0.0.0.0:" + Decimal(port) + ":8080"
  }

  /** One `-p <v>` pair per forwarded port, in order. */
  function ForwardPortArgs(ports: seq<string>): (r: seq<string>)
    ensures |r| == 2 * |ports|
    ensures forall i :: 0 <= i < |ports| ==> r[2 * i] == "-p" && r[2 * i + 1] == ports[i]
  {
    if |ports| == 0 then []
    else
      var rest := ForwardPortArgs(ports[1..]);
      var r := ["-p", ports[0]] + rest;
      assert forall i :: 0 <= i < |ports| ==> r[2 * i] == "-p" && r[2 * i + 1] == ports[i] by {
        forall i | 0 <= i < |ports|
          ensures r[2 * i] == "-p" && r[2 * i + 1] == ports[i]
        {
          if i > 0 {
            var j := i - 1;
            assert r[2 * i] == rest[2 * j] && r[2 * i + 1] == rest[2 * j + 1];
            assert ports[1..][j] == ports[i];
          }
        }
      }
      r
  }

  /** `-u <user>` when a remote user is set, nothing otherwise. */
  function UserArgs(user: string): (r: seq<string>)
    ensures user == "" <==> r == []
    ensures user != "" ==> r == ["-u", user]
  {
    if user == "" then [] else ["-u", user]
  }

  /** The fixed head of the run arguments. */
  function RunHead(port: int, name: string, binding: string, folder: string): seq<string>
  {
    ["run", "--rm", "-p", PortBinding(port), "--name", name, "--mount", binding, "-w", folder]
  }

  /** The arguments after the head: the descriptor's run arguments, the
      forwarded ports, the user, and the image tag last. */
  function RunTail(tag: string, dc: DevContainer): seq<string>
  {
    dc.runArgs + ForwardPortArgs(dc.forwardPorts) + UserArgs(dc.remoteUser) + [tag]
  }

  /** The argument list of `NewContainerContext`, or the binding's
      expansion error. */
  function RunArgs(tag: string, dc: DevContainer, url: ServiceUrl, name: string): (r: Result<seq<string>, string>)
    ensures r.Failure? <==> WorkspaceBinding(dc).Failure?
    ensures r.Failure? ==> r.error == WorkspaceBinding(dc).error
    ensures r.Success? ==>
      && |r.value| == 10 + |RunTail(tag, dc)|
      && r.value[..10] == RunHead(url.port, name, WorkspaceBinding(dc).value, url.workspaceFolder)
      && r.value[10..] == RunTail(tag, dc)
  {
    match WorkspaceBinding(dc)
    case Failure(e) => Failure(e)
    case Success(binding) =>
      var head := RunHead(url.port, name, binding, url.workspaceFolder);
      var r := head + RunTail(tag, dc);
      assert r[..10] == head && r[10..] == RunTail(tag, dc);
      Success(r)
  }

  /** The run arguments in order: the fixed head, the run arguments verbatim,
      one `-p` pair per forwarded port, `-u <user>` exactly when a user is
      set, and the tag last. */
  lemma RunArgsLayout(tag: string, dc: DevContainer, url: ServiceUrl, name: string)
    ensures RunArgs(tag, dc, url, name).Failure? <==> WorkspaceBinding(dc).Failure?
    ensures RunArgs(tag, dc, url, name).Failure? ==> RunArgs(tag, dc, url, name).error == WorkspaceBinding(dc).error
    ensures RunArgs(tag, dc, url, name).Success? ==>
      var r, n, m := RunArgs(tag, dc, url, name).value, |dc.runArgs|, |dc.forwardPorts|;
      && |r| == 11 + n + 2 * m + (if dc.remoteUser == "" then 0 else 2)
      && r[..6] == ["run", "--rm", "-p", PortBinding(url.port), "--name", name]
      && r[6..10] == ["--mount", WorkspaceBinding(dc).value, "-w", url.workspaceFolder]
      && r[10..10 + n] == dc.runArgs
      && (forall i :: 0 <= i < m ==> r[10 + n + 2 * i] == "-p" && r[11 + n + 2 * i] == dc.forwardPorts[i])
      && (dc.remoteUser != "" ==> r[10 + n + 2 * m] == "-u" && r[11 + n + 2 * m] == dc.remoteUser)
      && (dc.remoteUser == "" ==> |r| == 11 + n + 2 * m)
      && r[|r| - 1] == tag
  {
    if RunArgs(tag, dc, url, name).Success? {
      var r := RunArgs(tag, dc, url, name).value;
      var head := RunHead(url.port, name, WorkspaceBinding(dc).value, url.workspaceFolder);
      assert r == head + RunTail(tag, dc) by {
        assert r[..10] == head && r[10..] == RunTail(tag, dc);
      }
      RunListLayout(r, tag, dc, url, name, WorkspaceBinding(dc).value);
    }
  }

  /** The layout of a run list with a given binding. */
  lemma RunListLayout(r: seq<string>, tag: string, dc: DevContainer, url: ServiceUrl, name: string, binding: string)
    requires r == RunHead(url.port, name, binding, url.workspaceFolder) + RunTail(tag, dc)
    ensures var n, m := |dc.runArgs|, |dc.forwardPorts|;
      && |r| == 11 + n + 2 * m + (if dc.remoteUser == "" then 0 else 2)
      && r[..6] == ["run", "--rm", "-p", PortBinding(url.port), "--name", name]
      && r[6..10] == ["--mount", binding, "-w", url.workspaceFolder]
      && r[10..10 + n] == dc.runArgs
      && (forall i :: 0 <= i < m ==> r[10 + n + 2 * i] == "-p" && r[11 + n + 2 * i] == dc.forwardPorts[i])
      && (dc.remoteUser != "" ==> r[10 + n + 2 * m] == "-u" && r[11 + n + 2 * m] == dc.remoteUser)
      && (dc.remoteUser == "" ==> |r| == 11 + n + 2 * m)
      && r[|r| - 1] == tag
  {
    var head := RunHead(url.port, name, binding, url.workspaceFolder);
    assert r[..6] == head[..6] && r[6..10] == head[6..10];
    TailLayout(r, head, tag, dc);
  }

  /** The layout of any list made of a ten-element head and the run tail. */
  lemma TailLayout(r: seq<string>, head: seq<string>, tag: string, dc: DevContainer)
    requires |head| == 10 && r == head + RunTail(tag, dc)
    ensures var n, m := |dc.runArgs|, |dc.forwardPorts|;
      && |r| == 11 + n + 2 * m + (if dc.remoteUser == "" then 0 else 2)
      && r[10..10 + n] == dc.runArgs
      && (forall i :: 0 <= i < m ==> r[10 + n + 2 * i] == "-p" && r[11 + n + 2 * i] == dc.forwardPorts[i])
      && (dc.remoteUser != "" ==> r[10 + n + 2 * m] == "-u" && r[11 + n + 2 * m] == dc.remoteUser)
      && r[|r| - 1] == tag
  {
    var ports, user := ForwardPortArgs(dc.forwardPorts), UserArgs(dc.remoteUser);
    Layout(head, dc.runArgs, ports, user, tag);
  }

  /** `NewContainerContext` without starting the process: the random name
      and the run arguments for it. */
  method NewContainerContext(tag: string, dc: DevContainer, url: ServiceUrl, draws: seq<nat>)
    returns (r: Result<(string, seq<string>), string>)
    requires |draws| >= NameLength
    requires forall i :: 0 <= i < NameLength ==> draws[i] < 52
    ensures r.Failure? <==> WorkspaceBinding(dc).Failure?
    ensures r.Success? ==> |r.value.0| == NameLength && forall i :: 0 <= i < NameLength ==> IsAsciiLetter(r.value.0[i])
    ensures r.Success? ==> RunArgs(tag, dc, url, r.value.0) == Success(r.value.1)
  {
    var name := MakeRandomString(draws);
    match RunArgs(tag, dc, url, name)
    case Failure(e) => r := Failure(e);
    case Success(args) => r := Success((name, args));
  }

  // ---------------------------------------------------------------------------
  // `docker build`.

  /** What `BuildImage` feeds `docker build`: the Dockerfile on standard
      input, the argument list, and the tag it returns. */
  datatype BuildPlan = BuildPlan(stdin: string, args: seq<string>, tag: string)

  /** `BuildImage` without running `docker`: fails when the Dockerfile cannot
      be produced, otherwise builds the wrapped Dockerfile under the tag. */
  function BuildImage(fs: map<string, string>, dc: DevContainer, repo: Repository, codec: Dockerfile.JsonCodec, order: seq<string>)
    : (r: Result<BuildPlan, string>)
    requires Enumerates(order, dc.build.args.Keys)
    ensures r.Success? <==> Dockerfile.DockerfilePath(dc) in fs
    ensures r.Success? ==> r == Success(Plan(Dockerfile.WrapDockerFile(fs, dc, repo, codec).value, dc, order))
  {
    match Dockerfile.WrapDockerFile(fs, dc, repo, codec)
    case Failure(e) => Failure(e)
    case Success(text) => Success(Plan(text, dc, order))
  }

  /** The build of a wrapped Dockerfile: the text on standard input, the
      image tag derived from the name, and the `docker build` arguments for
      that tag, the descriptor's build arguments and its build context. */
  function Plan(text: string, dc: DevContainer, order: seq<string>): (p: BuildPlan)
    requires Enumerates(order, dc.build.args.Keys)
    ensures p.stdin == text && p.tag == ImageTag(dc.name)
    ensures p.args == BuildArgs(p.tag, BuildContext(dc), dc.build.args, order)
    ensures |p.args| == 6 + 2 * |dc.build.args|
    ensures p.args[..5] == ["build", "-t", p.tag, "-f", "-"]
    ensures forall i :: 0 <= i < |dc.build.args| ==>
              p.args[5 + 2 * i] == "--build-arg" && p.args[6 + 2 * i] == order[i] + "=" + dc.build.args[order[i]]
    ensures p.args[|p.args| - 1] == BuildContext(dc)
  {
    var tag := ImageTag(dc.name);
    BuildPlan(text, BuildArgs(tag, BuildContext(dc), dc.build.args, order), tag)
  }
}

=== FILE: sanitizer.dfy ===
/** The secret sanitiser for Servarr configuration trees: it walks parsed JSON
    documents, XML element trees and SQLite tables, replaces what looks like a
    credential by a placeholder, and keeps two counters of what it found and
    what it sanitised. The regular-expression engine behind the free-text pass
    is a parameter; the walks, the counters and the table updates around it
    are modelled. */
module Sanitizer {
  import opened Wrappers
  import Strings
  import Seqs
  import Json

  // ---------------------------------------------------------------------------
  // Counters.

  /** The sanitiser's statistics; every counter starts at zero. */
  datatype Stats = Stats(filesProcessed: nat, databasesProcessed: nat, found: nat, sanitized: nat)

  const Initial := Stats(0, 0, 0, 0)

  /** Every sensitive item found has been sanitised, and nothing else has. */
  predicate Balanced(s: Stats)
  {
    s.found == s.sanitized
  }

  /** Count `n` more sensitive items: found and sanitised always move together. */
  function Record(s: Stats, n: nat): (r: Stats)
    ensures Balanced(s) ==> Balanced(r)
    ensures r.found == s.found + n && r.sanitized == s.sanitized + n
    ensures r.filesProcessed == s.filesProcessed && r.databasesProcessed == s.databasesProcessed
  {
    s.(found := s.found + n, sanitized := s.sanitized + n)
  }

  // ---------------------------------------------------------------------------
  // The free-text pass.

  /** The regular-expression engine, left abstract: `countMatches(p, t)` is the
      number of case-insensitive matches of pattern `p` in `t`, and
      `substitute(p, placeholder, t)` rewrites every match of `p` in `t` to the
      match's first group followed by `placeholder`. */
  datatype RegexEngine = RegexEngine(
    countMatches: (string, string) -> nat,
    substitute: (string, string, string) -> string)

  /** The engine finds no match of any pattern in any text. */
  ghost predicate FindsNothing(cfg: Config)
  {
    forall p, t :: cfg.engine.countMatches(p, t) == 0
  }

  /** A named group of patterns; its matches share one placeholder. */
  datatype Category = Category(name: string, patterns: seq<string>)

  /** Every pattern is `("?WORD"?\s*[:=]\s*["']?)([^"'<>\n]+)`: the key and
      its separator are group 1, the value is group 2. */
  const PatternTail := @"""?\s*[:=]\s*[""\']?)([^""\'<>\n]+)"

  function KeyPattern(word: string): string
  {
    @"(""?" + word + PatternTail
  }

  /** The six categories and their 21 patterns, in the order they are applied. */
  const Categories: seq<Category> := [
    Category("api_keys", [KeyPattern("[Aa]pi[Kk]ey"), KeyPattern("api_key"),
                          KeyPattern("API_KEY"), KeyPattern("X-Api-Key")]),
    Category("passwords", [KeyPattern("[Pp]assword"), KeyPattern("PASSWORD"),
                           KeyPattern("rpc-password"), KeyPattern("ControlPassword")]),
    Category("usernames", [KeyPattern("[Uu]sername"), KeyPattern("USERNAME"),
                           KeyPattern("rpc-username"), KeyPattern("ControlUsername")]),
    Category("secrets", [KeyPattern("[Ss]ecret"), KeyPattern("SECRET"),
                         KeyPattern("client_secret")]),
    Category("tokens", [KeyPattern("[Tt]oken"), KeyPattern("TOKEN"),
                        KeyPattern("access_token"), KeyPattern("refresh_token")]),
    Category("auth", [KeyPattern("[Aa]uth"), KeyPattern("authorization")])
  ]

  /** The sanitiser's fixed state: the engine, the pattern table of the text
      pass and the column patterns of the database pass. */
  datatype Config = Config(engine: RegexEngine, categories: seq<Category>, sensitiveColumns: seq<string>)

  /** A new sanitiser: the six pattern categories and the nine column patterns. */
  function NewConfig(engine: RegexEngine): (r: Config)
    ensures |r.categories| == 6 && |r.sensitiveColumns| == 9
    ensures r.categories[0].name == "api_keys" && r.categories[5].name == "auth"
  {
    Config(engine, Categories, SensitiveColumns)
  }

  const PlaceholderPrefix := "PLACEHOLDER_"

  /** A category's placeholder: the prefix, then the upper-cased category name
      with every trailing `S` stripped. */
  function TextPlaceholder(category: string): (r: string)
    ensures |r| >= 12 && r[..12] == PlaceholderPrefix
    ensures IsStem(r[12..], category)
  {
    var stem := Strings.TrimRight(Strings.Upper(category), 'S');
    assert (PlaceholderPrefix + stem)[12..] == stem;
    PlaceholderPrefix + stem
  }

  /** `stem` is the upper-cased `name` with all trailing `S` characters removed. */
  predicate IsStem(stem: string, name: string)
  {
    && |stem| <= |name|
    && (forall i :: 0 <= i < |stem| ==> stem[i] == Strings.UpperChar(name[i]))
    && (stem == [] || stem[|stem| - 1] != 'S')
    && (forall i :: |stem| <= i < |name| ==> Strings.UpperChar(name[i]) == 'S')
  }

  /** The placeholders the six categories use: the plural names lose their
      final `S`, `auth` keeps its whole name. */
  lemma PlaceholderNames()
    ensures TextPlaceholder("api_keys") == "PLACEHOLDER_API_KEY"
    ensures TextPlaceholder("passwords") == "PLACEHOLDER_PASSWORD"
    ensures TextPlaceholder("usernames") == "PLACEHOLDER_USERNAME"
    ensures TextPlaceholder("secrets") == "PLACEHOLDER_SECRET"
    ensures TextPlaceholder("tokens") == "PLACEHOLDER_TOKEN"
    ensures TextPlaceholder("auth") == "PLACEHOLDER_AUTH"
  {
    PlaceholderApiKeys();
    PlaceholderPasswords();
    PlaceholderUsernames();
    PlaceholderSecrets();
    PlaceholderTokens();
    PlaceholderAuth();
  }

  lemma PlaceholderApiKeys()
    ensures TextPlaceholder("api_keys") == "PLACEHOLDER_API_KEY"
  {
    StemOf("api_keys", "API_KEY");
  }

  lemma PlaceholderPasswords()
    ensures TextPlaceholder("passwords") == "PLACEHOLDER_PASSWORD"
  {
    StemOf("passwords", "PASSWORD");
  }

  lemma PlaceholderUsernames()
    ensures TextPlaceholder("usernames") == "PLACEHOLDER_USERNAME"
  {
    StemOf("usernames", "USERNAME");
  }

  lemma PlaceholderSecrets()
    ensures TextPlaceholder("secrets") == "PLACEHOLDER_SECRET"
  {
    StemOf("secrets", "SECRET");
  }

  lemma PlaceholderTokens()
    ensures TextPlaceholder("tokens") == "PLACEHOLDER_TOKEN"
  {
    StemOf("tokens", "TOKEN");
  }

  lemma PlaceholderAuth()
    ensures TextPlaceholder("auth") == "PLACEHOLDER_AUTH"
  {
    assert Strings.Upper("auth") == "AUTH";
  }

  /** Helper for the named placeholders: a category whose upper-cased form is
      `stem` followed by one `S`, where `stem` does not end in `S`. */
  lemma StemOf(category: string, stem: string)
    requires Strings.Upper(category) == stem + "S"
    requires |stem| > 0 && stem[|stem| - 1] != 'S'
    ensures TextPlaceholder(category) == PlaceholderPrefix + stem
  {
    assert (stem + "S")[..|stem|] == stem;
  }

  /** The result of a text pass: the new text and the number of matches counted. */
  datatype Pass = Pass(text: string, hits: nat)

  /** Apply one category's patterns in order: a pattern that matches adds its
      match count and rewrites the text; one that does not leaves it alone. */
  function ApplyPatterns(cfg: Config, patterns: seq<string>, placeholder: string, text: string): (r: Pass)
    ensures r.hits == 0 ==> r.text == text
    decreases |patterns|
  {
    if patterns == [] then Pass(text, 0)
    else
      var n := cfg.engine.countMatches(patterns[0], text);
      var next := if n > 0 then cfg.engine.substitute(patterns[0], placeholder, text) else text;
      var rest := ApplyPatterns(cfg, patterns[1..], placeholder, next);
      Pass(rest.text, n + rest.hits)
  }

  /** Apply every category in order, each with its own placeholder. */
  function ApplyCategories(cfg: Config, categories: seq<Category>, text: string): (r: Pass)
    ensures r.hits == 0 ==> r.text == text
    decreases |categories|
  {
    if categories == [] then Pass(text, 0)
    else
      var c := categories[0];
      var p := ApplyPatterns(cfg, c.patterns, TextPlaceholder(c.name), text);
      var rest := ApplyCategories(cfg, categories[1..], p.text);
      Pass(rest.text, p.hits + rest.hits)
  }

  /** The free-text pass: empty text is returned at once, anything else goes
      through all 21 patterns. Text that loses no match comes back unchanged. */
  function SanitizeText(cfg: Config, text: string): (r: Pass)
    ensures text == "" ==> r == Pass(text, 0)
    ensures r.hits == 0 ==> r.text == text
  {
    if text == "" then Pass(text, 0) else ApplyCategories(cfg, cfg.categories, text)
  }

  /** Running two pattern lists one after the other is running their
      concatenation: the texts chain and the counts add. */
  lemma {:induction false} ApplyPatternsAppend(cfg: Config, ps: seq<string>, qs: seq<string>,
                                              placeholder: string, text: string)
    ensures var a := ApplyPatterns(cfg, ps, placeholder, text);
            var b := ApplyPatterns(cfg, qs, placeholder, a.text);
            ApplyPatterns(cfg, ps + qs, placeholder, text) == Pass(b.text, a.hits + b.hits)
    decreases |ps|
  {
    if ps != [] {
      assert (ps + qs)[0] == ps[0];
      assert (ps + qs)[1..] == ps[1..] + qs;
      var n := cfg.engine.countMatches(ps[0], text);
      var next := if n > 0 then cfg.engine.substitute(ps[0], placeholder, text) else text;
      ApplyPatternsAppend(cfg, ps[1..], qs, placeholder, next);
    } else {
      assert ps + qs == qs;
    }
  }

  /** When no pattern matches the text, a pattern list leaves it alone. */
  lemma {:induction false} QuietPatterns(cfg: Config, patterns: seq<string>, placeholder: string, text: string)
    requires forall p :: cfg.engine.countMatches(p, text) == 0
    ensures ApplyPatterns(cfg, patterns, placeholder, text) == Pass(text, 0)
    decreases |patterns|
  {
    if patterns != [] {
      QuietPatterns(cfg, patterns[1..], placeholder, text);
    }
  }

  /** When no pattern matches the text, the category list leaves it alone. */
  lemma {:induction false} QuietCategories(cfg: Config, categories: seq<Category>, text: string)
    requires forall p :: cfg.engine.countMatches(p, text) == 0
    ensures ApplyCategories(cfg, categories, text) == Pass(text, 0)
    decreases |categories|
  {
    if categories != [] {
      QuietPatterns(cfg, categories[0].patterns, TextPlaceholder(categories[0].name), text);
      QuietCategories(cfg, categories[1..], text);
    }
  }

  /** Text in which no pattern matches passes through unchanged, with no hit. */
  lemma QuietText(cfg: Config, text: string)
    requires forall p :: cfg.engine.countMatches(p, text) == 0
    ensures SanitizeText(cfg, text) == Pass(text, 0)
  {
    if text != "" {
      QuietCategories(cfg, cfg.categories, text);
    }
  }

  // ---------------------------------------------------------------------------
  // Sensitive names.

  /** The words that make a JSON key sensitive, wherever they occur in it. */
  const SensitiveKeywords: seq<string> :=
    ["api", "key", "password", "secret", "token", "auth", "username", "user", "pass", "credential"]

  /** Some keyword occurs in the lower-cased key. */
  predicate IsSensitiveKey(key: string)
  {
    Strings.ContainsAny(Strings.Lower(key), SensitiveKeywords)
  }

  lemma SensitiveKeyIff(key: string)
    ensures IsSensitiveKey(key) <==>
            exists i :: 0 <= i < |SensitiveKeywords| && Strings.Contains(Strings.Lower(key), SensitiveKeywords[i])
  {
    Strings.ContainsAnyIff(Strings.Lower(key), SensitiveKeywords);
  }

  lemma LowerTwice(s: string)
    ensures Strings.Lower(Strings.Lower(s)) == Strings.Lower(s)
  {
    assert forall i :: 0 <= i < |s| ==> Strings.LowerChar(Strings.LowerChar(s[i])) == Strings.LowerChar(s[i]);
  }

  /** Sensitivity of a key does not depend on its letter case. */
  lemma SensitiveKeyIgnoresCase(key: string)
    ensures IsSensitiveKey(Strings.Lower(key)) == IsSensitiveKey(key)
  {
    LowerTwice(key);
  }

  /** The test is a substring test: `ApiKey` is sensitive, and so is
      `monkey`, which merely contains `key`. */
  lemma SensitiveKeyExamples()
    ensures IsSensitiveKey("ApiKey")
    ensures IsSensitiveKey("monkey")
  {
    assert Strings.Lower("ApiKey") == "apikey";
    Strings.OccursContains("apikey", "api", 0);
    assert Strings.Lower("monkey") == "monkey";
    Strings.OccursContains("monkey", "key", 3);
    Strings.ContainsAnyIff("monkey", SensitiveKeywords);
  }

  /** The placeholder for a JSON key or a database column: the prefix and the
      upper-cased name. */
  function NamePlaceholder(name: string): (r: string)
    ensures |r| == 12 + |name| && r[..12] == PlaceholderPrefix
    ensures forall i :: 0 <= i < |name| ==> r[12 + i] == Strings.UpperChar(name[i])
  {
    PlaceholderPrefix + Strings.Upper(name)
  }

  // ---------------------------------------------------------------------------
  // JSON documents.

  /** A sanitised value and the number of hits counted while producing it. */
  datatype Outcome = Outcome(value: Json.Value, hits: nat)

  datatype FieldsOutcome = FieldsOutcome(fields: seq<(string, Json.Value)>, hits: nat)

  datatype ItemsOutcome = ItemsOutcome(items: seq<Json.Value>, hits: nat)

  /** An object entry that is replaced wholesale: a sensitive key holding a
      non-empty string. */
  predicate Redacts(key: string, original: Json.Value)
  {
    IsSensitiveKey(key) && original.Str? && original.s != ""
  }

  /** What an entry's value becomes, given the recursive sanitisation `inner`
      of its original value. */
  function RedactEntry(key: string, original: Json.Value, inner: Outcome): (r: Outcome)
    ensures !Redacts(key, original) ==> r == inner
    ensures Redacts(key, original) ==> r.value == Json.Str(NamePlaceholder(key))
    ensures r.hits == inner.hits + (if r.value != inner.value then 1 else 0)
  {
    if Redacts(key, original) then
      var placeholder := Json.Str(NamePlaceholder(key));
      Outcome(placeholder, inner.hits + if placeholder != inner.value then 1 else 0)
    else
      inner
  }

  /** The recursive JSON pass. Objects and arrays keep their length,
      strings go through the text pass, other scalars are returned as is. */
  function SanitizeValue(cfg: Config, v: Json.Value): (r: Outcome)
    ensures v.Object? <==> r.value.Object?
    ensures v.Array? <==> r.value.Array?
    ensures v.Object? ==> |r.value.fields| == |v.fields|
    ensures v.Array? ==> |r.value.items| == |v.items|
    ensures v.Str? ==> r.value == Json.Str(SanitizeText(cfg, v.s).text) && r.hits == SanitizeText(cfg, v.s).hits
    ensures v.Null? || v.Bool? || v.Number? ==> r == Outcome(v, 0)
    ensures r.hits == 0 ==> r.value == v
    decreases v, 1, 0
  {
    match v
    case Object(fields) =>
      var f := SanitizeFields(cfg, fields, 0);
      Outcome(Json.Object(f.fields), f.hits)
    case Array(items) =>
      var a := SanitizeItems(cfg, items, 0);
      Outcome(Json.Array(a.items), a.hits)
    case Str(s) =>
      var p := SanitizeText(cfg, s);
      Outcome(Json.Str(p.text), p.hits)
    case _ => Outcome(v, 0)
  }

  /** The entries of an object from position `k` on, in order. */
  function SanitizeFields(cfg: Config, fields: seq<(string, Json.Value)>, k: nat): (r: FieldsOutcome)
    requires k <= |fields|
    ensures |r.fields| == |fields| - k
    ensures r.hits == 0 ==> r.fields == fields[k..]
    decreases Json.Object(fields), 0, |fields| - k
  {
    if k == |fields| then FieldsOutcome([], 0)
    else
      var key := fields[k].0;
      var e := RedactEntry(key, fields[k].1, SanitizeValue(cfg, fields[k].1));
      var rest := SanitizeFields(cfg, fields, k + 1);
      FieldsOutcome([(key, e.value)] + rest.fields, e.hits + rest.hits)
  }

  /** The items of an array from position `k` on, in order. */
  function SanitizeItems(cfg: Config, items: seq<Json.Value>, k: nat): (r: ItemsOutcome)
    requires k <= |items|
    ensures |r.items| == |items| - k
    ensures r.hits == 0 ==> r.items == items[k..]
    decreases Json.Array(items), 0, |items| - k
  {
    if k == |items| then ItemsOutcome([], 0)
    else
      var o := SanitizeValue(cfg, items[k]);
      var rest := SanitizeItems(cfg, items, k + 1);
      ItemsOutcome([o.value] + rest.items, o.hits + rest.hits)
  }

  /** What the JSON pass makes of one object entry's value. */
  function EntryValue(cfg: Config, key: string, original: Json.Value): Json.Value
  {
    if Redacts(key, original) then Json.Str(NamePlaceholder(key)) else SanitizeValue(cfg, original).value
  }

  lemma {:induction false} FieldsEntries(cfg: Config, fields: seq<(string, Json.Value)>, k: nat)
    requires k <= |fields|
    ensures forall i :: k <= i < |fields| ==>
              SanitizeFields(cfg, fields, k).fields[i - k] == (fields[i].0, EntryValue(cfg, fields[i].0, fields[i].1))
    decreases |fields| - k
  {
    if k < |fields| {
      var r := SanitizeFields(cfg, fields, k).fields;
      var rest := SanitizeFields(cfg, fields, k + 1).fields;
      var key := fields[k].0;
      var e := RedactEntry(key, fields[k].1, SanitizeValue(cfg, fields[k].1));
      assert r[0] == (key, e.value) && r[1..] == rest by {
        assert r == [(key, e.value)] + rest;
      }
      assert e.value == EntryValue(cfg, key, fields[k].1);
      FieldsEntries(cfg, fields, k + 1);
      forall i | k < i < |fields|
        ensures r[i - k] == (fields[i].0, EntryValue(cfg, fields[i].0, fields[i].1))
      {
        assert r[i - k] == r[1..][i - (k + 1)];
      }
    }
  }

  lemma {:induction false} ItemsEntries(cfg: Config, items: seq<Json.Value>, k: nat)
    requires k <= |items|
    ensures forall i :: k <= i < |items| ==> SanitizeItems(cfg, items, k).items[i - k] == SanitizeValue(cfg, items[i]).value
    decreases |items| - k
  {
    if k < |items| {
      var r := SanitizeItems(cfg, items, k).items;
      var rest := SanitizeItems(cfg, items, k + 1).items;
      assert r[0] == SanitizeValue(cfg, items[k]).value && r[1..] == rest by {
        assert r == [SanitizeValue(cfg, items[k]).value] + rest;
      }
      ItemsEntries(cfg, items, k + 1);
      forall i | k < i < |items|
        ensures r[i - k] == SanitizeValue(cfg, items[i]).value
      {
        assert r[i - k] == r[1..][i - (k + 1)];
      }
    }
  }

  /** An object entry holding a sensitive non-empty string becomes exactly the
      key's placeholder; every other entry, including sensitive keys holding
      objects, arrays or the empty string, holds the recursive sanitisation of
      its value. Array items are sanitised in place. */
  lemma JsonEntries(cfg: Config, v: Json.Value)
    ensures v.Object? ==> forall i :: 0 <= i < |v.fields| ==>
              SanitizeValue(cfg, v).value.fields[i] ==
                (v.fields[i].0,
                 if Redacts(v.fields[i].0, v.fields[i].1) then Json.Str(NamePlaceholder(v.fields[i].0))
                 else SanitizeValue(cfg, v.fields[i].1).value)
    ensures v.Array? ==> forall i :: 0 <= i < |v.items| ==>
              SanitizeValue(cfg, v).value.items[i] == SanitizeValue(cfg, v.items[i]).value
  {
    match v
    case Object(fields) =>
      assert SanitizeValue(cfg, v).value.fields == SanitizeFields(cfg, fields, 0).fields;
      FieldsEntries(cfg, fields, 0);
    case Array(items) =>
      assert SanitizeValue(cfg, v).value.items == SanitizeItems(cfg, items, 0).items;
      ItemsEntries(cfg, items, 0);
    case _ =>
  }

  /** The pass keeps the document's shape: an object keeps its keys in order,
      an array its length, a string stays a string, and any other value is
      returned as is with no hit. */
  lemma JsonShape(cfg: Config, v: Json.Value)
    ensures v.Object? ==> SanitizeValue(cfg, v).value.Object? &&
                          Json.Keys(SanitizeValue(cfg, v).value.fields) == Json.Keys(v.fields)
    ensures v.Array? ==> SanitizeValue(cfg, v).value.Array? && |SanitizeValue(cfg, v).value.items| == |v.items|
    ensures v.Str? ==> SanitizeValue(cfg, v).value.Str?
    ensures v.Null? || v.Bool? || v.Number? ==> SanitizeValue(cfg, v) == Outcome(v, 0)
  {
    JsonEntries(cfg, v);
  }

  /** No entry anywhere in the document would be replaced by a key placeholder. */
  predicate NoSecrets(v: Json.Value)
    decreases v
  {
    match v
    case Object(fields) =>
      forall i :: 0 <= i < |fields| ==> !Redacts(fields[i].0, fields[i].1) && NoSecrets(fields[i].1)
    case Array(items) => forall i :: 0 <= i < |items| ==> NoSecrets(items[i])
    case _ => true
  }

  /** With an engine that never matches, a document with no sensitive entry is
      returned unchanged and nothing is counted. */
  lemma {:induction false} QuietValue(cfg: Config, v: Json.Value)
    requires FindsNothing(cfg) && NoSecrets(v)
    ensures SanitizeValue(cfg, v) == Outcome(v, 0)
    decreases v, 1, 0
  {
    match v
    case Object(fields) =>
      QuietFields(cfg, fields, 0);
      assert fields[0..] == fields;
    case Array(items) =>
      QuietItems(cfg, items, 0);
      assert items[0..] == items;
    case Str(s) => QuietText(cfg, s);
    case _ =>
  }

  lemma {:induction false} QuietFields(cfg: Config, fields: seq<(string, Json.Value)>, k: nat)
    requires FindsNothing(cfg) && k <= |fields|
    requires forall i :: k <= i < |fields| ==> !Redacts(fields[i].0, fields[i].1) && NoSecrets(fields[i].1)
    ensures SanitizeFields(cfg, fields, k) == FieldsOutcome(fields[k..], 0)
    decreases Json.Object(fields), 0, |fields| - k
  {
    if k < |fields| {
      QuietValue(cfg, fields[k].1);
      QuietFields(cfg, fields, k + 1);
      Seqs.DropCons(fields, k);
    }
  }

  lemma {:induction false} QuietItems(cfg: Config, items: seq<Json.Value>, k: nat)
    requires FindsNothing(cfg) && k <= |items|
    requires forall i :: k <= i < |items| ==> NoSecrets(items[i])
    ensures SanitizeItems(cfg, items, k) == ItemsOutcome(items[k..], 0)
    decreases Json.Array(items), 0, |items| - k
  {
    if k < |items| {
      QuietValue(cfg, items[k]);
      QuietItems(cfg, items, k + 1);
      Seqs.DropCons(items, k);
    }
  }

  /** With an engine that never matches, sanitising is idempotent: a second
      pass over the result changes nothing and counts nothing. */
  lemma {:induction false} SecondPassQuiet(cfg: Config, v: Json.Value)
    requires FindsNothing(cfg)
    ensures SanitizeValue(cfg, SanitizeValue(cfg, v).value) == Outcome(SanitizeValue(cfg, v).value, 0)
    decreases v, 1, 0
  {
    match v
    case Object(fields) =>
      var f := SanitizeFields(cfg, fields, 0).fields;
      SecondPassFields(cfg, fields, 0);
      assert f[0..] == f;
    case Array(items) =>
      var a := SanitizeItems(cfg, items, 0).items;
      SecondPassItems(cfg, items, 0);
      assert a[0..] == a;
    case Str(s) =>
      QuietText(cfg, s);
      QuietText(cfg, SanitizeText(cfg, s).text);
    case _ =>
  }

  /** The second pass over a sanitised object's entries, from position `j` on. */
  lemma {:induction false} SecondPassFields(cfg: Config, fields: seq<(string, Json.Value)>, j: nat)
    requires FindsNothing(cfg) && j <= |fields|
    ensures var f := SanitizeFields(cfg, fields, 0).fields;
            SanitizeFields(cfg, f, j) == FieldsOutcome(f[j..], 0)
    decreases Json.Object(fields), 0, |fields| - j
  {
    var f := SanitizeFields(cfg, fields, 0).fields;
    if j < |f| {
      FieldsEntries(cfg, fields, 0);
      var key := fields[j].0;
      var original := fields[j].1;
      assert f[j] == (key, EntryValue(cfg, key, original));
      SecondPassEntry(cfg, key, original);
      SecondPassFields(cfg, fields, j + 1);
      Seqs.DropCons(f, j);
    }
  }

  /** One entry's value is stable under a second pass: a placeholder stays the
      same placeholder, anything else is already a fixed point. */
  lemma {:induction false} SecondPassEntry(cfg: Config, key: string, original: Json.Value)
    requires FindsNothing(cfg)
    ensures var w := EntryValue(cfg, key, original);
            RedactEntry(key, w, SanitizeValue(cfg, w)) == Outcome(w, 0)
    decreases original, 2, 0
  {
    if Redacts(key, original) {
      QuietText(cfg, NamePlaceholder(key));
    } else {
      SecondPassQuiet(cfg, original);
      if original.Str? {
        QuietText(cfg, original.s);
      }
    }
  }

  /** The second pass over a sanitised array's items, from position `j` on. */
  lemma {:induction false} SecondPassItems(cfg: Config, items: seq<Json.Value>, j: nat)
    requires FindsNothing(cfg) && j <= |items|
    ensures var a := SanitizeItems(cfg, items, 0).items;
            SanitizeItems(cfg, a, j) == ItemsOutcome(a[j..], 0)
    decreases Json.Array(items), 0, |items| - j
  {
    var a := SanitizeItems(cfg, items, 0).items;
    if j < |a| {
      ItemsEntries(cfg, items, 0);
      assert a[j] == SanitizeValue(cfg, items[j]).value;
      SecondPassQuiet(cfg, items[j]);
      SecondPassItems(cfg, items, j + 1);
      Seqs.DropCons(a, j);
    }
  }

  // ---------------------------------------------------------------------------
  // XML element trees.

  /** An ElementTree element: its tag, its text and tail (either may be
      absent), its attributes in document order and its children. */
  datatype Element = Element(
    tag: string,
    text: Option<string>,
    tail: Option<string>,
    attributes: seq<(string, string)>,
    children: seq<Element>)

  datatype Walked = Walked(element: Element, hits: nat)

  datatype AttributesOutcome = AttributesOutcome(attributes: seq<(string, string)>, hits: nat)

  datatype ChildrenOutcome = ChildrenOutcome(children: seq<Element>, hits: nat)

  /** One piece of element content through the text pass; content that changes
      counts one more hit on top of the pattern matches. */
  function SanitizeContent(cfg: Config, content: string): (r: Pass)
    ensures r.text == SanitizeText(cfg, content).text
    ensures r.text != content ==> r.hits >= 2
    ensures r.text == content ==> r.hits == SanitizeText(cfg, content).hits
  {
    var p := SanitizeText(cfg, content);
    Pass(p.text, p.hits + if p.text != content then 1 else 0)
  }

  /** Every attribute value goes through the text pass; names and order stay. */
  function SanitizeAttributes(cfg: Config, attributes: seq<(string, string)>): (r: AttributesOutcome)
    ensures |r.attributes| == |attributes|
    ensures forall i :: 0 <= i < |attributes| ==>
              r.attributes[i] == (attributes[i].0, SanitizeText(cfg, attributes[i].1).text)
    ensures r.hits == 0 ==> r.attributes == attributes
    decreases |attributes|
  {
    if attributes == [] then AttributesOutcome([], 0)
    else
      var c := SanitizeContent(cfg, attributes[0].1);
      var rest := SanitizeAttributes(cfg, attributes[1..]);
      AttributesOutcome([(attributes[0].0, c.text)] + rest.attributes, c.hits + rest.hits)
  }

  /** Whether the walk sends an element's text through the text pass. */
  predicate HasText(e: Element)
  {
    e.text.Some? && e.text.value != ""
  }

  /** The recursive element walk: text, then attributes, then every child. */
  function Walk(cfg: Config, e: Element): (r: Walked)
    ensures r.element.tag == e.tag && r.element.tail == e.tail
    ensures |r.element.attributes| == |e.attributes|
    ensures |r.element.children| == |e.children|
    ensures r.hits == 0 ==> r.element == e
    decreases e, 1, 0
  {
    var t := if HasText(e) then SanitizeContent(cfg, e.text.value) else Pass("", 0);
    var text := if HasText(e) then Some(t.text) else e.text;
    var a := SanitizeAttributes(cfg, e.attributes);
    var c := WalkChildren(cfg, e, 0);
    Walked(Element(e.tag, text, e.tail, a.attributes, c.children), t.hits + a.hits + c.hits)
  }

  /** The children of `e` from position `k` on, in order. */
  function WalkChildren(cfg: Config, e: Element, k: nat): (r: ChildrenOutcome)
    requires k <= |e.children|
    ensures |r.children| == |e.children| - k
    ensures r.hits == 0 ==> r.children == e.children[k..]
    decreases e, 0, |e.children| - k
  {
    if k == |e.children| then ChildrenOutcome([], 0)
    else
      var w := Walk(cfg, e.children[k]);
      var rest := WalkChildren(cfg, e, k + 1);
      ChildrenOutcome([w.element] + rest.children, w.hits + rest.hits)
  }

  /** Position `i` of the walked children from `k` on is child `i` walked. */
  lemma {:induction false} ChildEntry(cfg: Config, e: Element, k: nat, i: nat)
    requires k <= i < |e.children|
    ensures WalkChildren(cfg, e, k).children[i - k] == Walk(cfg, e.children[i]).element
    decreases i - k
  {
    var w := Walk(cfg, e.children[k]).element;
    var rest := WalkChildren(cfg, e, k + 1).children;
    ChildrenStep(cfg, e, k);
    if i == k {
      Seqs.ConsIndex(w, rest, 0);
    } else {
      ChildEntry(cfg, e, k + 1, i);
      Seqs.ConsIndex(w, rest, i - k - 1);
    }
  }

  /** The walked children from `k` on: child `k` walked, then the rest. */
  lemma ChildrenStep(cfg: Config, e: Element, k: nat)
    requires k < |e.children|
    ensures WalkChildren(cfg, e, k).children ==
              [Walk(cfg, e.children[k]).element] + WalkChildren(cfg, e, k + 1).children
  {
  }

  /** What the walk does to one element: non-empty text and every attribute
      value go through the text pass, absent or empty text is left alone, and
      each child is walked in turn. */
  lemma WalkContent(cfg: Config, e: Element)
    ensures Walk(cfg, e).element.text ==
              if HasText(e) then Some(SanitizeText(cfg, e.text.value).text) else e.text
    ensures forall i :: 0 <= i < |e.attributes| ==>
              Walk(cfg, e).element.attributes[i] == (e.attributes[i].0, SanitizeText(cfg, e.attributes[i].1).text)
    ensures forall i :: 0 <= i < |e.children| ==>
              Walk(cfg, e).element.children[i] == Walk(cfg, e.children[i]).element
  {
    WalkText(cfg, e);
    WalkAttributes(cfg, e);
    WalkChildrenOf(cfg, e);
  }

  /** The walked text: the text pass on non-empty text, the original otherwise. */
  lemma WalkText(cfg: Config, e: Element)
    ensures Walk(cfg, e).element.text ==
              if HasText(e) then Some(SanitizeText(cfg, e.text.value).text) else e.text
  {
    WalkParts(cfg, e);
  }

  /** The walked attributes: each value through the text pass, names kept. */
  lemma WalkAttributes(cfg: Config, e: Element)
    ensures forall i :: 0 <= i < |e.attributes| ==>
              Walk(cfg, e).element.attributes[i] == (e.attributes[i].0, SanitizeText(cfg, e.attributes[i].1).text)
  {
    WalkParts(cfg, e);
  }

  /** The walked children: each child walked, in order. */
  lemma WalkChildrenOf(cfg: Config, e: Element)
    ensures forall i :: 0 <= i < |e.children| ==>
              Walk(cfg, e).element.children[i] == Walk(cfg, e.children[i]).element
  {
    WalkParts(cfg, e);
    var c := WalkChildren(cfg, e, 0).children;
    forall i | 0 <= i < |e.children|
      ensures c[i] == Walk(cfg, e.children[i]).element
    {
      ChildEntry(cfg, e, 0, i);
    }
  }

  /** The walked element is assembled from the text pass, the attribute pass
      and the children's walk. */
  lemma WalkParts(cfg: Config, e: Element)
    ensures Walk(cfg, e).element.text ==
              if HasText(e) then Some(SanitizeContent(cfg, e.text.value).text) else e.text
    ensures Walk(cfg, e).element.attributes == SanitizeAttributes(cfg, e.attributes).attributes
    ensures Walk(cfg, e).element.children == WalkChildren(cfg, e, 0).children
  {
  }

  /** Two trees with the same structure: tags, tails, which elements carry
      text, attribute names and the number and shape of children agree. */
  predicate SameShape(a: Element, b: Element)
    decreases a
  {
    && a.tag == b.tag
    && a.tail == b.tail
    && a.text.Some? == b.text.Some?
    && |a.attributes| == |b.attributes|
    && (forall i :: 0 <= i < |a.attributes| ==> a.attributes[i].0 == b.attributes[i].0)
    && |a.children| == |b.children|
    && (forall i :: 0 <= i < |a.children| ==> SameShape(a.children[i], b.children[i]))
  }

  /** The walk leaves the tree structure unchanged. */
  lemma {:induction false} WalkKeepsShape(cfg: Config, e: Element)
    ensures SameShape(Walk(cfg, e).element, e)
    decreases e
  {
    WalkContent(cfg, e);
    var w := Walk(cfg, e).element;
    forall i | 0 <= i < |e.children|
      ensures SameShape(w.children[i], e.children[i])
    {
      WalkKeepsShape(cfg, e.children[i]);
    }
  }

  /** With an engine that never matches, attributes are left alone. */
  lemma {:induction false} QuietAttributes(cfg: Config, attributes: seq<(string, string)>)
    requires FindsNothing(cfg)
    ensures SanitizeAttributes(cfg, attributes) == AttributesOutcome(attributes, 0)
    decreases |attributes|
  {
    if attributes != [] {
      QuietText(cfg, attributes[0].1);
      QuietAttributes(cfg, attributes[1..]);
      Seqs.HeadCons(attributes);
    }
  }

  /** With an engine that never matches, the walk returns the tree it was
      given and counts nothing. */
  lemma {:induction false} QuietWalk(cfg: Config, e: Element)
    requires FindsNothing(cfg)
    ensures Walk(cfg, e) == Walked(e, 0)
    decreases e, 1, 0
  {
    if HasText(e) {
      QuietText(cfg, e.text.value);
    }
    QuietAttributes(cfg, e.attributes);
    QuietChildren(cfg, e, 0);
    assert e.children[0..] == e.children;
  }

  lemma {:induction false} QuietChildren(cfg: Config, e: Element, k: nat)
    requires FindsNothing(cfg) && k <= |e.children|
    ensures WalkChildren(cfg, e, k) == ChildrenOutcome(e.children[k..], 0)
    decreases e, 0, |e.children| - k
  {
    if k < |e.children| {
      QuietWalk(cfg, e.children[k]);
      QuietChildren(cfg, e, k + 1);
      Seqs.DropCons(e.children, k);
    }
  }

  // ---------------------------------------------------------------------------
  // SQLite tables.

  /** The substrings that make a column sensitive, as a new sanitiser holds them. */
  const SensitiveColumns: seq<string> :=
    ["apikey", "password", "secret", "token", "auth", "username", "user", "pass", "key"]

  /** Some column pattern occurs in the lower-cased column name. */
  predicate IsSensitiveColumn(cfg: Config, name: string)
  {
    Strings.ContainsAny(Strings.Lower(name), cfg.sensitiveColumns)
  }

  lemma SensitiveColumnIff(cfg: Config, name: string)
    ensures IsSensitiveColumn(cfg, name) <==>
            exists i :: 0 <= i < |cfg.sensitiveColumns| && Strings.Contains(Strings.Lower(name), cfg.sensitiveColumns[i])
  {
    Strings.ContainsAnyIff(Strings.Lower(name), cfg.sensitiveColumns);
  }

  /** The sensitive columns of a schema, each once, in schema order. */
  function SensitiveColumnsOf(cfg: Config, columns: seq<string>): (r: seq<string>)
    ensures |r| <= |columns|
    ensures forall c :: c in r <==> c in columns && IsSensitiveColumn(cfg, c)
    decreases |columns|
  {
    if columns == [] then []
    else
      Seqs.HeadCons(columns);
      (if IsSensitiveColumn(cfg, columns[0]) then [columns[0]] else []) + SensitiveColumnsOf(cfg, columns[1..])
  }

  /** Selection distributes over a split of the schema, so it keeps order. */
  lemma {:induction false} SensitiveColumnsAppend(cfg: Config, a: seq<string>, b: seq<string>)
    ensures SensitiveColumnsOf(cfg, a + b) == SensitiveColumnsOf(cfg, a) + SensitiveColumnsOf(cfg, b)
    decreases |a|
  {
    if a == [] {
      assert a + b == b;
    } else {
      assert (a + b)[0] == a[0];
      assert (a + b)[1..] == a[1..] + b;
      SensitiveColumnsAppend(cfg, a[1..], b);
    }
  }

  predicate Distinct(s: seq<string>)
  {
    forall i, j :: 0 <= i < j < |s| ==> s[i] != s[j]
  }

  /** A schema's column names are distinct, so no column is selected twice. */
  lemma {:induction false} SensitiveColumnsDistinct(cfg: Config, columns: seq<string>)
    requires Distinct(columns)
    ensures Distinct(SensitiveColumnsOf(cfg, columns))
    decreases |columns|
  {
    if columns != [] {
      var rest := columns[1..];
      assert Distinct(rest) by {
        forall i, j | 0 <= i < j < |rest|
          ensures rest[i] != rest[j]
        {
          assert rest[i] == columns[i + 1] && rest[j] == columns[j + 1];
        }
      }
      SensitiveColumnsDistinct(cfg, rest);
      assert columns[0] !in rest by {
        forall i | 0 <= i < |rest|
          ensures rest[i] != columns[0]
        {
          assert rest[i] == columns[i + 1];
        }
      }
    }
  }

  /** The selection loop: scan the schema, and for each column try the
      patterns in order, stopping at the first that occurs in its lower-cased
      name. */
  method FindSensitiveColumns(cfg: Config, columns: seq<string>) returns (selected: seq<string>)
    ensures selected == SensitiveColumnsOf(cfg, columns)
  {
    selected := [];
    var i := 0;
    while i < |columns|
      invariant 0 <= i <= |columns|
      invariant selected == SensitiveColumnsOf(cfg, columns[..i])
    {
      var name := Strings.Lower(columns[i]);
      var hit := false;
      var p := 0;
      while p < |cfg.sensitiveColumns| && !hit
        invariant 0 <= p <= |cfg.sensitiveColumns|
        invariant hit ==> exists q :: 0 <= q < p && Strings.Contains(name, cfg.sensitiveColumns[q])
        invariant !hit ==> forall q :: 0 <= q < p ==> !Strings.Contains(name, cfg.sensitiveColumns[q])
      {
        if Strings.Contains(name, cfg.sensitiveColumns[p]) {
          hit := true;
        }
        p := p + 1;
      }
      SensitiveColumnIff(cfg, columns[i]);
      assert hit == IsSensitiveColumn(cfg, columns[i]);
      SensitiveColumnsAppend(cfg, columns[..i], [columns[i]]);
      assert columns[..i + 1] == columns[..i] + [columns[i]];
      if hit {
        selected := selected + [columns[i]];
      }
      i := i + 1;
    }
    assert columns[..i] == columns;
  }

  /** A stored value: SQL NULL, text, or anything else (a number, a blob). */
  datatype Cell = NullCell | TextCell(s: string) | OtherCell(literal: string)

  /** `col IS NOT NULL AND col != ''`: the cells the UPDATE rewrites. */
  predicate Filled(c: Cell)
  {
    c != NullCell && c != TextCell("")
  }

  /** A table: its name, its column names in schema order, and its rows. */
  datatype Table = Table(name: string, columns: seq<string>, rows: seq<seq<Cell>>)

  /** Every row has one cell per column. */
  predicate Rectangular(columns: seq<string>, rows: seq<seq<Cell>>)
  {
    forall i :: 0 <= i < |rows| ==> |rows[i]| == |columns|
  }

  /** Rewritten rows and the row count the database reports. */
  datatype Update = Update(rows: seq<seq<Cell>>, affected: nat)

  /** The positions of the rows whose cell `j` is filled. */
  function FilledRows(rows: seq<seq<Cell>>, j: nat): set<int>
    requires forall i :: 0 <= i < |rows| ==> j < |rows[i]|
  {
    set i | 0 <= i < |rows| && Filled(rows[i][j])
  }

  /** The UPDATE of column `j` to `placeholder` on the filled cells, with the
      number of rows it reports: exactly the rows whose cell was filled. */
  function UpdateColumn(rows: seq<seq<Cell>>, j: nat, placeholder: string): (r: Update)
    requires forall i :: 0 <= i < |rows| ==> j < |rows[i]|
    ensures |r.rows| == |rows|
    ensures forall i :: 0 <= i < |rows| ==> r.rows[i] == UpdateCell(rows[i], j, placeholder)
    ensures r.affected == |FilledRows(rows, j)|
    ensures r.affected <= |rows|
    ensures r.affected == 0 <==> forall i :: 0 <= i < |rows| ==> !Filled(rows[i][j])
    decreases |rows|
  {
    if rows == [] then
      assert FilledRows(rows, j) == {};
      Update([], 0)
    else
      var rest := UpdateColumn(rows[1..], j, placeholder);
      var r := Update([UpdateCell(rows[0], j, placeholder)] + rest.rows,
                      (if Filled(rows[0][j]) then 1 else 0) + rest.affected);
      UpdateColumnStep(rows, j, placeholder, rest, r);
      r
  }

  /** The UPDATE of the first row in front of the UPDATE of the rest. */
  lemma UpdateColumnStep(rows: seq<seq<Cell>>, j: nat, placeholder: string, rest: Update, r: Update)
    requires |rows| > 0 && forall i :: 0 <= i < |rows| ==> j < |rows[i]|
    requires |rest.rows| == |rows| - 1
    requires forall i :: 0 <= i < |rows| - 1 ==> rest.rows[i] == UpdateCell(rows[1..][i], j, placeholder)
    requires rest.affected == |FilledRows(rows[1..], j)|
    requires rest.affected <= |rows| - 1
    requires rest.affected == 0 <==> forall i :: 0 <= i < |rows| - 1 ==> !Filled(rows[1..][i][j])
    requires r == Update([UpdateCell(rows[0], j, placeholder)] + rest.rows,
                         (if Filled(rows[0][j]) then 1 else 0) + rest.affected)
    ensures |r.rows| == |rows|
    ensures forall i :: 0 <= i < |rows| ==> r.rows[i] == UpdateCell(rows[i], j, placeholder)
    ensures r.affected == |FilledRows(rows, j)|
    ensures r.affected <= |rows|
    ensures r.affected == 0 <==> forall i :: 0 <= i < |rows| ==> !Filled(rows[i][j])
  {
    FilledRowsStep(rows, j);
    assert forall i :: 1 <= i < |rows| ==> rows[1..][i - 1] == rows[i];
  }

  /** The filled rows of a table are those of its first row and those of the
      rest, shifted down by one. */
  lemma FilledRowsStep(rows: seq<seq<Cell>>, j: nat)
    requires |rows| > 0 && forall i :: 0 <= i < |rows| ==> j < |rows[i]|
    ensures |FilledRows(rows, j)| == (if Filled(rows[0][j]) then 1 else 0) + |FilledRows(rows[1..], j)|
  {
    var a, b := FilledRows(rows, j), FilledRows(rows[1..], j);
    var shifted := set x | x in b :: x + 1;
    forall x | x in a && x != 0
      ensures x in shifted
    {
      assert rows[1..][x - 1] == rows[x];
      assert x - 1 in b;
    }
    assert a - {0} == shifted;
    ShiftSize(b);
    if Filled(rows[0][j]) {
      assert a == shifted + {0};
    } else {
      assert a == shifted;
    }
  }

  /** Adding one to every element keeps the size of a set. */
  lemma {:induction false} ShiftSize(s: set<int>)
    ensures |set x | x in s :: x + 1| == |s|
    decreases |s|
  {
    if forall x :: x !in s {
      assert s == {};
    } else {
      var y :| y in s;
      var s' := s - {y};
      ShiftSize(s');
      var t, t' := set x | x in s :: x + 1, set x | x in s' :: x + 1;
      forall z | z in t
        ensures z in t' + {y + 1}
      {
        if z != y + 1 {
          assert z - 1 in s';
        }
      }
      assert t == t' + {y + 1};
      assert y + 1 !in t';
    }
  }

  /** One row under the UPDATE: only cell `j` can change, and only if filled. */
  function UpdateCell(row: seq<Cell>, j: nat, placeholder: string): (r: seq<Cell>)
    requires j < |row|
    ensures |r| == |row|
    ensures forall c :: 0 <= c < |row| && c != j ==> r[c] == row[c]
    ensures r[j] == if Filled(row[j]) then TextCell(placeholder) else row[j]
  {
    if Filled(row[j]) then row[j := TextCell(placeholder)] else row
  }

  /** What the table pass makes of one cell of the named column. */
  function SanitizedCell(cfg: Config, column: string, cell: Cell): Cell
  {
    if IsSensitiveColumn(cfg, column) && Filled(cell) then TextCell(NamePlaceholder(column)) else cell
  }

  /** The filled cells of the sensitive columns from position `j` on. */
  function SensitiveFilled(cfg: Config, columns: seq<string>, rows: seq<seq<Cell>>, j: nat): nat
    requires j <= |columns| && Rectangular(columns, rows)
    decreases |columns| - j
  {
    if j == |columns| then 0
    else (if IsSensitiveColumn(cfg, columns[j]) then |FilledRows(rows, j)| else 0) + SensitiveFilled(cfg, columns, rows, j + 1)
  }

  /** The count only looks at the columns from position `j` on. */
  lemma {:induction false} SensitiveFilledFrom(cfg: Config, columns: seq<string>, rows: seq<seq<Cell>>, rows': seq<seq<Cell>>, j: nat)
    requires j <= |columns| && Rectangular(columns, rows) && Rectangular(columns, rows') && |rows| == |rows'|
    requires forall i, c :: 0 <= i < |rows| && j <= c < |columns| ==> rows[i][c] == rows'[i][c]
    ensures SensitiveFilled(cfg, columns, rows, j) == SensitiveFilled(cfg, columns, rows', j)
    decreases |columns| - j
  {
    if j < |columns| {
      SensitiveFilledFrom(cfg, columns, rows, rows', j + 1);
      assert FilledRows(rows, j) == FilledRows(rows', j);
    }
  }

  /** The UPDATE of column `j` when its name is sensitive; no change and no
      count otherwise. */
  function ColumnUpdate(cfg: Config, columns: seq<string>, rows: seq<seq<Cell>>, j: nat): (u: Update)
    requires j < |columns| && Rectangular(columns, rows)
    ensures |u.rows| == |rows| && Rectangular(columns, u.rows)
    ensures forall i, c :: 0 <= i < |rows| && 0 <= c < |columns| && c != j ==> u.rows[i][c] == rows[i][c]
    ensures forall i :: 0 <= i < |rows| ==> u.rows[i][j] == SanitizedCell(cfg, columns[j], rows[i][j])
    ensures u.affected == if IsSensitiveColumn(cfg, columns[j]) then |FilledRows(rows, j)| else 0
  {
    if IsSensitiveColumn(cfg, columns[j]) then UpdateColumn(rows, j, NamePlaceholder(columns[j]))
    else Update(rows, 0)
  }

  /** Update the sensitive columns from position `j` on, each to the
      placeholder of its own name. */
  function SanitizeColumns(cfg: Config, columns: seq<string>, rows: seq<seq<Cell>>, j: nat): (r: Update)
    requires j <= |columns| && Rectangular(columns, rows)
    ensures |r.rows| == |rows| && Rectangular(columns, r.rows)
    decreases |columns| - j
  {
    if j == |columns| then Update(rows, 0)
    else
      var u := ColumnUpdate(cfg, columns, rows, j);
      var rest := SanitizeColumns(cfg, columns, u.rows, j + 1);
      Update(rest.rows, u.affected + rest.affected)
  }

  /** The row counts reported while updating the sensitive columns from
      position `j` on add up to the number of filled cells those columns held
      before any update. */
  lemma {:induction false} ColumnsCount(cfg: Config, columns: seq<string>, rows: seq<seq<Cell>>, j: nat)
    requires j <= |columns| && Rectangular(columns, rows)
    ensures SanitizeColumns(cfg, columns, rows, j).affected == SensitiveFilled(cfg, columns, rows, j)
    decreases |columns| - j
  {
    if j < |columns| {
      var u := ColumnUpdate(cfg, columns, rows, j);
      ColumnsCount(cfg, columns, u.rows, j + 1);
      ColumnsStep(cfg, columns, rows, j);
    }
  }

  /** One column's count in front of the rest, for both the updates and the
      filled cells. */
  lemma ColumnsStep(cfg: Config, columns: seq<string>, rows: seq<seq<Cell>>, j: nat)
    requires j < |columns| && Rectangular(columns, rows)
    ensures var u := ColumnUpdate(cfg, columns, rows, j);
      && SanitizeColumns(cfg, columns, rows, j).affected == u.affected + SanitizeColumns(cfg, columns, u.rows, j + 1).affected
      && SensitiveFilled(cfg, columns, rows, j) == u.affected + SensitiveFilled(cfg, columns, u.rows, j + 1)
  {
    var u := ColumnUpdate(cfg, columns, rows, j);
    SensitiveFilledFrom(cfg, columns, u.rows, rows, j + 1);
  }

  /** Cell `c` of row `i` after the columns from position `j` on are updated. */
  lemma {:induction false} ColumnsCell(cfg: Config, columns: seq<string>, rows: seq<seq<Cell>>, j: nat, i: nat, c: nat)
    requires j <= |columns| && Rectangular(columns, rows)
    requires i < |rows| && c < |columns|
    ensures SanitizeColumns(cfg, columns, rows, j).rows[i][c] ==
              if j <= c then SanitizedCell(cfg, columns[c], rows[i][c]) else rows[i][c]
    decreases |columns| - j
  {
    if j < |columns| {
      var u := ColumnUpdate(cfg, columns, rows, j);
      ColumnsCell(cfg, columns, u.rows, j + 1, i, c);
    }
  }

  /** The table pass: the cells of sensitive columns that hold a value become
      the placeholder of their column's name; every other cell, and the
      table's name and schema, stay as they were. The count is the number of
      cells rewritten. */
  function SanitizeTable(cfg: Config, t: Table): (r: (Table, nat))
    requires Rectangular(t.columns, t.rows)
    ensures r.1 == SensitiveFilled(cfg, t.columns, t.rows, 0)
    ensures r.0.name == t.name && r.0.columns == t.columns
    ensures |r.0.rows| == |t.rows| && Rectangular(t.columns, r.0.rows)
    ensures forall i, c :: 0 <= i < |t.rows| && 0 <= c < |t.columns| ==>
              r.0.rows[i][c] == SanitizedCell(cfg, t.columns[c], t.rows[i][c])
  {
    var u := SanitizeColumns(cfg, t.columns, t.rows, 0);
    ColumnsCount(cfg, t.columns, t.rows, 0);
    assert forall i, c :: 0 <= i < |t.rows| && 0 <= c < |t.columns| ==>
             u.rows[i][c] == SanitizedCell(cfg, t.columns[c], t.rows[i][c]) by {
      forall i, c | 0 <= i < |t.rows| && 0 <= c < |t.columns| {
        ColumnsCell(cfg, t.columns, t.rows, 0, i, c);
      }
    }
    (t.(rows := u.rows), u.affected)
  }

  datatype DatabaseOutcome = DatabaseOutcome(tables: seq<Table>, hits: nat)

  /** The filled cells of the sensitive columns of the tables from position
      `k` on. */
  function TablesFilled(cfg: Config, tables: seq<Table>, k: nat): nat
    requires k <= |tables|
    requires forall i :: 0 <= i < |tables| ==> Rectangular(tables[i].columns, tables[i].rows)
    decreases |tables| - k
  {
    if k == |tables| then 0
    else SensitiveFilled(cfg, tables[k].columns, tables[k].rows, 0) + TablesFilled(cfg, tables, k + 1)
  }

  /** The count over the tables after the first is the count over the rest. */
  lemma {:induction false} TablesFilledShift(cfg: Config, tables: seq<Table>, k: nat)
    requires 1 <= k <= |tables|
    requires forall i :: 0 <= i < |tables| ==> Rectangular(tables[i].columns, tables[i].rows)
    ensures TablesFilled(cfg, tables, k) == TablesFilled(cfg, tables[1..], k - 1)
    decreases |tables| - k
  {
    if k < |tables| {
      TablesFilledShift(cfg, tables, k + 1);
      assert tables[1..][k - 1] == tables[k];
    }
  }

  /** Every table of a database, in the order the catalogue lists them. The
      hits are the filled cells of the sensitive columns of all tables. */
  function SanitizeDatabase(cfg: Config, tables: seq<Table>): (r: DatabaseOutcome)
    requires forall i :: 0 <= i < |tables| ==> Rectangular(tables[i].columns, tables[i].rows)
    ensures r.hits == TablesFilled(cfg, tables, 0)
    ensures |r.tables| == |tables|
    ensures forall i :: 0 <= i < |tables| ==> r.tables[i] == SanitizeTable(cfg, tables[i]).0
    decreases |tables|
  {
    if tables == [] then DatabaseOutcome([], 0)
    else
      var t := SanitizeTable(cfg, tables[0]);
      var rest := SanitizeDatabase(cfg, tables[1..]);
      assert forall i :: 1 <= i < |tables| ==> tables[1..][i - 1] == tables[i];
      TablesFilledShift(cfg, tables, 1);
      DatabaseOutcome([t.0] + rest.tables, t.1 + rest.hits)
  }

  // ---------------------------------------------------------------------------
  // Whole files and the counters.

  /** One file of the configuration tree, already parsed: a database, an XML
      or JSON document, or text (a `.conf`/`.cfg`/`.ini`/`.properties` file,
      or an XML or JSON file that failed to parse). */
  datatype Document =
    | Database(tables: seq<Table>)
    | XmlDocument(root: Element)
    | JsonDocument(value: Json.Value)
    | TextDocument(content: string)

  predicate WellFormedDocument(d: Document)
  {
    d.Database? ==> forall i :: 0 <= i < |d.tables| ==> Rectangular(d.tables[i].columns, d.tables[i].rows)
  }

  /** Sanitise one file and count it: a database bumps the database counter,
      any other file the file counter, and the hits go to both item counters. */
  /** The hits one file reports: the filled sensitive cells of a database,
      or the hits of the walk, the JSON pass or the text pass. */
  function Hits(cfg: Config, d: Document): nat
    requires WellFormedDocument(d)
  {
    match d
    case Database(tables) => SanitizeDatabase(cfg, tables).hits
    case XmlDocument(root) => Walk(cfg, root).hits
    case JsonDocument(v) => SanitizeValue(cfg, v).hits
    case TextDocument(content) => SanitizeText(cfg, content).hits
  }

  /** The hits of a sequence of files, added up. */
  function TotalHits(cfg: Config, docs: seq<Document>): nat
    requires forall i :: 0 <= i < |docs| ==> WellFormedDocument(docs[i])
  {
    if docs == [] then 0 else Hits(cfg, docs[0]) + TotalHits(cfg, docs[1..])
  }

  /** How many of the files are databases. */
  function Databases(docs: seq<Document>): (n: nat)
    ensures n <= |docs|
  {
    if docs == [] then 0 else (if docs[0].Database? then 1 else 0) + Databases(docs[1..])
  }

  function Process(cfg: Config, s: Stats, d: Document): (r: (Document, Stats))
    requires WellFormedDocument(d)
    ensures Balanced(s) ==> Balanced(r.1)
    ensures r.1.found >= s.found && r.1.sanitized >= s.sanitized
    ensures d.Database? ==> r.0.Database? && |r.0.tables| == |d.tables|
    ensures d.Database? ==> r.1.databasesProcessed == s.databasesProcessed + 1 && r.1.filesProcessed == s.filesProcessed
    ensures !d.Database? ==> r.1.filesProcessed == s.filesProcessed + 1 && r.1.databasesProcessed == s.databasesProcessed
    ensures !d.Database? && r.0 != d ==> r.1.found > s.found && r.1.sanitized > s.sanitized
    ensures r.1.found == s.found + Hits(cfg, d) && r.1.sanitized == s.sanitized + Hits(cfg, d)
    ensures d.Database? ==> forall i :: 0 <= i < |d.tables| ==> r.0.tables[i] == SanitizeTable(cfg, d.tables[i]).0
    ensures d.Database? ==> Hits(cfg, d) == TablesFilled(cfg, d.tables, 0)
    ensures d.XmlDocument? ==> r.0 == XmlDocument(Walk(cfg, d.root).element) && Hits(cfg, d) == Walk(cfg, d.root).hits
    ensures d.JsonDocument? ==> r.0 == JsonDocument(SanitizeValue(cfg, d.value).value) && Hits(cfg, d) == SanitizeValue(cfg, d.value).hits
    ensures d.TextDocument? ==> r.0 == TextDocument(SanitizeText(cfg, d.content).text) && Hits(cfg, d) == SanitizeText(cfg, d.content).hits
  {
    match d
    case Database(tables) =>
      var o := SanitizeDatabase(cfg, tables);
      (Database(o.tables), Record(s, o.hits).(databasesProcessed := s.databasesProcessed + 1))
    case XmlDocument(root) =>
      var w := Walk(cfg, root);
      (XmlDocument(w.element), Record(s, w.hits).(filesProcessed := s.filesProcessed + 1))
    case JsonDocument(v) =>
      var o := SanitizeValue(cfg, v);
      (JsonDocument(o.value), Record(s, o.hits).(filesProcessed := s.filesProcessed + 1))
    case TextDocument(content) =>
      var p := SanitizeText(cfg, content);
      (TextDocument(p.text), Record(s, p.hits).(filesProcessed := s.filesProcessed + 1))
  }

  /** Sanitise a sequence of files in order. Starting from balanced counters,
      found and sanitised stay equal and never decrease, and every file is
      counted exactly once. */
  function ProcessAll(cfg: Config, s: Stats, docs: seq<Document>): (r: (seq<Document>, Stats))
    requires forall i :: 0 <= i < |docs| ==> WellFormedDocument(docs[i])
    ensures |r.0| == |docs|
    ensures forall i :: 0 <= i < |docs| ==> r.0[i] == Process(cfg, s, docs[i]).0
    ensures Balanced(s) ==> Balanced(r.1)
    ensures r.1.found >= s.found && r.1.sanitized >= s.sanitized
    ensures r.1.found == s.found + TotalHits(cfg, docs) && r.1.sanitized == s.sanitized + TotalHits(cfg, docs)
    ensures r.1.databasesProcessed == s.databasesProcessed + Databases(docs)
    ensures r.1.filesProcessed == s.filesProcessed + (|docs| - Databases(docs))
    ensures r.1.filesProcessed + r.1.databasesProcessed == s.filesProcessed + s.databasesProcessed + |docs|
    decreases |docs|
  {
    if docs == [] then ([], s)
    else
      var first := Process(cfg, s, docs[0]);
      assert forall i :: 1 <= i < |docs| ==> docs[1..][i - 1] == docs[i];
      var rest := ProcessAll(cfg, first.1, docs[1..]);
      ([first.0] + rest.0, rest.1)
  }
}

=== FILE: seqs.dfy ===
/** Generic facts about sequences and multisets, stated once so that the
    proofs about particular lists can use them without re-deriving them. */
module Seqs {
  /** Concatenation regroups freely. */
  lemma ConcatAssoc<T>(a: seq<T>, b: seq<T>, c: seq<T>)
    ensures a + b + c == a + (b + c)
  {
  }

  /** Indexing a sequence built by putting one element in front. */
  lemma ConsIndex<T>(x: T, rest: seq<T>, j: nat)
    requires j <= |rest|
    ensures ([x] + rest)[0] == x
    ensures j < |rest| ==> ([x] + rest)[j + 1] == rest[j]
  {
  }

  /** The suffix from `k` is its first element and the suffix after it. */
  lemma DropCons<T>(s: seq<T>, k: nat)
    requires k < |s|
    ensures s[k..] == [s[k]] + s[k + 1..]
  {
  }

  /** A non-empty sequence is its first element and the rest. */
  lemma HeadCons<T>(s: seq<T>)
    requires |s| > 0
    ensures s == [s[0]] + s[1..]
  {
  }

  /** A sequence is its part before `j`, its element at `j` and the rest. */
  lemma SplitAt<T>(s: seq<T>, j: nat)
    requires j < |s|
    ensures s == s[..j] + [s[j]] + s[j + 1..]
  {
  }

  /** Positions and slices past a prefix `h` are those of the remainder `t`. */
  lemma AfterPrefix<T>(h: seq<T>, t: seq<T>, i: nat, j: nat)
    requires i <= j <= |t|
    ensures (h + t)[|h| + i..|h| + j] == t[i..j]
    ensures j < |t| ==> (h + t)[|h| + j] == t[j]
  {
  }

  /** Multiset union regroups freely. */
  lemma SwapUnion<T>(p: multiset<T>, q: multiset<T>, r: multiset<T>)
    ensures p + (q + r) == q + (p + r)
  {
  }

  /** Where the pieces of `h + (a + p + u + [x])` sit. */
  lemma Layout<T>(h: seq<T>, a: seq<T>, p: seq<T>, u: seq<T>, x: T)
    ensures var r := h + (a + p + u + [x]);
      && |r| == |h| + |a| + |p| + |u| + 1
      && r[|h|..|h| + |a|] == a
      && (forall i :: 0 <= i < |p| ==> r[|h| + |a| + i] == p[i])
      && (forall i :: 0 <= i < |u| ==> r[|h| + |a| + |p| + i] == u[i])
      && r[|r| - 1] == x
  {
  }
}

=== FILE: settings.dfy ===
/** The settings store the Dockerfile synthesiser reads `settings.json` and the
    keybinding files from. A store is a map from file name to contents; a name
    it lacks is a failed lookup, as with the in-memory store of the tests. */
module Settings {
  import opened Wrappers

  type Repository = map<string, string>

  /** `Repository.Get`: the stored contents, or an error naming the file. */
  function Get(repo: Repository, filename: string): (r: Result<string, string>)
    ensures r.Success? <==> filename in repo
    ensures r.Success? ==> r.value == repo[filename]
    ensures r.Failure? ==> r.error == "Filename " + filename + " not found"
  {
    if filename in repo then Success(repo[filename])
    else Failure("Filename " + filename + " not found")
  }
}

=== FILE: strings.dfy ===
/** String helpers with the semantics of Go's `strings` / `fmt` and Python's `str`
    methods that the model needs: joining and splitting on a one-character
    separator, ASCII case mapping, substring search, trimming, and decimal
    formatting of integers. */
module Strings {
  import opened Wrappers
  import opened Seqs

  /** Go's `strings.Join`: the pieces with `sep` between consecutive ones. */
  function Join(xs: seq<string>, sep: string): string
  {
    if |xs| == 0 then ""
    else if |xs| == 1 then xs[0]
    else xs[0] + sep + Join(xs[1..], sep)
  }

  /** Go's `strings.Split(s, string(sep))`: `n` separators give `n + 1` pieces,
      so the empty string splits into one empty piece. */
  function Split(s: string, sep: char): (r: seq<string>)
    ensures |r| >= 1
    ensures forall i :: 0 <= i < |r| ==> sep !in r[i]
    decreases |s|
  {
    if |s| == 0 then [""]
    else
      var rest := Split(s[1..], sep);
      if s[0] == sep then [""] + rest
      else [[s[0]] + rest[0]] + rest[1..]
  }

  /** The lines of a text, split at every `'\n'`. */
  function Lines(s: string): seq<string>
  {
    Split(s, '\n')
  }

  /** Splitting the pieces of a join, one split per piece. */
  function SplitEach(xs: seq<string>, sep: char): seq<string>
  {
    if |xs| == 0 then [] else Split(xs[0], sep) + SplitEach(xs[1..], sep)
  }

  /** Splitting distributes over a separator placed between two texts. */
  lemma {:induction false} SplitAppend(a: string, b: string, sep: char)
    ensures Split(a + [sep] + b, sep) == Split(a, sep) + Split(b, sep)
    decreases |a|
  {
    if |a| == 0 {
      assert a + [sep] + b == [sep] + b;
      assert ([sep] + b)[1..] == b;
    } else {
      var s := a + [sep] + b;
      assert s[0] == a[0];
      assert s[1..] == a[1..] + [sep] + b;
      SplitAppend(a[1..], b, sep);
    }
  }

  /** A text without the separator is a single piece. */
  lemma {:induction false} SplitWithoutSep(a: string, sep: char)
    requires sep !in a
    ensures Split(a, sep) == [a]
    decreases |a|
  {
    if |a| > 0 {
      assert sep !in a[1..];
      SplitWithoutSep(a[1..], sep);
      assert [a[0]] + a[1..] == a;
    }
  }

  /** Splitting a join yields the splits of the joined pieces, in order. */
  lemma {:induction false} SplitJoin(xs: seq<string>, sep: char)
    requires |xs| >= 1
    ensures Split(Join(xs, [sep]), sep) == SplitEach(xs, sep)
    decreases |xs|
  {
    if |xs| == 1 {
      assert SplitEach(xs, sep) == Split(xs[0], sep) + SplitEach([], sep);
    } else {
      SplitJoin(xs[1..], sep);
      SplitAppend(xs[0], Join(xs[1..], [sep]), sep);
    }
  }

  /** Round trip: pieces without the separator are recovered by splitting their join. */
  lemma {:induction false} SplitJoinPlain(xs: seq<string>, sep: char)
    requires |xs| >= 1
    requires forall i :: 0 <= i < |xs| ==> sep !in xs[i]
    ensures Split(Join(xs, [sep]), sep) == xs
  {
    SplitJoin(xs, sep);
    SplitEachPlain(xs, sep);
  }

  lemma {:induction false} SplitEachPlain(xs: seq<string>, sep: char)
    requires forall i :: 0 <= i < |xs| ==> sep !in xs[i]
    ensures SplitEach(xs, sep) == xs
    decreases |xs|
  {
    if |xs| > 0 {
      SplitWithoutSep(xs[0], sep);
      SplitEachPlain(xs[1..], sep);
    }
  }

  /** Splitting pieces one by one starts with the split of the first piece. */
  lemma SplitEachCons(x: string, ys: seq<string>, sep: char)
    ensures SplitEach([x] + ys, sep) == Split(x, sep) + SplitEach(ys, sep)
  {
    assert ([x] + ys)[1..] == ys;
  }

  /** Splitting pieces one by one distributes over concatenating the pieces. */
  lemma {:induction false} SplitEachAppend(xs: seq<string>, ys: seq<string>, sep: char)
    ensures SplitEach(xs + ys, sep) == SplitEach(xs, sep) + SplitEach(ys, sep)
    decreases |xs|
  {
    if |xs| == 0 {
      assert xs + ys == ys;
    } else {
      assert (xs + ys)[0] == xs[0];
      assert (xs + ys)[1..] == xs[1..] + ys;
      SplitEachAppend(xs[1..], ys, sep);
    }
  }

  /** The join of several pieces starts with the first two pieces. */
  lemma JoinFirstTwo(xs: seq<string>, sep: string)
    requires |xs| >= 3
    ensures IsPrefix(xs[0] + sep + xs[1] + sep, Join(xs, sep))
  {
    JoinFirst(xs, sep);
    JoinFirst(xs[1..], sep);
    var h := xs[0] + sep + xs[1] + sep;
    assert Join(xs, sep) == h + Join(xs[2..], sep);
    SliceConcat(h, Join(xs[2..], sep));
  }

  /** The join of several pieces ends with the last three pieces. */
  lemma JoinLastThree(xs: seq<string>, sep: string)
    requires |xs| >= 4
    ensures IsSuffix(sep + xs[|xs| - 3] + sep + xs[|xs| - 2] + sep + xs[|xs| - 1], Join(xs, sep))
  {
    var n := |xs|;
    var x, y, z := xs[n - 3], xs[n - 2], xs[n - 1];
    var a := Join(xs[..n - 3], sep);
    var b := Join(xs[..n - 2], sep);
    var c := Join(xs[..n - 1], sep);
    assert b == a + sep + x by {
      JoinLast(xs[..n - 2], sep);
      assert xs[..n - 2][..n - 3] == xs[..n - 3];
    }
    assert c == b + sep + y by {
      JoinLast(xs[..n - 1], sep);
      assert xs[..n - 1][..n - 2] == xs[..n - 2];
    }
    assert Join(xs, sep) == c + sep + z by {
      JoinLast(xs, sep);
    }
    var t := sep + x + sep + y + sep + z;
    assert Join(xs, sep) == a + t by {
      ConcatAssoc(a, sep, x);
      ConcatAssoc(a, sep + x, sep);
      ConcatAssoc(a, sep + x + sep, y);
      ConcatAssoc(a, sep + x + sep + y, sep);
      ConcatAssoc(a, sep + x + sep + y + sep, z);
    }
    SliceConcat(a, t);
  }

  /** Round trip the other way: joining the pieces of a split restores the text. */
  lemma {:induction false} JoinSplit(s: string, sep: char)
    ensures Join(Split(s, sep), [sep]) == s
    decreases |s|
  {
    if |s| > 0 {
      var rest := Split(s[1..], sep);
      JoinSplit(s[1..], sep);
      if s[0] == sep {
        assert Split(s, sep) == [""] + rest;
        assert ([""] + rest)[1..] == rest;
      } else {
        JoinHead(rest, [s[0]]);
      }
    }
  }

  /** Prepending to the first piece prepends to the join. */
  lemma JoinHead(xs: seq<string>, p: string, sep: string := "\n")
    requires |xs| >= 1
    ensures Join([p + xs[0]] + xs[1..], sep) == p + Join(xs, sep)
  {
    var ys := [p + xs[0]] + xs[1..];
    assert ys[1..] == xs[1..];
  }

  /** The join of several pieces starts with the first piece and a separator. */
  lemma JoinFirst(xs: seq<string>, sep: string)
    requires |xs| >= 2
    ensures Join(xs, sep) == xs[0] + sep + Join(xs[1..], sep)
  {
  }

  /** The join of several pieces ends with a separator and the last piece. */
  lemma {:induction false} JoinLast(xs: seq<string>, sep: string)
    requires |xs| >= 2
    ensures Join(xs, sep) == Join(xs[..|xs| - 1], sep) + sep + xs[|xs| - 1]
    decreases |xs|
  {
    if |xs| > 2 {
      JoinLast(xs[1..], sep);
      assert xs[1..][..|xs| - 2] == xs[..|xs| - 1][1..];
      assert xs[1..][|xs| - 2] == xs[|xs| - 1];
    } else {
      assert xs[..1] == [xs[0]];
    }
  }

  /** The two halves of a concatenation. */
  lemma SliceConcat(x: string, y: string)
    ensures (x + y)[..|x|] == x && (x + y)[|x|..] == y
  {
  }

  predicate IsPrefix(p: string, s: string)
  {
    |p| <= |s| && s[..|p|] == p
  }

  predicate IsSuffix(p: string, s: string)
  {
    |p| <= |s| && s[|s| - |p|..] == p
  }

  // ---------------------------------------------------------------------------
  // ASCII case mapping (Go's strings.ToLower, Python's str.lower / str.upper,
  // restricted to the ASCII letters).

  predicate IsUpperAscii(c: char) { 'A' <= c <= 'Z' }

  predicate IsLowerAscii(c: char) { 'a' <= c <= 'z' }

  function LowerChar(c: char): char
  {
    if IsUpperAscii(c) then (c as int + 32) as char else c
  }

  function UpperChar(c: char): char
  {
    if IsLowerAscii(c) then (c as int - 32) as char else c
  }

  /** ASCII lower-casing: letters `A`-`Z` become `a`-`z`, every other character stays. */
  function Lower(s: string): (r: string)
    ensures |r| == |s|
    ensures forall i :: 0 <= i < |s| ==> r[i] == LowerChar(s[i])
    ensures forall i :: 0 <= i < |r| ==> !IsUpperAscii(r[i])
  {
    seq(|s|, i requires 0 <= i < |s| => LowerChar(s[i]))
  }

  /** ASCII upper-casing: letters `a`-`z` become `A`-`Z`, every other character stays. */
  function Upper(s: string): (r: string)
    ensures |r| == |s|
    ensures forall i :: 0 <= i < |s| ==> r[i] == UpperChar(s[i])
    ensures forall i :: 0 <= i < |r| ==> !IsLowerAscii(r[i])
  {
    seq(|s|, i requires 0 <= i < |s| => UpperChar(s[i]))
  }

  /** Go's `strings.ReplaceAll` for a one-character pattern and replacement. */
  function ReplaceChar(s: string, from: char, to: char): (r: string)
    ensures |r| == |s|
    ensures forall i :: 0 <= i < |s| ==> r[i] == (if s[i] == from then to else s[i])
  {
    seq(|s|, i requires 0 <= i < |s| => if s[i] == from then to else s[i])
  }

  // ---------------------------------------------------------------------------
  // Substring search (Python's `needle in haystack`).

  /** `needle` occurs in `hay` starting at position `i`. */
  predicate OccursAt(hay: string, needle: string, i: int)
  {
    0 <= i && i + |needle| <= |hay| && hay[i..i + |needle|] == needle
  }

  /** Substring test, scanning from the left. */
  predicate Contains(hay: string, needle: string)
    decreases |hay|
  {
    IsPrefix(needle, hay) || (|hay| > 0 && Contains(hay[1..], needle))
  }

  /** An occurrence at any position is found by the scan. */
  lemma {:induction false} OccursContains(hay: string, needle: string, i: int)
    requires OccursAt(hay, needle, i)
    ensures Contains(hay, needle)
    decreases i
  {
    if i > 0 {
      assert hay[1..][i - 1..i - 1 + |needle|] == hay[i..i + |needle|];
      OccursContains(hay[1..], needle, i - 1);
    }
  }

  /** What the scan finds is an occurrence at some position. */
  lemma {:induction false} ContainsOccurs(hay: string, needle: string)
    requires Contains(hay, needle)
    ensures exists i :: OccursAt(hay, needle, i)
    decreases |hay|
  {
    if IsPrefix(needle, hay) {
      assert OccursAt(hay, needle, 0);
    } else {
      ContainsOccurs(hay[1..], needle);
      var j :| OccursAt(hay[1..], needle, j);
      assert hay[1..][j..j + |needle|] == hay[j + 1..j + 1 + |needle|];
      assert OccursAt(hay, needle, j + 1);
    }
  }

  /** The scan finds `needle` exactly when it occurs at some position. */
  lemma ContainsIff(hay: string, needle: string)
    ensures Contains(hay, needle) <==> exists i :: OccursAt(hay, needle, i)
  {
    if Contains(hay, needle) {
      ContainsOccurs(hay, needle);
    }
    forall i | OccursAt(hay, needle, i)
      ensures Contains(hay, needle)
    {
      OccursContains(hay, needle, i);
    }
  }

  /** Some word of `words` occurs in `s` (Python's `any(w in s for w in words)`). */
  predicate ContainsAny(s: string, words: seq<string>)
    decreases |words|
  {
    |words| > 0 && (Contains(s, words[0]) || ContainsAny(s, words[1..]))
  }

  lemma {:induction false} ContainsAnyIff(s: string, words: seq<string>)
    ensures ContainsAny(s, words) <==> exists k :: 0 <= k < |words| && Contains(s, words[k])
    decreases |words|
  {
    if |words| > 0 {
      ContainsAnyIff(s, words[1..]);
      if ContainsAny(s, words[1..]) {
        var k :| 0 <= k < |words[1..]| && Contains(s, words[1..][k]);
        assert Contains(s, words[k + 1]);
      }
      forall k | 0 <= k < |words| && Contains(s, words[k]) && k > 0
        ensures ContainsAny(s, words[1..])
      {
        assert words[1..][k - 1] == words[k];
      }
    }
  }

  // ---------------------------------------------------------------------------
  // Trimming and locating characters.

  /** Python's `s.rstrip(c)` / Go's `strings.TrimRight` for one character. */
  function TrimRight(s: string, c: char): (r: string)
    ensures |r| <= |s| && r == s[..|r|]
    ensures |r| == 0 || r[|r| - 1] != c
    ensures forall i :: |r| <= i < |s| ==> s[i] == c
    decreases |s|
  {
    if |s| > 0 && s[|s| - 1] == c then TrimRight(s[..|s| - 1], c) else s
  }

  /** The first position of `c` in `s`, if any. */
  function IndexOf(s: string, c: char): (r: Option<nat>)
    ensures r.None? <==> c !in s
    ensures r.Some? ==> r.value < |s| && s[r.value] == c && c !in s[..r.value]
    decreases |s|
  {
    if |s| == 0 then None
    else if s[0] == c then Some(0)
    else
      var rest := IndexOf(s[1..], c);
      assert s == [s[0]] + s[1..];
      if rest.None? then None
      else
        assert s[..rest.value + 1] == [s[0]] + s[1..][..rest.value];
        Some(rest.value + 1)
  }

  /** The first `c` of `x + [c] + y` is the one after `x` when `x` has none. */
  lemma IndexOfSplit(x: string, c: char, y: string)
    requires c !in x
    ensures IndexOf(x + [c] + y, c) == Some(|x|)
    ensures (x + [c] + y)[..|x|] == x && (x + [c] + y)[|x| + 1..] == y
    ensures (x + [c] + y)[|x|..] == [c] + y
  {
    var s := x + [c] + y;
    assert s[|x|] == c;
    var k := IndexOf(s, c);
    assert k.Some?;
    assert s == x + ([c] + y);
  }

  /** The last position of `c` in `s`, or -1 when it does not occur. */
  function LastIndexOf(s: string, c: char): (r: int)
    ensures -1 <= r < |s|
    ensures r >= 0 ==> s[r] == c
    ensures forall j :: r < j < |s| ==> s[j] != c
    decreases |s|
  {
    if |s| == 0 then -1
    else if s[|s| - 1] == c then |s| - 1
    else LastIndexOf(s[..|s| - 1], c)
  }

  // ---------------------------------------------------------------------------
  // Decimal formatting (Go's `%d`) and its inverse.

  predicate IsDigit(c: char) { '0' <= c <= '9' }

  function DigitChar(d: nat): (c: char)
    requires d < 10
    ensures IsDigit(c)
  {
    (48 + d) as char
  }

  function DigitValue(c: char): nat
    requires IsDigit(c)
  {
    c as int - 48
  }

  /** The decimal digits of a natural number, most significant first, no leading zero. */
  function NatDigits(n: nat): (r: string)
    ensures |r| >= 1
    ensures forall i :: 0 <= i < |r| ==> IsDigit(r[i])
    ensures |r| > 1 ==> r[0] != '0'
    decreases n
  {
    if n < 10 then [DigitChar(n)] else NatDigits(n / 10) + [DigitChar(n % 10)]
  }

  /** Go's `fmt.Sprintf("%d", n)`. */
  function Decimal(n: int): string
  {
    if n < 0 then "-" + NatDigits(-n) else NatDigits(n)
  }

  /** Reads a non-empty string of decimal digits. */
  function ParseNat(s: string): Option<nat>
    decreases |s|
  {
    if |s| == 0 || !IsDigit(s[|s| - 1]) then None
    else if |s| == 1 then Some(DigitValue(s[0]))
    else
      match ParseNat(s[..|s| - 1])
      case None => None
      case Some(p) => Some(10 * p + DigitValue(s[|s| - 1]))
  }

  /** Reads an optionally negative decimal integer. */
  function ParseDecimal(s: string): Option<int>
  {
    if |s| > 0 && s[0] == '-' then
      match ParseNat(s[1..])
      case None => None
      case Some(n) => Some(-(n as int))
    else
      match ParseNat(s)
      case None => None
      case Some(n) => Some(n)
  }

  lemma {:induction false} ParseNatDigits(n: nat)
    ensures ParseNat(NatDigits(n)) == Some(n)
    decreases n
  {
    if n >= 10 {
      var s := NatDigits(n);
      ParseNatDigits(n / 10);
      assert s[..|s| - 1] == NatDigits(n / 10);
    }
  }

  /** Formatting an integer and reading it back gives the same integer. */
  lemma DecimalRoundTrip(n: int)
    ensures ParseDecimal(Decimal(n)) == Some(n)
  {
    if n < 0 {
      var d := NatDigits(-n);
      ParseNatDigits(-n);
      assert ("-" + d)[0] == '-' && ("-" + d)[1..] == d;
    } else {
      var d := NatDigits(n);
      ParseNatDigits(n);
      assert IsDigit(d[0]);
    }
  }

  /** A decimal never contains a character other than digits and a leading minus. */
  lemma DecimalChars(n: int)
    ensures forall i :: 0 <= i < |Decimal(n)| ==> IsDigit(Decimal(n)[i]) || (i == 0 && n < 0 && Decimal(n)[i] == '-')
  {
  }
}

=== FILE: utf8.dfy ===
/** Octets. */
module Bytes {
  type Byte = x: int | 0 <= x < 256
}

/** UTF-8 (RFC 3629): the bytes Go's `[]byte(s)` conversion produces from a
    string, and the decoding that reads them back. */
module Utf8 {
  import opened Wrappers
  import opened Bytes

  predicate IsContinuation(b: Byte) { 0x80 <= b < 0xC0 }

  /** The one to four bytes of one Unicode scalar value. */
  function EncodeChar(c: char): (r: seq<Byte>)
    ensures 1 <= |r| <= 4
    ensures |r| == 1 <==> c as int < 0x80
    ensures forall i :: 1 <= i < |r| ==> IsContinuation(r[i])
  {
    var v := c as int;
    if v < 0x80 then [v]
    else if v < 0x800 then [0xC0 + v / 64, 0x80 + v % 64]
    else if v < 0x10000 then [0xE0 + v / 4096, 0x80 + (v / 64) % 64, 0x80 + v % 64]
    else [0xF0 + v / 262144, 0x80 + (v / 4096) % 64, 0x80 + (v / 64) % 64, 0x80 + v % 64]
  }

  /** The UTF-8 bytes of a string, character by character. */
  function Encode(s: string): seq<Byte>
    decreases |s|
  {
    if |s| == 0 then [] else EncodeChar(s[0]) + Encode(s[1..])
  }

  /** Reads one character from the front of `b`: the character and how many
      bytes it used, or None for a malformed, overlong or surrogate sequence. */
  function DecodeFirst(b: seq<Byte>): (r: Option<(char, nat)>)
    ensures r.Some? ==> 1 <= r.value.1 <= |b|
  {
    if |b| == 0 then None
    else if b[0] < 0x80 then Some((b[0] as char, 1))
    else if 0xC0 <= b[0] < 0xE0 && |b| >= 2 && IsContinuation(b[1]) then
      var v := (b[0] as int - 0xC0) * 64 + (b[1] as int - 0x80);
      if v < 0x80 then None else Some((v as char, 2))
    else if 0xE0 <= b[0] < 0xF0 && |b| >= 3 && IsContinuation(b[1]) && IsContinuation(b[2]) then
      var v := (b[0] as int - 0xE0) * 4096 + (b[1] as int - 0x80) * 64 + (b[2] as int - 0x80);
      if v < 0x800 || (0xD800 <= v < 0xE000) then None else Some((v as char, 3))
    else if 0xF0 <= b[0] < 0xF8 && |b| >= 4 && IsContinuation(b[1]) && IsContinuation(b[2]) && IsContinuation(b[3]) then
      var v := (b[0] as int - 0xF0) * 262144 + (b[1] as int - 0x80) * 4096 + (b[2] as int - 0x80) * 64 + (b[3] as int - 0x80);
      if v < 0x10000 || v > 0x10FFFF then None else Some((v as char, 4))
    else None
  }

  /** Reads a whole byte sequence as UTF-8, or None when any part is malformed. */
  function Decode(b: seq<Byte>): Option<string>
    decreases |b|
  {
    if |b| == 0 then Some("")
    else
      match DecodeFirst(b)
      case None => None
      case Some(first) =>
        match Decode(b[first.1..])
        case None => None
        case Some(rest) => Some([first.0] + rest)
  }

  /** Reading a character's encoding from the front of a byte sequence yields
      that character and the encoding's length. */
  lemma DecodeFirstEncodeChar(c: char, rest: seq<Byte>)
    ensures DecodeFirst(EncodeChar(c) + rest) == Some((c, |EncodeChar(c)|))
  {
    var v := c as int;
    if v < 0x80 {
    } else if v < 0x800 {
      DecodeTwo(c, rest);
    } else if v < 0x10000 {
      DecodeThree(c, rest);
    } else {
      DecodeFour(c, rest);
    }
  }

  lemma DecodeTwo(c: char, rest: seq<Byte>)
    requires 0x80 <= c as int < 0x800
    ensures DecodeFirst(EncodeChar(c) + rest) == Some((c, 2))
  {
    var v := c as int;
    var b0, b1 := 0xC0 + v / 64, 0x80 + v % 64;
    assert EncodeChar(c) + rest == [b0, b1] + rest;
    assert (b0 - 0xC0) * 64 + (b1 - 0x80) == v;
  }

  lemma DecodeThree(c: char, rest: seq<Byte>)
    requires 0x800 <= c as int < 0x10000
    ensures DecodeFirst(EncodeChar(c) + rest) == Some((c, 3))
  {
    var v := c as int;
    var b0, b1, b2 := 0xE0 + v / 4096, 0x80 + (v / 64) % 64, 0x80 + v % 64;
    assert EncodeChar(c) + rest == [b0, b1, b2] + rest;
    Sixes(v);
    assert (b0 - 0xE0) * 4096 + (b1 - 0x80) * 64 + (b2 - 0x80) == v;
  }

  lemma DecodeFour(c: char, rest: seq<Byte>)
    requires 0x10000 <= c as int
    ensures DecodeFirst(EncodeChar(c) + rest) == Some((c, 4))
  {
    var v := c as int;
    var b0, b1, b2, b3 := 0xF0 + v / 262144, 0x80 + (v / 4096) % 64, 0x80 + (v / 64) % 64, 0x80 + v % 64;
    assert EncodeChar(c) + rest == [b0, b1, b2, b3] + rest;
    Sixes(v);
    assert (b0 - 0xF0) * 262144 + (b1 - 0x80) * 4096 + (b2 - 0x80) * 64 + (b3 - 0x80) == v;
  }

  /** A value split into 6-bit groups adds back up to itself. */
  lemma Sixes(v: nat)
    ensures (v / 4096) * 4096 + ((v / 64) % 64) * 64 + v % 64 == v
    ensures (v / 262144) * 262144 + ((v / 4096) % 64) * 4096 + ((v / 64) % 64) * 64 + v % 64 == v
  {
    var q := v / 64;
    assert q / 64 == v / 4096;
    assert q / 4096 == v / 262144;
    assert (q / 64) / 64 == q / 4096;
  }

  /** Round trip: the UTF-8 bytes of a string decode back to the string. */
  lemma {:induction false} DecodeEncode(s: string)
    ensures Decode(Encode(s)) == Some(s)
    decreases |s|
  {
    if |s| > 0 {
      var e := EncodeChar(s[0]);
      var rest := Encode(s[1..]);
      DecodeFirstEncodeChar(s[0], rest);
      assert (e + rest)[|e|..] == rest;
      DecodeEncode(s[1..]);
      assert [s[0]] + s[1..] == s;
    }
  }

  /** ASCII text is its own encoding, one byte per character. */
  lemma {:induction false} EncodeAscii(s: string)
    requires forall i :: 0 <= i < |s| ==> s[i] as int < 0x80
    ensures |Encode(s)| == |s|
    ensures forall i :: 0 <= i < |s| ==> Encode(s)[i] == s[i] as int
    decreases |s|
  {
    if |s| > 0 {
      EncodeAscii(s[1..]);
    }
  }

  /** Encoding distributes over concatenation. */
  lemma {:induction false} EncodeAppend(a: string, b: string)
    ensures Encode(a + b) == Encode(a) + Encode(b)
    decreases |a|
  {
    if |a| == 0 {
      assert a + b == b;
    } else {
      assert (a + b)[1..] == a[1..] + b;
      EncodeAppend(a[1..], b);
    }
  }
}

=== FILE: wrappers.dfy ===
/** Failure-carrying values used throughout the model: an optional value (a Go
    nil / a Python None) and a value-or-error result (Go's `(T, error)` pair). */
module Wrappers {

  datatype Option<+T> = None | Some(value: T) {

    /** The value held, or `default` when there is none. */
    function GetOr(default: T): T {
      match this
      case Some(v) => v
      case None => default
    }
  }

  /** A Go `(value, error)` return: exactly one of the two is meaningful. */
  datatype Result<+R, +E> = Success(value: R) | Failure(error: E) {

    /** The value held, or `default` when the call failed (the degrade policy). */
    function GetOr(default: R): R {
      match this
      case Success(v) => v
      case Failure(_) => default
    }
  }
}
